=== FILE: README.md ===
# SSSD krb5 child, ID mapping and HBAC host rules in Dafny

This project models three pieces of SSSD, the System Security Services Daemon.

- **The `krb5_child` helper.** This is the short-lived privileged process that SSSD's Kerberos provider forks for every authentication, password change, account check and ticket renewal. The model covers:
  - decoding the request the parent writes on the child's stdin;
  - the callbacks handed to the Kerberos library (prompter, password-expiry warning, OTP responder);
  - credential-cache creation for `FILE:` and `DIR:` caches;
  - keytab validation of a fresh TGT;
  - the FAST armor-cache set-up;
  - the per-command state machines, with the error mapping they share;
  - the response packet the child writes back.
- **The LDAP provider's ID-mapping glue (`sdap_idmap.c`).** It covers:
  - the validation of the range settings;
  - seeding the map from cached domains or from the default domain;
  - the upper-bound guard when a domain is added;
  - cutting the domain SID out of an object SID;
  - the SID-to-UNIX lookup that learns an unknown domain once and retries.
- **The IPA HBAC host-rule conversion (`ipa_hbac_hosts.c`).** It covers:
  - turning a rule's host-category and member attributes into a rule element of host names and host-group names;
  - the target-host and source-host wrappers;
  - recognising a host-group DN.

Everything the C code gets from the Kerberos library, the kernel or the sysdb cache is an input to the model. These inputs are outcome codes and function-typed fields of environment datatypes such as `CacheEnv`, `ValidateEnv`, `ChildEnv`, `IdmapEnv` and `HbacEnv`. Each operation is a pure function over these environments. It returns what the C function returns, together with the messages it queues for the parent. For cache creation it also returns the file-system effects.

Modules, one per file:

| module | what it holds |
|---|---|
| `Codes` | errno, Kerberos and SSSD error codes, `Option` and `Result` |
| `Bytes` | bytes, C strings, `strndup`, `strcasecmp`/`strncasecmp`, little-endian words |
| `Wire` | the request decoder and the response packet |
| `Responses` | the messages the child queues, and how they are packed |
| `ErrorMap` | `map_krb5_error` |
| `Callbacks` | the prompter, the expiry callback, and the OTP tokeninfo matching and responder |
| `Ccache` | `FILE:` and `DIR:` cache creation |
| `Keytab` | `validate_tgt` |
| `Fast` | the armor cache and `k5c_setup` |
| `Child` | the command handlers and `main` |
| `Idmap` | `sdap_idmap.c` |
| `Hbac` | `ipa_hbac_hosts.c` |

Some behaviour of the code, as the model keeps it:

- Under `krb5_use_fast = try`, a failure to set up the armor cache is returned by `k5c_setup`, and the child stops.
- A request that is cut short fails with `EINVAL`, like any other malformed request.
- The decoder reads the fields of any command word. `main` refuses an unknown command with `EINVAL` and sends no reply.
- `tgt_req_child` does not check the token type. Its `switch (ret)` has no `case` labels, so its body never runs, and a non-password token reaches the library as a missing password.

Four defects of the code are listed under "## Findings". Each defective function is modelled twice, selected by an `asWritten` flag: once as written, and once corrected. These functions are `validate_tgt`, the domain-SID extraction, the `FILE:` and `DIR:` cache creators and the host-group DN check. The operations built on them use the corrected definitions: `Keytab.ValidateTgt`, `Idmap.DomSidFromObject`, `Ccache.CreateCcacheFile`, `Ccache.CreateCcacheInDir` and `Hbac.HostgroupName`. "## Left out" names, member by member, the as-written behaviour that is therefore not promised.

## Model

| member | source | states |
|---|---|---|
| ErrorMap.MapKrb5Error | src/providers/krb5/krb5_child.c:1159-1184 | success maps to success and only success; each listed Kerberos code maps to its own SSSD code, in both directions; every result is `EOK` or an SSSD code |
| ErrorMap.MapKrb5ErrorDefault | src/providers/krb5/krb5_child.c:1181-1182 | every other failure becomes `ERR_INTERNAL` |
| Callbacks.Prompter | src/providers/krb5/krb5_child.c:364-390 | the prompter succeeds exactly when no prompts are asked, and otherwise says it cannot read a password; it queues one text message exactly when it is called without prompts and with a non-empty banner, and that message is the banner |
| Callbacks.PrompterPayload | src/providers/krb5/krb5_child.c:364-390 | the banner message carries the banner plus its terminating NUL, and reads back as the banner |
| Callbacks.ExpireCallback | src/providers/krb5/krb5_child.c:111-147 | a warning is queued exactly when the expiry time is set, not in the past and at most `UINT32_MAX` seconds ahead; it carries the seconds left until expiry |
| Callbacks.PickChecker | src/providers/krb5/krb5_child.c:165-177 | a checker exists exactly for the decimal, hexadecimal and alphanumeric OTP formats |
| Callbacks.FirstRejected | src/providers/krb5/krb5_child.c:267-274 | the index returned is the first character the checker rejects; every character before it is accepted |
| Callbacks.TokeninfoMatches | src/providers/krb5/krb5_child.c:185-279 | a next-OTP or challenge tokeninfo is not supported; a zero length is a protocol error; with a separate PIN, the PIN and the token split the password and the token has the declared length; without token collection the whole password is the PIN; otherwise the whole password is the token |
| Callbacks.TokeninfoMatchesSizes | src/providers/krb5/krb5_child.c:208-265 | exactly which length combinations give `ENOTSUP` and which give `EMSGSIZE` |
| Callbacks.TokeninfoMatchesChars | src/providers/krb5/krb5_child.c:267-274 | the result is `EBADMSG` exactly when a checker applies and some character of the token part fails it |
| Callbacks.SelectTokeninfo | src/providers/krb5/krb5_child.c:309-330 | the chosen tokeninfo matches and every earlier one fails; nothing is chosen exactly when all of them fail |
| Callbacks.SelectNeverAborts | src/providers/krb5/krb5_child.c:309-330 | the search never aborts; it chooses a tokeninfo exactly when some tokeninfo matches |
| Callbacks.GetPassword | src/providers/krb5/krb5_child.c:304-306 | only a password token yields a password, which is the token up to its first NUL; other tokens fail with `ENOENT` or `EACCES` |
| Callbacks.AnswerOtp | src/providers/krb5/krb5_child.c:281-348 | covers a challenge that cannot be read, an absent challenge, an empty tokeninfo list and a non-password token; an answer names the first matching tokeninfo; the answer's code is the library's; `OtpNoCache` is queued exactly when that tokeninfo collects a token |
| Callbacks.AnswerOtpNoMatch | src/providers/krb5/krb5_child.c:332-342 | when no tokeninfo matches, the responder returns success and answers nothing |
| Callbacks.CallbackAdds | src/providers/krb5/krb5_child.c:350-362 | each message the callbacks queue comes from the callback that was both installed and invoked |
| Callbacks.AfterEvent | src/providers/krb5/krb5_child.c:350-362 | one event leaves the response list as it was or puts one message in front of it, of a kind an installed callback produces |
| Callbacks.RunCallbacks | src/providers/krb5/krb5_child.c:350-390 | the response list never shrinks and grows by at most one message per library event |
| Callbacks.RunCallbacksKeeps | src/providers/krb5/krb5_child.c:350-390 | running the callbacks only adds messages in front of the list; every added message is of a kind an installed callback produces |
| Responses.PayloadLength | src/providers/krb5/krb5_child.c:846-882 | the payload length of each message kind: four 64-bit ticket times are 32 bytes, the UPN is its bytes, and so on |
| Responses.TextPayloadIsCString | src/providers/krb5/krb5_child.c:364-390 | a text message is its text plus a terminating NUL, and reads back as the text |
| Responses.EnvPayloadIsCString | src/providers/krb5/krb5_child.c:789-810 | the cache message is `KRB5CCNAME=<name>` with a terminating NUL |
| Responses.ExpireWarnWords | src/providers/krb5/krb5_child.c:138-142 | the expiry warning is two 32-bit words: the sub-tag, then the seconds |
| Responses.AddResponse | src/providers/krb5/krb5_child.c:805-808 | queuing a message, as `pam_add_response` is called here for the cache name, puts it at the head of the response list and keeps the rest |
| Responses.Reply | src/providers/krb5/krb5_child.c:743-787 | the reply packet starts with the status word |
| Responses.ReplySize | src/providers/krb5/krb5_child.c:762-766 | the reply is four status bytes plus eight header bytes and the payload of each message; its first word is the status |
| Responses.AddResponseReply | src/providers/krb5/krb5_child.c:743-787 | a newly queued message is packed first, in front of the bytes of the earlier ones |
| Responses.ReplyReadBack | src/providers/krb5/krb5_child.c:743-787 | the parent reads back exactly the status word and every queued message, in list order |
| Wire.Layout | src/providers/krb5/krb5_child.c:1567-1580 | after the command word (read at line 1567): six 32-bit words, then the principal string |
| Wire.ReadU32 | src/providers/krb5/krb5_child.c:1566-1576 | a word is read exactly when four bytes remain; it is below 2^32; a short buffer gives `EINVAL` |
| Wire.ReadField | src/providers/krb5/krb5_child.c:1576-1580 | a field read gives a field of the requested kind and advances within the buffer; it fails only with `EINVAL` |
| Wire.ReadFieldSpec | src/providers/krb5/krb5_child.c:1514-1544 | exactly when each kind of field can be read: a string needs its declared length present; a token also needs a known type; the string read is the declared bytes up to their first NUL |
| Wire.ReadFields | src/providers/krb5/krb5_child.c:1546-1641 | a sequence of reads gives fields of the requested kinds and fails only with `EINVAL` |
| Wire.DecodeAt | src/providers/krb5/krb5_child.c:1589-1633 | the cache name and keytab are present exactly for the four credential-carrying commands; the token is empty for the other commands; the new token is empty unless the command is a password change; a user name is read exactly for the account check |
| Wire.Decode | src/providers/krb5/krb5_child.c:1546-1641 | `unpack_buffer`: a failure is `EINVAL`, and so is a buffer shorter than the command word; a decoded request carries a cache name and keytab exactly for the credential-carrying commands, a new token only for a password change and a user name exactly for the account check |
| Wire.DecodeEncode | src/providers/krb5/krb5_child.c:1546-1641 | decoding the encoding of a well-formed request gives the request back, whatever follows it |
| Wire.DecodeTruncated | src/providers/krb5/krb5_child.c:1546-1641 | every strict prefix of an encoded request fails with `EINVAL` |
| Wire.UnknownTokenType | src/providers/krb5/krb5_child.c:1536-1537 | a token of an unknown type is refused with `EINVAL` |
| Wire.PackResponse | src/providers/krb5/krb5_child.c:743-787 | the packet is the status word followed by the frames; its length is four plus the frames' size |
| Wire.UnpackPack | src/providers/krb5/krb5_child.c:743-787 | unpacking a packed response gives the status and the frames back |
| Wire.PackAppend | src/providers/krb5/krb5_child.c:774-780 | packing one more frame appends that frame's header and data |
| Bytes.StrNDupPrefix | src/providers/krb5/krb5_child.c:1576-1580 | the copy is the buffer up to its first NUL |
| Bytes.NCaseEqPrefix | src/providers/ipa/ipa_hbac_hosts.c:391-398 | `strncasecmp(lit, b, strlen(b)) == 0` holds exactly when `b` is a case-insensitive prefix of `lit` |
| Ccache.StripFilePrefix | src/providers/krb5/krb5_child.c:502-506 | the path is the name without a leading `FILE:`; something is stripped exactly when the name starts with `FILE:` |
| Ccache.StripFilePrefixOf | src/providers/krb5/krb5_child.c:502-506 | stripping undoes adding `FILE:`; an absolute path is left unchanged |
| Ccache.LastSlash | src/providers/krb5/krb5_child.c:519 | the position of the last `/` |
| Ccache.TempTemplate | src/providers/krb5/krb5_child.c:519-531 | the temporary name is a `mkstemp` template ending in `XXXXXX` |
| Ccache.TempTemplateSameDir | src/providers/krb5/krb5_child.c:519-531 | the temporary cache lives in the target's directory |
| Ccache.Fill | src/providers/krb5/krb5_child.c:533-541 | `mkstemp` replaces only the last six characters |
| Ccache.FillSameDir | src/providers/krb5/krb5_child.c:560-568 | a filled-in template stays in its directory |
| Ccache.StoreCreds | src/providers/krb5/krb5_child.c:440-483 | the handle is closed exactly when every step before the close succeeded; the store succeeds exactly when the close does too |
| Ccache.Discard | src/providers/krb5/krb5_child.c:579-582 | the corrected error path destroys the handle exactly when it is still open |
| Ccache.CreateCcacheFileWith | src/providers/krb5/krb5_child.c:486-590 | nothing is touched exactly when the path is not absolute, and then the result is `EINVAL`; otherwise the first call is `mkstemp` on the template beside the target |
| Ccache.MoveIntoPlace | src/providers/krb5/krb5_child.c:560-577 | the move only adds effects; the corrected path never destroys a handle; the final name is the target or, for an `XXXXXX` target, the target with its last six characters filled in |
| Ccache.FinishFile | src/providers/krb5/krb5_child.c:571-577 | the rename of the temporary cache onto the target is the next effect, and the last one on success |
| Ccache.FileNotAbsolute | src/providers/krb5/krb5_child.c:508-511 | a non-absolute path is refused with `EINVAL` before anything is touched |
| Ccache.FileSuccess | src/providers/krb5/krb5_child.c:486-590 | on success, each step of the creation succeeded in order |
| Ccache.MoveIntoPlaceSuccess | src/providers/krb5/krb5_child.c:560-577 | on success, an `XXXXXX` target was reserved and filled in, and the returned name is that filled-in name |
| Ccache.MoveIntoPlaceReserveFails | src/providers/krb5/krb5_child.c:562-568 | a failed reservation of the target ends the creation with that error |
| Ccache.FileRenameInPlace | src/providers/krb5/krb5_child.c:571-577 | a successful creation ends with a rename inside one directory |
| Ccache.FileNoUseAfterClose | src/providers/krb5/krb5_child.c:579-582 | the corrected `FILE:` path never destroys a handle after it was closed |
| Ccache.FileDestroysClosedHandle | src/providers/krb5/krb5_child.c:560-582 | as written, a failed reservation of an `XXXXXX` target destroys the already closed handle |
| Ccache.FileReserveFailsEffects | src/providers/krb5/krb5_child.c:560-582 | as written, when the target's own `mkstemp` fails after the temporary cache was stored and closed, the steps are: make the temporary file, resolve it, store and close it, try the reservation, destroy the temporary handle |
| Ccache.CreateCcdir | src/providers/krb5/krb5_child.c:595-641 | the directory is usable exactly when `mkdir` succeeds, or it already exists with the right owner, group and mode `0700`; a failed `stat` gives `EIO`; a wrong owner or mode gives `EACCES` |
| Ccache.PrivateDirMode | src/providers/krb5/krb5_child.c:627 | the mode check compares the permission bits with `0700` |
| Ccache.CreateCcacheInDirWith | src/providers/krb5/krb5_child.c:655-664 | a name with no `DIR:` residual gives `EIO` with no effect; otherwise the first effect is dropping privileges |
| Ccache.StoreInto | src/providers/krb5/krb5_child.c:706-710 | storing into a `DIR:` cache records the store and returns its code |
| Ccache.DirSuccess | src/providers/krb5/krb5_child.c:644-717 | on success: privileges were dropped; the residual starts with `:` (reuse) or `/` (new cache); each branch's steps succeeded |
| Ccache.DirNoUseAfterClose | src/providers/krb5/krb5_child.c:712-715 | the corrected `DIR:` path never destroys a handle after it was closed |
| Ccache.CreateCcache | src/providers/krb5/krb5_child.c:722-741 | `FILE:` and `DIR:` caches go to their creators; other types are refused with `EINVAL` |
| Ccache.CreateCcacheName | src/providers/krb5/krb5_child.c:560-568 | the cache name changes only for a `FILE:` `XXXXXX` template, and then only in its last six characters |
| Keytab.ScanFrom | src/providers/krb5/krb5_child.c:914-946 | when the scan stops on an entry, that entry is of the realm looked for, the request principal's, and no error was seen |
| Keytab.FirstInRealm | src/providers/krb5/krb5_child.c:914 | a reference definition: the first entry of the realm |
| Keytab.ScanChoosesFirstInRealm | src/providers/krb5/krb5_child.c:914-946 | the scan chooses the first entry of the realm, or else the last entry |
| Keytab.ScanLoop | src/providers/krb5/krb5_child.c:916-940 | the loop computes the scan |
| Keytab.ValidateTgtWith | src/providers/krb5/krb5_child.c:884-1030 | the TGT counts as verified only when validation returns success |
| Keytab.ValidateTgt | src/providers/krb5/krb5_child.c:884-1030 | corrected: validation succeeds exactly when the TGT was verified against a keytab entry |
| Keytab.ValidateTgtVerifies | src/providers/krb5/krb5_child.c:952-988 | corrected: validation succeeds only after `krb5_verify_init_creds` succeeded on the chosen entry and the scan ended cleanly |
| Keytab.ValidateTgtReadErrorAsWritten | src/providers/krb5/krb5_child.c:959-964 | as written, a keytab read error returns success without verifying; the corrected version returns the error |
| Fast.FastCcacheNamePath | src/providers/krb5/krb5_child.c:1736 | the armor cache is `FILE:<db path>/fast_ccache_<realm>`; its path is absolute exactly when the database path is |
| Fast.GetTgtTimes | src/providers/krb5/krb5_child.c:1667-1711 | only a failure to resolve the cache is an error; a missing ticket gives zero times |
| Fast.CheckFastCcache | src/providers/krb5/krb5_child.c:1713-1812 | a name is returned exactly on success; a new armor ticket is fetched only when the keytab has a usable key |
| Fast.CheckFastReuse | src/providers/krb5/krb5_child.c:1777-1790 | the existing armor cache is reused exactly when the keys are ready and it holds a ticket valid at `now` |
| Fast.CheckFastRenews | src/providers/krb5/krb5_child.c:1777-1790 | otherwise a fresh armor ticket is fetched and stored with the `FILE:` creator, and that creator decides the result |
| Fast.MissingArmorTicketRenews | src/providers/krb5/krb5_child.c:1743-1790 | a cache with no ticket is renewed |
| Fast.ParseUseFast | src/providers/krb5/krb5_child.c:2024-2036 | an unset value or `never` turns FAST off; `try` and `demand` are matched case-insensitively; anything else is unsupported |
| Fast.SetupFast | src/providers/krb5/krb5_child.c:1837-1913 | on success, the armor cache name was set, and under `demand` the FAST-required flag too |
| Fast.SetupFastRealm | src/providers/krb5/krb5_child.c:1849-1880 | the armor realm is the FAST principal's realm, or the user's when no FAST principal is configured |
| Fast.Prepare | src/providers/krb5/krb5_child.c:1929-2019 | preparation succeeds exactly when every library step succeeds; a tracing failure gives `EIO` |
| Fast.Setup | src/providers/krb5/krb5_child.c:1915-2051 | success needs preparation; an armor cache is used only online and under `try` or `demand` |
| Fast.SetupWithoutFast | src/providers/krb5/krb5_child.c:2021-2037 | set-up succeeds without FAST exactly when preparation succeeds and the child is offline or FAST is `never` |
| Fast.SetupUnsupportedFast | src/providers/krb5/krb5_child.c:2031-2035 | an unsupported value is refused with `EINVAL` |
| Fast.SetupFastFailureAborts | src/providers/krb5/krb5_child.c:2026-2050 | a FAST failure is the set-up's result under `try` as well as `demand` |
| Fast.SetupTryIgnoresFlags | src/providers/krb5/krb5_child.c:1900-1910 | under `try` the FAST flags call is not made |
| Child.AttachCcname | src/providers/krb5/krb5_child.c:789-810 | a missing cache name gives `ERR_INTERNAL`; otherwise a `KRB5CCNAME` item is queued |
| Child.AddTimesAndUpn | src/providers/krb5/krb5_child.c:846-882 | the ticket times are queued, then the UPN when it can be unparsed; earlier messages are kept |
| Child.PasswordOf | src/providers/krb5/krb5_child.c:1328-1336 | a password is passed to the library exactly for a password token |
| Child.GetAndSaveTgt | src/providers/krb5/krb5_child.c:1085-1157 | on failure, the messages are those the callbacks queued |
| Child.GetAndSaveTgtSuccess | src/providers/krb5/krb5_child.c:1085-1157 | on success, these steps succeeded in order: acquisition; validation when enabled, against the keytab entry chosen for the request principal's realm; dropping privileges when validating or using FAST; cache creation. Ticket times and UPN follow the callbacks' messages |
| Child.TgtReq | src/providers/krb5/krb5_child.c:1319-1385 | the result is `EOK`, an SSSD code, or the error of `get_changepw_options` |
| Child.TgtReqSuccess | src/providers/krb5/krb5_child.c:1338-1345 | authentication succeeds exactly when the TGT was obtained and saved; the cache name is queued last |
| Child.TgtReqCredsExpired | src/providers/krb5/krb5_child.c:1340-1380 | when `get_changepw_options` does not fail with an SSSD code: `ERR_CREDS_EXPIRED` exactly when the TGT request reports an expired key, `get_changepw_options` succeeds, and the change-password acquisition with the same password either succeeds or itself reports an expired key, which `map_krb5_error` turns into `ERR_CREDS_EXPIRED` too |
| Child.TgtReqIgnoresTokenType | src/providers/krb5/krb5_child.c:1328-1336 | a non-password token behaves like an empty one and never yields `ERR_INVALID_CRED_TYPE` |
| Child.ChpassMessage | src/providers/krb5/krb5_child.c:1269-1289 | the user sees the result string when there is one, else the result-code string, else nothing |
| Child.ChangePw | src/providers/krb5/krb5_child.c:1186-1317 | a token without a password gives `ERR_NO_CREDS` and queues nothing; a failed `get_changepw_options` is returned as it is; success needs the old password and, unless preliminary, the new one |
| Child.ChangeAndLogin | src/providers/krb5/krb5_child.c:1247-1316 | a change succeeds only with a new password |
| Child.ChangePwPrelim | src/providers/krb5/krb5_child.c:1205-1245 | the preliminary check succeeds exactly when a change-password ticket is obtained with the current password; it never changes the password |
| Child.ChangePwRejected | src/providers/krb5/krb5_child.c:1256-1304 | a rejected change gives `ERR_CHPASS_FAILED` and queues the server's message when there is one |
| Child.ChangePwSuccess | src/providers/krb5/krb5_child.c:1186-1317 | a successful change used both passwords, was accepted by the server, and logged in with the new password |
| Child.Kuserok | src/providers/krb5/krb5_child.c:1387-1416 | access is granted exactly when `krb5_kuserok` allows it; otherwise the result is `ERR_AUTH_DENIED` |
| Child.RenewSteps | src/providers/krb5/krb5_child.c:1435-1477 | the steps succeed only when a renewed ticket was obtained |
| Child.Renew | src/providers/krb5/krb5_child.c:1418-1495 | a token that is not a cache file gives `ERR_INVALID_CRED_TYPE`; the result is `EOK` or an SSSD code; a failure queues nothing; success puts the request's cache name at the head, with at least one more new message behind it, and keeps the earlier messages |
| Child.RenewOutcome | src/providers/krb5/krb5_child.c:1418-1495 | only a cache-file token is accepted; renewal succeeds exactly when each step does, and then queues times, UPN and cache name; a failure queues nothing |
| Child.CreateEmptyCcache | src/providers/krb5/krb5_child.c:1497-1512 | the result is `EOK` or an SSSD code; a failure queues nothing; success queues exactly one `KRB5CCNAME` item |
| Child.CreateEmptyCcacheOutcome | src/providers/krb5/krb5_child.c:1497-1512 | offline authentication creates a cache without credentials and queues its name |
| Child.Dispatch | src/providers/krb5/krb5_child.c:2130-2160 | the account check queues nothing and succeeds exactly when `krb5_kuserok` allows; authentication and renewal end with `EOK`, an SSSD code or the error of `get_changepw_options`; a successful renewal had a cache-file token; a successful password change had the passwords it needs |
| Child.Main | src/providers/krb5/krb5_child.c:2053-2181 | when a reply is written the exit status is that of the write; with no reply the status is a failure |
| Child.MainReplies | src/providers/krb5/krb5_child.c:2115-2166 | a reply is written exactly when the request decodes, set-up succeeds, and the command is known and is not a renewal while offline; an undecodable request ends with `EINVAL` |
| Child.MainRefuses | src/providers/krb5/krb5_child.c:2151-2163 | unknown commands and offline renewals end without a reply |
| Child.MainAuthenticate | src/providers/krb5/krb5_child.c:2129-2138 | an online authentication replies with the outcome of `tgt_req_child` |
| Idmap.DecimalRoundTrip | src/providers/ldap/sdap_idmap.c:297 | reading a rendered number gives the number back |
| Idmap.DigitEnd | src/providers/ldap/sdap_idmap.c:297 | `strtoull` stops at the first non-digit |
| Idmap.ReadComponents | src/providers/ldap/sdap_idmap.c:292-308 | reading the three components fails only with `EINVAL` and stops on a `-` |
| Idmap.DomSidFromObjectWith | src/providers/ldap/sdap_idmap.c:277-319 | a missing SID or a wrong prefix is `EINVAL`; the domain SID is a prefix of the object SID followed by `-` |
| Idmap.DomSidFromObject | src/providers/ldap/sdap_idmap.c:277-319 | corrected: a failure is `EINVAL`; a missing SID or a wrong prefix fails; the domain SID starts with the prefix and is a strict prefix of the object SID followed by `-` |
| Idmap.DomSidOfComposed | src/providers/ldap/sdap_idmap.c:277-319 | the domain SID of `prefix-a-b-c-rest` is `prefix-a-b-c` for accepted components |
| Idmap.DomSidDecomposes | src/providers/ldap/sdap_idmap.c:277-319 | every extracted domain SID is the prefix and three accepted components, followed by `-` in the object SID |
| Idmap.DomSidHugeComponentAsWritten | src/providers/ldap/sdap_idmap.c:292-300 | as written, a component in [2^63, 2^64) is accepted; the corrected check refuses it |
| Idmap.DomSidComponentsBounded | src/providers/ldap/sdap_idmap.c:298 | corrected: every component of an extracted domain SID is at most `UINT32_MAX` |
| Idmap.CheckRangeSettings | src/providers/ldap/sdap_idmap.c:79-89 | the check yields `EOK` or `EINVAL` |
| Idmap.RangeSettingsSlices | src/providers/ldap/sdap_idmap.c:79-95 | the settings pass exactly when the range size is positive, lower is below upper, and at least one slice fits; every whole slice ends within the upper bound |
| Idmap.NegativeRangeSizeWraps | src/providers/ldap/sdap_idmap.c:70-89 | a range size of -1 wraps to `UINT32_MAX` as an `id_t` and passes only for the full 32-bit range |
| Idmap.AddDomain | src/providers/ldap/sdap_idmap.c:220-275 | adding a domain leaves the earlier domains and the bound alone and adds at most one domain |
| Idmap.AddDomainGuard | src/providers/ldap/sdap_idmap.c:249-256 | a range ending above the upper bound is refused with `EINVAL` |
| Idmap.AddDomainKeepsBound | src/providers/ldap/sdap_idmap.c:220-275 | every domain stays within the upper bound; the new domain has the given name and SID; success is exactly when the domain was stored |
| Idmap.SidToUnix | src/providers/ldap/sdap_idmap.c:321-392 | an id is returned exactly on success |
| Idmap.SidToUnixRetriesOnce | src/providers/ldap/sdap_idmap.c:331-371 | at most one domain is learned and the conversion retried once, and only for an unknown domain |
| Idmap.SidToUnixOutcomes | src/providers/ldap/sdap_idmap.c:331-387 | a converted SID is returned at once; a built-in SID gives `ENOTSUP`; other errors give `EIO`; after learning a domain the retry decides the outcome |
| Idmap.SidToUnixGrowsByDomSid | src/providers/ldap/sdap_idmap.c:337-358 | a lookup keeps the bound and at most adds the object's domain SID as a new domain |
| Idmap.AddCached | src/providers/ldap/sdap_idmap.c:132-175 | seeding from the cache keeps the earlier domains and adds one per cached entry on success |
| Idmap.AddCachedInOrder | src/providers/ldap/sdap_idmap.c:132-175 | the cached domains are added in order with their names and SIDs, all within the bound |
| Idmap.Init | src/providers/ldap/sdap_idmap.c:41-217 | the map's bound is the configured upper bound |
| Idmap.InitRejectsBadRanges | src/providers/ldap/sdap_idmap.c:79-89 | bad range settings end the set-up with `EINVAL` and an empty map |
| Idmap.InitDefaultAtSliceZero | src/providers/ldap/sdap_idmap.c:176-212 | with no cached domains, the default domain SID, when configured, is added at slice 0 |
| Idmap.InitWithinUpper | src/providers/ldap/sdap_idmap.c:41-217 | every domain of the initial map ends within the upper bound |
| Hbac.HostgroupNameWith | src/providers/ipa/ipa_hbac_hosts.c:325-432 | an invalid DN is `EINVAL` and only it; every other failure is `ENOENT`; a name needs at least four components |
| Hbac.HostgroupName | src/providers/ipa/ipa_hbac_hosts.c:325-432 | corrected: an invalid DN is `EINVAL` and only it; other failures are `ENOENT`; a name is found only when the container values have the lengths of `hostgroups` and `accounts` |
| Hbac.HostgroupNameAsWritten | src/providers/ipa/ipa_hbac_hosts.c:383-415 | as written, the containers match exactly when their values are case-insensitive prefixes of `hostgroups` and `accounts` |
| Hbac.HostgroupNameIsRdnValue | src/providers/ipa/ipa_hbac_hosts.c:417-427 | the name is the first RDN value up to its first NUL |
| Hbac.HostgroupNameExact | src/providers/ipa/ipa_hbac_hosts.c:383-415 | corrected: the containers must be `hostgroups` and `accounts` exactly, ignoring case |
| Hbac.HostgroupPrefixAsWritten | src/providers/ipa/ipa_hbac_hosts.c:391-398 | as written, `cn=g,cn=host,cn=accounts,...` is taken as host group `g`; the corrected check refuses it |
| Hbac.Classify | src/providers/ipa/ipa_hbac_hosts.c:116-192 | a member is a host exactly when the host search finds one entry with a name; it is a group exactly when it is no host and the group search finds one named entry; an entry without a name is `EFAULT` |
| Hbac.Collect | src/providers/ipa/ipa_hbac_hosts.c:103-195 | the collected names never outnumber the members; a failure carries an error code |
| Hbac.CollectLoop | src/providers/ipa/ipa_hbac_hosts.c:103-195 | the loop with its two counters computes the collection |
| Hbac.PrefixFails | src/providers/ipa/ipa_hbac_hosts.c:103-195 | the first failing member ends the collection |
| Hbac.CollectIsReference | src/providers/ipa/ipa_hbac_hosts.c:103-195 | the collection is the first error or, without one, every member's contribution in order |
| Hbac.HostAttrsToRule | src/providers/ipa/ipa_hbac_hosts.c:31-223 | category `ALL` gives the "all hosts" element; the host count is the number of host names; a rule never holds more names than members; no member attribute gives an empty element |
| Hbac.HostRuleAllSkipsMembers | src/providers/ipa/ipa_hbac_hosts.c:63-73 | under category `ALL` the members are not looked at |
| Hbac.HostRuleMembers | src/providers/ipa/ipa_hbac_hosts.c:75-219 | otherwise the element is the members' contributions, or the first error |
| Hbac.TargetHosts | src/providers/ipa/ipa_hbac_hosts.c:225-238 | target hosts are the host attributes of the rule |
| Hbac.SourceHosts | src/providers/ipa/ipa_hbac_hosts.c:240-323 | with source hosts disabled, every source host matches |
| Hbac.SourceHostsAppendExternal | src/providers/ipa/ipa_hbac_hosts.c:288-313 | external hosts follow the resolved host names |
| Hbac.SourceHostsDisabled | src/providers/ipa/ipa_hbac_hosts.c:260-271 | with source hosts disabled the rule's attributes are not looked at |

## Left out

- **Kerberos library calls.** Acquiring, renewing and verifying credentials, keytab access, cache handles, `krb5_kuserok` and the responder challenge are inputs. They are outcome codes or functions of an environment datatype.
- **Memory allocation.** Every `talloc` or `strdup` failure that ends a function with `ENOMEM` is left out.
- **Process and I/O.** Reading stdin, writing stdout, `fork`, `become_user`, `umask`, `close`, debug logging and `popt` option parsing are left out.
  - The write's outcome and the privilege drop are inputs.
  - A short write, which `k5c_send_data` reports as success, is folded into the write input.
- **Time.** The current time is a parameter.
- **PAC forwarding.** `sss_send_pac`, and the PAC lookup at the end of `validate_tgt`, are left out. Their failure never changes a result.
- **Environment variables.** `SSSD_KRB5_*` variables, lifetimes and the realm are inputs. Only the `krb5_use_fast` value is parsed.
- **Authentication tokens.**
  - `sss_authtok` internals are left out. A token is its type and its declared bytes.
  - A password or cache file is the token's declared bytes up to their first NUL. `unpack_authtok` (krb5_child.c:1531 and 1534) passes the setters a length of 0 instead, so the C string starts at the token and ends at the first NUL found, which may lie past the declared length. The parent always puts the terminating NUL inside the declared length, and then both readings agree.
  - The setters' own failures, which `unpack_authtok` returns at 1540-1543, are not modelled; `sss_authtok.c` is not part of this model.
  - `sss_authtok_set_empty` is left out.
- **Build options.** The model is of a build with `HAVE_KRB5_DIRCACHE`: `store_creds_in_ccache` calls `krb5_cc_switch` and `DIR:` caches are created.
- **Principal parsing.** The realm of the request principal that `k5c_setup` parses from the UPN is an input of the set-up; the parsing itself is left out.
- **Library and cache internals.** `sss_idmap` internals (range calculation, conversion, domain storage) and the sysdb cache search are inputs.
- **Wire constants.** The numeric values of the response types, user-info sub-tags and status words are not in the modelled files, so they are a `WireTags` parameter. The command and token-type values are named constants.
- **Byte order.** Host byte order is little-endian.
- **Response list order.** `pam_add_response` is not part of this model. New messages are taken to go at the head of the response list, as SSSD links them.
- **DN parsing.** The ldb DN is an input: its RDN names and values, or `None` when it does not parse. A missing RDN name after validation cannot happen and is not modelled.
- **HBAC categories.** `hbac_get_category` is reduced to whether the `ALL` bit is set.
- **HBAC filters.** `sss_filter_sanitize` is left out, since its only failure is `ENOMEM`.
- **LDB searches.** Search errors other than no entry, and the counts of the LDB host and host-group searches, are inputs.
- **Context-only files.** `pacsrv.h`, `ipa_subdomains.h` and `test_io.c` provide context only.
- Idmap.DomSidFromObjectWith: `strtoull`'s leading whitespace and sign are not accepted, and an empty digit run reads as 0 and stops at once, as `strtoull` does. Object SIDs come from LDAP and have no whitespace or sign.
- Idmap.SidToUnix: the outcome of `sss_idmap_sid_to_unix` is an input, so the id is not derived from the slice and the RID.
- Wire.ReadField: a password or cache-file token is kept as its declared bytes, and a token of a known type is never refused. The code reads such a token up to the first NUL from its start, even past its declared length, and returns the error of `sss_authtok_set_password` or `sss_authtok_set_ccfile`, for example for an empty token.
- Wire.ReadFieldSpec: its token clause, "read exactly when the declared bytes are present and the type is known", leaves out the setter failures that krb5_child.c:1540-1543 return, such as the refusal of an empty password.
- Wire.DecodeEncode: the round trip is stated for the model's token reading. In the code it also needs every password or cache-file token to hold a NUL inside its declared bytes, as the parent sends it, and to be accepted by the `sss_authtok` setters; `WellFormed` does not require either.
- Ccache.CreateCcache: it dispatches to the corrected creators. After a failure that follows the close of the temporary cache, it does not record the `krb5_cc_destroy` of the closed handle that krb5_child.c:579-582 and 712-715 make. Ccache.FileDestroysClosedHandle states that behaviour.
- Keytab.ValidateTgt: it is the corrected validation. As written (krb5_child.c:959-964), a keytab read error other than end of keytab returns success without a verification, so "success exactly when verified" does not hold of the code; Keytab.ValidateTgtReadErrorAsWritten states that case.
- Child.GetAndSaveTgt: it validates with the corrected `Keytab.ValidateTgt` and saves with the corrected cache creators. The code's save of an unverified ticket after a keytab read error is not modelled; the model returns the read error.
- Child.GetAndSaveTgtSuccess: "validation, when enabled, verified the ticket" holds of the corrected validation only; the code also succeeds after a keytab read error.
- Child.TgtReq: after a keytab read error the code replies `EOK` with the cache name; the model replies with the mapped read error.
- Child.TgtReqSuccess: it is stated over the corrected `Child.GetAndSaveTgt`, so the code's `EOK` reply after a keytab read error is not covered.
- Child.ChangeAndLogin: the login with the new password uses the corrected `Child.GetAndSaveTgt`.
- Child.ChangePwSuccess: the login with the new password uses the corrected `Child.GetAndSaveTgt`.
- Child.RenewSteps: it validates with the corrected `Keytab.ValidateTgt`, so a keytab read error fails the renewal where `renew_tgt_child` stores the renewed ticket.
- Child.Renew: a keytab read error fails the renewal, as in Child.RenewSteps.
- Child.RenewOutcome: it is stated over the corrected Child.RenewSteps, so the code's successful renewal after a keytab read error is not covered.
- Child.CreateEmptyCcache: it uses the corrected cache creators, as Ccache.CreateCcache does.
- Child.CreateEmptyCcacheOutcome: it is stated over the corrected cache creators.
- Child.Dispatch: the operations it runs use the corrected definitions named in the lines above.
- Child.Main: the operations it runs use the corrected definitions named in the lines above.
- Child.MainAuthenticate: the authentication it runs uses the corrected `Child.GetAndSaveTgt`.
- Fast.CheckFastCcache: a fresh armor ticket is stored with the corrected `FILE:` creator.
- Fast.CheckFastRenews: a fresh armor ticket is stored with the corrected `FILE:` creator.
- Idmap.DomSidFromObject: it is the corrected extraction. A component from 2^63 up is refused with `EINVAL`, where the code's `long long` accepts it; Idmap.DomSidHugeComponentAsWritten states that case.
- Idmap.SidToUnix: for an object SID with a component from 2^63 up, the code learns the domain and retries; the model returns `EINVAL`.
- Idmap.SidToUnixRetriesOnce: it is stated over the corrected extraction, so the code's learn-and-retry for a SID with a component from 2^63 up is not covered.
- Idmap.SidToUnixGrowsByDomSid: the added domain is named by the corrected extraction; the code also adds a domain whose SID has a component from 2^63 up.
- Idmap.SidToUnixOutcomes: it is stated over the corrected extraction, as Idmap.SidToUnix is.
- Hbac.HostgroupName: it is the corrected container check. As written, any case-insensitive prefix of `hostgroups` or `accounts` passes; Hbac.HostgroupNameAsWritten states that case.
- Child.GetAndSaveTgt: the library's choice of which callbacks to invoke is an input, the list of callback events.

## Findings

| source | as written | input that shows it | evidently intended | confidence | as-written member | corrected member |
|---|---|---|---|---|---|---|
| src/providers/ldap/sdap_idmap.c:292-300 | each component is stored from `strtoull` into a `long long`, so values from 2^63 up become negative and pass `a > UINT32_MAX` | an object SID `<prefix>9223372036854775808-0-0-1000` | every component is refused unless it is at most `UINT32_MAX` | high, not executed | Idmap.DomSidHugeComponentAsWritten | Idmap.DomSidComponentsBounded |
| src/providers/krb5/krb5_child.c:959-964 | a keytab read error other than end of keytab jumps to `done` while `kerr` is still 0, so the TGT is reported as validated without being verified | a keytab that reads no entry of the realm and then fails with an error other than `KRB5_KT_END` | the read error is returned and the TGT is not accepted | high, not executed | Keytab.ValidateTgtReadErrorAsWritten | Keytab.ValidateTgtVerifies |
| src/providers/krb5/krb5_child.c:560-582 | after `store_creds_in_ccache` has closed the temporary cache, a later failure still calls `krb5_cc_destroy` on the closed handle | a target ending in `XXXXXX` whose own `mkstemp` fails after the temporary cache was written | the closed handle is not destroyed | medium, not executed | Ccache.FileDestroysClosedHandle | Ccache.FileNoUseAfterClose |
| src/providers/ipa/ipa_hbac_hosts.c:391-415 | the container values are compared with `strncasecmp` bounded by the value's own length, so any case-insensitive prefix of `hostgroups` or `accounts` passes | the DN `cn=g,cn=host,cn=accounts,dc=x` | the containers must be exactly `hostgroups` and `accounts`, ignoring case | medium, not executed | Hbac.HostgroupPrefixAsWritten | Hbac.HostgroupNameExact |

=== FILE: bytes.dfy ===
/** Bytes, C strings and the little-endian words of the pipe protocol.

    The worker and its parent run on the same host and copy integers with
    `memcpy`, so the words on the pipe are in host byte order; this model
    fixes that order to little-endian.
 */
module Bytes {

  const TWO32: int := 0x1_0000_0000
  const TWO64: int := 0x1_0000_0000_0000_0000
  const UINT32_MAX: int := 0xFFFF_FFFF

  predicate IsU32(x: int) {
    0 <= x < TWO32
  }

  predicate IsI32(x: int) {
    -0x8000_0000 <= x < 0x8000_0000
  }

  predicate NulFree(s: seq<bv8>) {
    forall i | 0 <= i < |s| :: s[i] != 0
  }

  /** The contents of a C string: the bytes before its terminating NUL. */
  type CStr = s: seq<bv8> | NulFree(s) witness []

  /** `talloc_strndup(buf, n)` applied to the n bytes `s`: copying stops at
      the first NUL. */
  function StrNDup(s: seq<bv8>): (r: CStr)
    ensures |r| <= |s|
  {
    if |s| == 0 || s[0] == 0 then [] else [s[0]] + StrNDup(s[1..])
  }

  /** The copy is the part of `s` before its first NUL. */
  lemma {:induction false} StrNDupPrefix(s: seq<bv8>)
    ensures var r := StrNDup(s); r == s[..|r|] && (|r| < |s| ==> s[|r|] == 0)
    decreases |s|
  {
    if |s| > 0 && s[0] != 0 {
      StrNDupPrefix(s[1..]);
    }
  }

  /** Copying a NUL-free buffer keeps all of it. */
  lemma {:induction false} StrNDupNulFree(s: seq<bv8>)
    requires NulFree(s)
    ensures StrNDup(s) == s
    decreases |s|
  {
    if |s| > 0 {
      assert s[0] != 0;
      StrNDupNulFree(s[1..]);
      assert s == [s[0]] + s[1..];
    }
  }

  /** `n` bytes of `x`, least significant first. */
  function LEBytes(x: nat, n: nat): (r: seq<bv8>)
    ensures |r| == n
  {
    if n == 0 then [] else [(x % 256) as bv8] + LEBytes(x / 256, n - 1)
  }

  /** The number whose little-endian bytes are `b`. */
  function LEValue(b: seq<bv8>): nat {
    if |b| == 0 then 0 else b[0] as int + 256 * LEValue(b[1..])
  }

  function Pow256(n: nat): (r: nat)
    ensures r > 0
  {
    if n == 0 then 1 else 256 * Pow256(n - 1)
  }

  /** Reading back `n` little-endian bytes of `x` gives `x` whenever it fits. */
  lemma {:induction false} LEValueBytes(x: nat, n: nat)
    requires x < Pow256(n)
    ensures LEValue(LEBytes(x, n)) == x
  {
    if n > 0 {
      var q, r := x / 256, x % 256;
      var b := LEBytes(x, n);
      assert b == [r as bv8] + LEBytes(q, n - 1);
      assert b[1..] == LEBytes(q, n - 1);
      assert q < Pow256(n - 1);
      LEValueBytes(q, n - 1);
      ByteValue(r);
      assert LEValue(b) == r + 256 * q;
    }
  }

  lemma ByteValue(v: int)
    requires 0 <= v < 256
    ensures (v as bv8) as int == v
  {
    if v < 128 {
      if v < 64 { } else { }
    } else {
      if v < 192 { } else { }
    }
  }

  lemma {:induction false} LEValueBound(b: seq<bv8>)
    ensures LEValue(b) < Pow256(|b|)
  {
    if |b| > 0 {
      LEValueBound(b[1..]);
    }
  }

  lemma Pow256Four()
    ensures Pow256(4) == TWO32
  {
  }

  lemma Pow256Eight()
    ensures Pow256(8) == TWO64
  {
    assert Pow256(4) == TWO32;
  }

  /** A uint32_t as it is copied onto the pipe. */
  function U32Bytes(x: nat): (r: seq<bv8>)
    requires x < TWO32
    ensures |r| == 4
  {
    LEBytes(x, 4)
  }

  /** The uint32_t whose four bytes are `b`. */
  function U32Value(b: seq<bv8>): (r: nat)
    requires |b| == 4
    ensures r < TWO32
  {
    LEValueBound(b);
    Pow256Four();
    LEValue(b)
  }

  lemma U32RoundTrip(x: nat)
    requires x < TWO32
    ensures U32Value(U32Bytes(x)) == x
  {
    Pow256Four();
    LEValueBytes(x, 4);
  }

  /** An int32_t as it is copied onto the pipe: two's complement. */
  function I32Bytes(x: int): (r: seq<bv8>)
    requires IsI32(x)
    ensures |r| == 4
  {
    U32Bytes(if x < 0 then x + TWO32 else x)
  }

  /** The int32_t whose four bytes are `b`. */
  function I32Value(b: seq<bv8>): (r: int)
    requires |b| == 4
    ensures IsI32(r)
  {
    var u := U32Value(b);
    if u < 0x8000_0000 then u else u - TWO32
  }

  lemma I32RoundTrip(x: int)
    requires IsI32(x)
    ensures I32Value(I32Bytes(x)) == x
  {
    U32RoundTrip(if x < 0 then x + TWO32 else x);
  }

  /** An int64_t as it is copied onto the pipe: two's complement, with the
      wrap-around of a cast to int64_t made explicit. */
  function I64Bytes(x: int): (r: seq<bv8>)
    ensures |r| == 8
  {
    LEBytes(x % TWO64, 8)
  }

  /** `tolower` in the C locale. */
  function ToLower(c: bv8): bv8 {
    if 0x41 <= c <= 0x5A then c + 0x20 else c
  }

  /** `strcasecmp(a, b) == 0` on two C strings. */
  predicate CaseEq(a: CStr, b: CStr) {
    |a| == |b| && forall i | 0 <= i < |a| :: ToLower(a[i]) == ToLower(b[i])
  }

  /** The byte at position `i` of a buffer that is implicitly NUL-terminated. */
  function At(s: seq<bv8>, i: nat): bv8 {
    if i < |s| then s[i] else 0
  }

  /** `strncasecmp(lit, b, n) == 0` for a C string `lit` and a buffer `b`
      that is NUL-terminated after its last byte: the comparison looks at
      no more than `n` positions and stops after the terminator of `lit`. */
  predicate NCaseEq(lit: CStr, b: seq<bv8>, n: nat) {
    forall i | 0 <= i < n && i <= |lit| :: ToLower(At(lit, i)) == ToLower(At(b, i))
  }

  /** A NUL-free buffer longer than `lit` differs from it at the position of
      the terminator of `lit`. */
  lemma TerminatorMismatch(lit: CStr, b: CStr)
    requires |b| > |lit|
    ensures !NCaseEq(lit, b, |b|)
  {
    assert ToLower(At(b, |lit|)) != ToLower(At(lit, |lit|));
  }

  /** For a NUL-free buffer of length n, `strncasecmp(lit, b, n) == 0`
      holds exactly when `b` is a case-insensitive prefix of `lit`. */
  lemma NCaseEqPrefix(lit: CStr, b: CStr)
    ensures NCaseEq(lit, b, |b|) <==>
            (|b| <= |lit| && forall i | 0 <= i < |b| :: ToLower(lit[i]) == ToLower(b[i]))
  {
    if |b| > |lit| {
      TerminatorMismatch(lit, b);
    }
    if NCaseEq(lit, b, |b|) {
      forall i | 0 <= i < |b|
        ensures ToLower(lit[i]) == ToLower(b[i])
      {
        assert At(lit, i) == lit[i] && At(b, i) == b[i];
      }
    }
    if |b| <= |lit| && (forall i | 0 <= i < |b| :: ToLower(lit[i]) == ToLower(b[i])) {
      forall i | 0 <= i < |b| && i <= |lit|
        ensures ToLower(At(lit, i)) == ToLower(At(b, i))
      {
        assert At(lit, i) == lit[i] && At(b, i) == b[i];
      }
    }
  }

  /** Splitting a slice of a buffer that holds `a + b`. */
  /** SliceSplit for a slice known under another name, split at `q`. */
  lemma SliceSplitAt(buf: seq<bv8>, p: nat, w: seq<bv8>, a: seq<bv8>, b: seq<bv8>, q: nat)
    requires w == a + b && q == p + |a|
    requires p + |w| <= |buf|
    requires buf[p..p + |w|] == w
    ensures buf[p..q] == a
    ensures q + |b| == p + |w|
    ensures buf[q..q + |b|] == b
  {
    SliceSplit(buf, p, a, b);
  }

  lemma SliceSplit(buf: seq<bv8>, p: nat, a: seq<bv8>, b: seq<bv8>)
    requires p + |a| + |b| <= |buf|
    requires buf[p..p + |a| + |b|] == a + b
    ensures buf[p..p + |a|] == a
    ensures buf[p + |a|..p + |a| + |b|] == b
  {
    assert buf[p..p + |a|] == (a + b)[..|a|];
    assert buf[p + |a|..p + |a| + |b|] == (a + b)[|a|..];
  }

  /** A slice of a prefix is the slice of the whole. */
  lemma PrefixSlice(buf: seq<bv8>, k: nat, i: nat, j: nat)
    requires i <= j <= k <= |buf|
    ensures buf[..k][i..j] == buf[i..j]
  {
  }
}

=== FILE: callbacks.dfy ===
/** The callbacks the worker hands to the Kerberos library while it acquires
    a ticket: the banner-only prompter, the password-expiry callback and the
    OTP responder (`tokeninfo_matches`, `pick_checker`, `answer_otp`).

    Each callback is modelled by what it returns to the library and by the
    messages it adds to the reply.
 */
module Callbacks {
  import opened Codes
  import opened Bytes
  import opened Wire
  import opened Responses

  // ---------------------------------------------------------------------
  // Prompter

  /** What a callback gives back: the code it returns to the library and
      the messages it adds to the reply, oldest first. */
  datatype Reaction = Reaction(code: Code, added: seq<Message>)

  /** `sss_krb5_prompter`: it answers no prompts; a non-empty banner becomes
      one text message. */
  function Prompter(banner: Option<CStr>, numPrompts: int): (r: Reaction)
    ensures numPrompts != 0 <==> r.code == Krb5(LibosCantReadPwd)
    ensures numPrompts == 0 <==> r.code == EOK
    ensures |r.added| <= 1
    ensures |r.added| == 1 <==> numPrompts == 0 && banner.Some? && |banner.value| > 0
    ensures |r.added| == 1 ==> r.added[0] == TextMsg(banner.value)
  {
    if numPrompts != 0 then Reaction(Krb5(LibosCantReadPwd), [])
    else if banner.None? || |banner.value| == 0 then Reaction(EOK, [])
    else Reaction(EOK, [TextMsg(banner.value)])
  }

  /** The banner message has `strlen(banner) + 1` payload bytes and reads
      back as the banner. */
  lemma PrompterPayload(t: WireTags, banner: CStr)
    requires TagsOk(t) && |banner| > 0 && |banner| + 1 < 0x8000_0000
    ensures var m := Prompter(Some(banner), 0).added[0];
            Fits(m) && |Payload(t, m)| == |banner| + 1 && StrNDup(Payload(t, m)) == banner
  {
    TextPayloadIsCString(t, TextMsg(banner));
  }

  // ---------------------------------------------------------------------
  // Expiry warning

  /** `sss_krb5_expire_callback_func`: a warning with the seconds left until
      the password expires, when there is an expiry time and the distance
      fits a `uint32_t`.  `now` stands for `time(NULL)`. */
  function ExpireCallback(pwExp: int, now: int): (r: Option<Message>)
    ensures r.Some? ==> r.value.ExpireWarn? && Fits(r.value)
    ensures r.Some? <==> pwExp != 0 && now <= pwExp <= now + UINT32_MAX
    ensures r.Some? ==> now + r.value.seconds == pwExp
  {
    if pwExp == 0 then None
    else
      var expTime := pwExp - now;
      if expTime < 0 || expTime > UINT32_MAX then None
      else Some(ExpireWarn(expTime))
  }

  // ---------------------------------------------------------------------
  // OTP responder

  /** A tokeninfo of an OTP challenge.  `length` is the library's
      `krb5_int32`, where -1 means "not given". */
  datatype Tokeninfo = Tokeninfo(
    nextOtp: bool,
    collectToken: bool,
    collectPin: bool,
    separatePin: bool,
    challenge: Option<seq<bv8>>,
    format: int,
    length: int)

  /* OTP formats of the Kerberos responder interface. */
  const KRB5_RESPONDER_OTP_FORMAT_DECIMAL: int := 0
  const KRB5_RESPONDER_OTP_FORMAT_HEXADECIMAL: int := 1
  const KRB5_RESPONDER_OTP_FORMAT_ALPHANUMERIC: int := 2

  datatype Checker = IsDigit | IsXDigit | IsAlnum

  /** `pick_checker`: no checker for an unknown format. */
  function PickChecker(format: int): (r: Option<Checker>)
    ensures r.Some? <==> format in {KRB5_RESPONDER_OTP_FORMAT_DECIMAL,
                                    KRB5_RESPONDER_OTP_FORMAT_HEXADECIMAL,
                                    KRB5_RESPONDER_OTP_FORMAT_ALPHANUMERIC}
  {
    if format == KRB5_RESPONDER_OTP_FORMAT_DECIMAL then Some(IsDigit)
    else if format == KRB5_RESPONDER_OTP_FORMAT_HEXADECIMAL then Some(IsXDigit)
    else if format == KRB5_RESPONDER_OTP_FORMAT_ALPHANUMERIC then Some(IsAlnum)
    else None
  }

  predicate Digit(c: bv8) {
    0x30 <= c <= 0x39
  }

  predicate Letter(c: bv8) {
    (0x41 <= c <= 0x5A) || (0x61 <= c <= 0x7A)
  }

  /** The character classes of the C locale. */
  predicate Accepts(k: Checker, c: bv8) {
    match k
    case IsDigit => Digit(c)
    case IsXDigit => Digit(c) || (0x41 <= c <= 0x46) || (0x61 <= c <= 0x66)
    case IsAlnum => Digit(c) || Letter(c)
  }

  /** The position of the first character the checker rejects, or |s|. */
  function FirstRejected(k: Checker, s: seq<bv8>): (i: nat)
    ensures i <= |s|
    ensures forall j | 0 <= j < i :: Accepts(k, s[j])
    ensures i < |s| ==> !Accepts(k, s[i])
  {
    if |s| == 0 || !Accepts(k, s[0]) then 0 else 1 + FirstRejected(k, s[1..])
  }

  /** The token and PIN a matching tokeninfo yields; `None` is a NULL
      pointer. */
  datatype Split = Split(token: Option<CStr>, pin: Option<CStr>)

  /** `tokeninfo_matches` on the password `pwd` (whose length is `len`). */
  function TokeninfoMatches(ti: Tokeninfo, pwd: CStr): (r: Result<Split>)
    ensures r.Fail? ==> r.code in {ENOTSUP, EPROTO, EMSGSIZE, EBADMSG}
    ensures ti.nextOtp || ti.challenge.Some? ==> r == Fail(ENOTSUP)
    ensures !ti.nextOtp && ti.challenge.None? && ti.length == 0 ==> r == Fail(EPROTO)
    ensures r.Ok? && ti.collectToken && ti.collectPin && ti.separatePin ==>
      && r.value.pin.Some? && r.value.token.Some?
      && r.value.pin.value + r.value.token.value == pwd
      && |r.value.token.value| == ti.length
    ensures r.Ok? && !ti.collectToken ==> r.value == Split(None, Some(pwd))
    ensures r.Ok? && ti.collectToken && !(ti.collectPin && ti.separatePin) ==>
      r.value == Split(Some(pwd), None)
  {
    if ti.nextOtp || ti.challenge.Some? then Fail(ENOTSUP)
    else if ti.length == 0 then Fail(EPROTO)
    else if !ti.collectToken then Ok(Split(None, Some(pwd)))
    else
      var len := |pwd|;
      var step: Result<(CStr, Option<CStr>, Option<Checker>)> :=
        if ti.collectPin then
          if ti.separatePin then
            if ti.length < 1 then Fail(ENOTSUP)
            else if ti.length >= len then Fail(EMSGSIZE)
            else
              var cut := len - ti.length;
              assert pwd[..cut] + pwd[cut..] == pwd;
              Ok((pwd[cut..], Some(pwd[..cut]), PickChecker(ti.format)))
          else if ti.length > 0 && ti.length > len then Fail(EMSGSIZE)
          else Ok((pwd, None, None))
        else if ti.length > 0 && ti.length != len then Fail(EMSGSIZE)
        else Ok((pwd, None, PickChecker(ti.format)));
      match step
      case Fail(c) => Fail(c)
      case Ok((token, pin, check)) =>
        if check.Some? && FirstRejected(check.value, token) < |token| then Fail(EBADMSG)
        else Ok(Split(Some(token), pin))
  }

  /** The length rules of `tokeninfo_matches` for a supported tokeninfo
      that collects a token, stated without the function: a separate PIN
      needs a positive length shorter than the password, a PIN in front of
      the token needs a length no longer than the password, and a bare token
      needs exactly the password's length unless the length is unset. */
  lemma TokeninfoMatchesSizes(ti: Tokeninfo, pwd: CStr)
    requires !ti.nextOtp && ti.challenge.None? && ti.length != 0 && ti.collectToken
    ensures TokeninfoMatches(ti, pwd) == Fail(ENOTSUP) <==>
            ti.collectPin && ti.separatePin && ti.length < 1
    ensures TokeninfoMatches(ti, pwd) == Fail(EMSGSIZE) <==>
            || (ti.collectPin && ti.separatePin && 1 <= ti.length && ti.length >= |pwd|)
            || (ti.collectPin && !ti.separatePin && ti.length > |pwd|)
            || (!ti.collectPin && ti.length > 0 && ti.length != |pwd|)
  {
  }

  /** The character rule of `tokeninfo_matches`: once the lengths are
      acceptable, EBADMSG is returned exactly when the token (the part after
      a separate PIN, else the whole password) holds a character outside the
      class of a known format; the token is not checked when a PIN is
      collected in front of it. */
  lemma TokeninfoMatchesChars(ti: Tokeninfo, pwd: CStr)
    requires !ti.nextOtp && ti.challenge.None? && ti.length != 0 && ti.collectToken
    requires TokeninfoMatches(ti, pwd) !in {Fail(ENOTSUP), Fail(EMSGSIZE)}
    ensures
      var sep := ti.collectPin && ti.separatePin;
      var token := if sep && 1 <= ti.length < |pwd| then pwd[|pwd| - ti.length..] else pwd;
      var check := if ti.collectPin && !ti.separatePin then None else PickChecker(ti.format);
      TokeninfoMatches(ti, pwd) == Fail(EBADMSG) <==>
        check.Some? && exists j | 0 <= j < |token| :: !Accepts(check.value, token[j])
  {
    var sep := ti.collectPin && ti.separatePin;
    var token := if sep && 1 <= ti.length < |pwd| then pwd[|pwd| - ti.length..] else pwd;
    var check := if ti.collectPin && !ti.separatePin then None else PickChecker(ti.format);
    if check.Some? && FirstRejected(check.value, token) < |token| {
      var j := FirstRejected(check.value, token);
      assert !Accepts(check.value, token[j]);
    }
  }

  /** Errors after which `answer_otp` moves on to the next tokeninfo. */
  predicate Skippable(c: Code) {
    c in {EBADMSG, EMSGSIZE, ENOTSUP, EPROTO}
  }

  datatype Selection =
    | Chosen(index: nat, split: Split)
    | NoneMatched
    | Aborted(code: Code)

  /** The search loop of `answer_otp` from tokeninfo `i` on. */
  function SelectTokeninfo(tis: seq<Tokeninfo>, pwd: CStr, i: nat): (r: Selection)
    requires i <= |tis|
    ensures r.Chosen? ==>
      && i <= r.index < |tis|
      && TokeninfoMatches(tis[r.index], pwd) == Ok(r.split)
      && forall j | i <= j < r.index :: TokeninfoMatches(tis[j], pwd).Fail?
    ensures r.NoneMatched? <==>
      forall j | i <= j < |tis| :: TokeninfoMatches(tis[j], pwd).Fail?
    ensures r.Aborted? ==> !Skippable(r.code)
    decreases |tis| - i
  {
    if i == |tis| then NoneMatched
    else
      match TokeninfoMatches(tis[i], pwd)
      case Ok(split) => Chosen(i, split)
      case Fail(c) =>
        if Skippable(c) then SelectTokeninfo(tis, pwd, i + 1) else Aborted(c)
  }

  /** Since `tokeninfo_matches` fails only with skippable codes, the search
      never aborts: it picks the lowest-index tokeninfo that matches, or
      finds none. */
  lemma {:induction false} SelectNeverAborts(tis: seq<Tokeninfo>, pwd: CStr, i: nat)
    requires i <= |tis|
    ensures !SelectTokeninfo(tis, pwd, i).Aborted?
    ensures SelectTokeninfo(tis, pwd, i).Chosen? <==>
            exists j | i <= j < |tis| :: TokeninfoMatches(tis[j], pwd).Ok?
    decreases |tis| - i
  {
    if i < |tis| {
      if TokeninfoMatches(tis[i], pwd).Fail? {
        SelectNeverAborts(tis, pwd, i + 1);
        if exists j | i <= j < |tis| :: TokeninfoMatches(tis[j], pwd).Ok? {
          var j :| i <= j < |tis| && TokeninfoMatches(tis[j], pwd).Ok?;
          assert j != i;
        }
      }
    }
  }

  /** `sss_authtok_get_password`: the password of a password token as the
      C string stored for it; other token types have none. */
  function GetPassword(tok: AuthTok): (r: Result<CStr>)
    ensures r.Ok? <==> tok.Password?
    ensures r.Fail? ==> r.code in {ENOENT, EACCES}
    ensures r.Ok? ==> r.value == StrNDup(tok.secret)
  {
    match tok
    case Empty => Fail(ENOENT)
    case Password(s) => Ok(StrNDup(s))
    case CcFile(_) => Fail(EACCES)
  }

  /** The OTP challenge as the library reports it: an error, no challenge,
      or the list of tokeninfos. */
  type Challenge = Result<Option<seq<Tokeninfo>>>

  /** What `answer_otp` did: its code, the messages it added and the answer
      it set, as (tokeninfo index, token, PIN). */
  datatype OtpOutcome = OtpOutcome(code: Code, added: seq<Message>, answer: Option<(nat, Split)>)

  /** `answer_otp`; `setAnswer` is `krb5_responder_otp_set_answer`. */
  function AnswerOtp(chl: Challenge, authtok: AuthTok,
                     setAnswer: (nat, Split) -> Code): (r: OtpOutcome)
    ensures r.answer.None? ==> r.added == []
    ensures chl.Fail? ==> r == OtpOutcome(chl.code, [], None)
    ensures chl == Ok(None) ==> r == OtpOutcome(EOK, [], None)
    ensures chl == Ok(Some([])) ==> r == OtpOutcome(EINVAL, [], None)
    ensures chl.Ok? && chl.value.Some? && |chl.value.value| > 0 && !authtok.Password? ==>
      r == OtpOutcome(GetPassword(authtok).code, [], None)
    ensures r.answer.Some? ==>
      && chl.Ok? && chl.value.Some? && authtok.Password?
      && var tis := chl.value.value;
      && var (i, split) := r.answer.value;
      && i < |tis|
      && TokeninfoMatches(tis[i], GetPassword(authtok).value) == Ok(split)
      && (forall j | 0 <= j < i :: TokeninfoMatches(tis[j], GetPassword(authtok).value).Fail?)
      && r.code == setAnswer(i, split)
      && (r.added == if tis[i].collectToken then [OtpNoCache] else [])
  {
    match chl
    case Fail(c) => OtpOutcome(c, [], None)
    case Ok(None) => OtpOutcome(EOK, [], None)
    case Ok(Some(tis)) =>
      if |tis| == 0 then OtpOutcome(EINVAL, [], None)
      else
        match GetPassword(authtok)
        case Fail(c) => OtpOutcome(c, [], None)
        case Ok(pwd) =>
          match SelectTokeninfo(tis, pwd, 0)
          case NoneMatched => OtpOutcome(EOK, [], None)
          case Aborted(c) => OtpOutcome(c, [], None)
          case Chosen(i, split) =>
            var added := if tis[i].collectToken then [OtpNoCache] else [];
            OtpOutcome(setAnswer(i, split), added, Some((i, split)))
  }

  /** When no tokeninfo matches the password, `answer_otp` succeeds without
      answering and without adding anything. */
  lemma AnswerOtpNoMatch(tis: seq<Tokeninfo>, secret: seq<bv8>, setAnswer: (nat, Split) -> Code)
    requires |tis| > 0
    requires forall j | 0 <= j < |tis| :: TokeninfoMatches(tis[j], StrNDup(secret)).Fail?
    ensures AnswerOtp(Ok(Some(tis)), Password(secret), setAnswer) == OtpOutcome(EOK, [], None)
  {
    SelectNeverAborts(tis, StrNDup(secret), 0);
  }

  // ---------------------------------------------------------------------
  // Callbacks during one ticket acquisition

  /** One call the library makes into the worker while it acquires a
      ticket. */
  datatype Event =
    | Prompt(banner: Option<CStr>, numPrompts: int)
    | Expire(passwordExpiration: int)
    | Respond(otp: Challenge)

  /** Which callbacks the acquisition was given: the prompter may be left
      out (a NULL prompter), and the expiry callback and the OTP responder
      are set only on the options of the ticket request. */
  datatype Hooks = Hooks(prompter: bool, expire: bool, responder: bool, now: int,
                         authtok: AuthTok, setAnswer: (nat, Split) -> Code)

  /** The message one callback adds, if any. */
  function CallbackAdds(h: Hooks, e: Event): (m: Option<Message>)
    ensures m.Some? && m.value.TextMsg? ==> e.Prompt? && h.prompter
    ensures m.Some? && m.value.ExpireWarn? ==> e.Expire? && h.expire
    ensures m.Some? && m.value.OtpNoCache? ==> e.Respond? && h.responder
    ensures m.Some? ==> m.value.TextMsg? || m.value.ExpireWarn? || m.value.OtpNoCache?
  {
    match e
    case Prompt(b, n) =>
      var r := Prompter(b, n);
      if h.prompter && |r.added| == 1 then Some(r.added[0]) else None
    case Expire(x) => if h.expire then ExpireCallback(x, h.now) else None
    case Respond(c) =>
      var r := AnswerOtp(c, h.authtok, h.setAnswer);
      if h.responder && |r.added| == 1 then Some(r.added[0]) else None
  }

  /** The response list after the callbacks of `events` have run, starting
      from `l`. */
  function RunCallbacks(h: Hooks, events: seq<Event>, l: seq<Message>): (l': seq<Message>)
    ensures |l| <= |l'| <= |l| + |events|
    decreases |events|
  {
    if |events| == 0 then l
    else RunCallbacks(h, events[1..], AfterEvent(h, events[0], l))
  }

  /** A message a set callback can add. */
  predicate FromHook(h: Hooks, m: Message) {
    && (m.TextMsg? ==> h.prompter)
    && (m.ExpireWarn? ==> h.expire)
    && (m.OtpNoCache? ==> h.responder)
    && (m.TextMsg? || m.ExpireWarn? || m.OtpNoCache?)
  }

  /** The response list after the callback of one event: unchanged, or one
      message a set callback can add in front. */
  function AfterEvent(h: Hooks, e: Event, l: seq<Message>): (l1: seq<Message>)
    ensures l1 == l || (|l1| == |l| + 1 && l1[1..] == l && FromHook(h, l1[0]))
  {
    var m := CallbackAdds(h, e);
    if m.Some? then AddResponse(l, m.value) else l
  }

  /** The callbacks only add messages in front: the list they start from is
      a suffix of the list they leave, and every message in front of it
      came from a callback that was set. */
  lemma {:induction false} RunCallbacksKeeps(h: Hooks, events: seq<Event>, l: seq<Message>)
    ensures var l' := RunCallbacks(h, events, l);
            |l| <= |l'| && l'[|l'| - |l|..] == l
    ensures var l' := RunCallbacks(h, events, l);
            forall i | 0 <= i < |l'| - |l| :: FromHook(h, l'[i])
    decreases |events|
  {
    if |events| > 0 {
      var l1 := AfterEvent(h, events[0], l);
      RunCallbacksKeeps(h, events[1..], l1);
      KeepsStep(h, RunCallbacks(h, events[1..], l1), l1, l);
    }
  }

  /** A list that keeps `l1` behind added messages keeps `l` too, when `l1`
      is `l` or `l` with one added message in front. */
  lemma KeepsStep(h: Hooks, l': seq<Message>, l1: seq<Message>, l: seq<Message>)
    requires |l1| <= |l'| && l'[|l'| - |l1|..] == l1
    requires forall i | 0 <= i < |l'| - |l1| :: FromHook(h, l'[i])
    requires l1 == l || (|l1| == |l| + 1 && l1[1..] == l && FromHook(h, l1[0]))
    ensures |l| <= |l'| && l'[|l'| - |l|..] == l
    ensures forall i | 0 <= i < |l'| - |l| :: FromHook(h, l'[i])
  {
    if l1 != l {
      assert l'[|l'| - |l|..] == l'[|l'| - |l1|..][1..];
      assert l'[|l'| - |l| - 1] == l1[0];
    }
  }
}

=== FILE: ccache.dfy ===
/** Creating the user's credential cache: `create_ccache` dispatches on the
    cache type to a FILE cache, written to a temporary file in the same
    directory and renamed into place, or a DIR cache, created in a
    collection directory that must be private to the user.

    The file system and the Kerberos cache library are oracles collected in
    a `CacheEnv`; the model records the calls it makes as a trace of
    `Effect`s.
 */
module Ccache {
  import opened Codes
  import opened Bytes

  const SLASH: bv8 := 0x2F
  const COLON: bv8 := 0x3A
  const X: bv8 := 0x58

  /** `FILE:` */
  const FILE_PREFIX: seq<bv8> := [0x46, 0x49, 0x4C, 0x45, 0x3A]

  /** `/.krb5cc_dummy_XXXXXX`, the name of the temporary cache appended to
      the directory of the target. */
  const DUMMY_NAME: seq<bv8> :=
    [0x2F, 0x2E, 0x6B, 0x72, 0x62, 0x35, 0x63, 0x63, 0x5F, 0x64, 0x75,
     0x6D, 0x6D, 0x79, 0x5F, 0x58, 0x58, 0x58, 0x58, 0x58, 0x58]

  /** `XXXXXX`, the template suffix `mkstemp` replaces. */
  const TEMPLATE_SUFFIX: seq<bv8> := [0x58, 0x58, 0x58, 0x58, 0x58, 0x58]

  /* File type and permission bits of `st_mode`. */
  const S_IFMT: bv32 := 0xF000       // 0170000
  const PRIVATE_DIR: bv32 := 0x1C0   // 0700

  /** The six characters `mkstemp` writes over `XXXXXX`: never a NUL and
      never a slash. */
  type Suffix6 = s: seq<bv8> | |s| == 6 && NulFree(s) && SLASH !in s
    witness [0x41, 0x41, 0x41, 0x41, 0x41, 0x41]

  // ---------------------------------------------------------------------
  // Names

  /** The path of a FILE cache name: `FILE:` is dropped when the name starts
      with it (`strncmp(ccname, "FILE:", 5) == 0`). */
  function StripFilePrefix(ccname: CStr): (path: CStr)
    ensures |path| <= |ccname| && path == ccname[|ccname| - |path|..]
    ensures ccname[..|ccname| - |path|] == [] || ccname[..|ccname| - |path|] == FILE_PREFIX
    ensures |ccname| >= 5 && ccname[..5] == FILE_PREFIX <==> |path| < |ccname|
  {
    if |ccname| >= 5 && ccname[..5] == FILE_PREFIX then ccname[5..] else ccname
  }

  lemma StripFilePrefixOf(path: CStr)
    ensures StripFilePrefix(FILE_PREFIX + path) == path
    ensures |path| > 0 && path[0] == SLASH ==> StripFilePrefix(path) == path
  {
    assert (FILE_PREFIX + path)[..5] == FILE_PREFIX;
  }

  /** The position `strrchr(p, '/')` points to. */
  function LastSlash(p: seq<bv8>): (i: nat)
    requires SLASH in p
    ensures i < |p| && p[i] == SLASH
    ensures forall j | i < j < |p| :: p[j] != SLASH
  {
    if p[|p| - 1] == SLASH then |p| - 1
    else
      assert SLASH in p[..|p| - 1];
      LastSlash(p[..|p| - 1])
  }

  /** The last slash is the only slash with no slash after it. */
  lemma LastSlashUnique(p: seq<bv8>, i: nat)
    requires i < |p| && p[i] == SLASH
    requires forall j | i < j < |p| :: p[j] != SLASH
    ensures LastSlash(p) == i
  {
  }

  /** The directory part of an absolute path, without its trailing slash. */
  function DirOf(p: seq<bv8>): (d: seq<bv8>)
    requires SLASH in p
  {
    p[..LastSlash(p)]
  }

  /** The template of the temporary cache: the directory of the target
      followed by `/.krb5cc_dummy_XXXXXX`. */
  function TempTemplate(path: CStr): (t: CStr)
    requires SLASH in path
    ensures |t| >= 6 && t[|t| - 6..] == TEMPLATE_SUFFIX
  {
    var d := path[..LastSlash(path)];
    assert NulFree(DUMMY_NAME);
    assert NulFree(d + DUMMY_NAME) by {
      forall i | 0 <= i < |d + DUMMY_NAME|
        ensures (d + DUMMY_NAME)[i] != 0
      {
        if i >= |d| {
          assert (d + DUMMY_NAME)[i] == DUMMY_NAME[i - |d|];
        }
      }
    }
    assert (d + DUMMY_NAME)[|d + DUMMY_NAME| - 6..] == DUMMY_NAME[15..];
    d + DUMMY_NAME
  }

  /** The temporary cache lives in the directory of the target, so the final
      `rename` never crosses a directory. */
  lemma TempTemplateSameDir(path: CStr)
    requires SLASH in path
    ensures SLASH in TempTemplate(path)
    ensures DirOf(TempTemplate(path)) == DirOf(path)
  {
    var d := path[..LastSlash(path)];
    var t := TempTemplate(path);
    assert t[|d|] == SLASH;
    forall j | |d| < j < |t|
      ensures t[j] != SLASH
    {
      assert t[j] == DUMMY_NAME[j - |d|];
    }
    LastSlashUnique(t, |d|);
  }

  /** The target name is itself a template when it ends in `XXXXXX`. */
  predicate Reserved(path: seq<bv8>) {
    |path| >= 6 && path[|path| - 6..] == TEMPLATE_SUFFIX
  }

  /** The name `mkstemp` leaves in its template buffer. */
  function Fill(t: CStr, s: Suffix6): (r: CStr)
    requires |t| >= 6
    ensures |r| == |t| && r[..|t| - 6] == t[..|t| - 6] && r[|t| - 6..] == s
  {
    var r := t[..|t| - 6] + s;
    assert NulFree(r) by {
      forall i | 0 <= i < |r|
        ensures r[i] != 0
      {
        if i >= |t| - 6 {
          assert r[i] == s[i - (|t| - 6)];
        }
      }
    }
    r
  }

  /** Filling a template keeps its directory: neither `XXXXXX` nor what
      replaces it holds a slash. */
  lemma FillSameDir(t: CStr, s: Suffix6)
    requires Reserved(t) && SLASH in t
    ensures SLASH in Fill(t, s) && DirOf(Fill(t, s)) == DirOf(t)
  {
    var r := Fill(t, s);
    var k := LastSlash(t);
    assert k < |t| - 6;
    forall j | k < j < |r|
      ensures r[j] != SLASH
    {
      if j >= |t| - 6 {
        assert r[j] == s[j - (|t| - 6)];
      } else {
        assert r[j] == t[j];
      }
    }
    assert r[k] == t[k];
    LastSlashUnique(r, k);
    assert r[..k] == t[..k];
  }

  /** A name ending in `XXXXXX` behind a prefix: filling it changes the last
      six bytes of the whole name only. */
  lemma FillBehindPrefix(prefix: seq<bv8>, path: CStr, s: Suffix6)
    requires Reserved(path)
    ensures Reserved(prefix + path)
    ensures |prefix + Fill(path, s)| == |prefix + path|
    ensures (prefix + Fill(path, s))[..|prefix + path| - 6] == (prefix + path)[..|prefix + path| - 6]
  {
    assert (prefix + path)[|prefix + path| - 6..] == path[|path| - 6..];
    assert (prefix + Fill(path, s))[..|prefix + path| - 6] == prefix + path[..|path| - 6];
    assert (prefix + path)[..|prefix + path| - 6] == prefix + path[..|path| - 6];
  }

  // ---------------------------------------------------------------------
  // The calls a cache creation makes

  /** The result of each step of `store_creds_in_ccache`: initialise the
      cache, build an empty credential when there is none, store it, make
      the cache the primary one of its collection, close the handle. */
  datatype StoreSteps = StoreSteps(
    initialize: Code, emptyCred: Code, storeCred: Code, switchTo: Code, close: Code)

  /** What `store_creds_in_ccache` returns and whether it reached
      `krb5_cc_close`, which releases the handle whatever it returns. */
  datatype StoreResult = StoreResult(code: Code, closed: bool)

  function StoreCreds(s: StoreSteps, haveCreds: bool): (r: StoreResult)
    ensures r.closed <==> s.initialize == EOK && (haveCreds || s.emptyCred == EOK)
                          && s.storeCred == EOK && s.switchTo == EOK
    ensures r.code == EOK <==> r.closed && s.close == EOK
    ensures r.closed ==> r.code == s.close
  {
    if s.initialize != EOK then StoreResult(s.initialize, false)
    else if !haveCreds && s.emptyCred != EOK then StoreResult(s.emptyCred, false)
    else if s.storeCred != EOK then StoreResult(s.storeCred, false)
    else if s.switchTo != EOK then StoreResult(s.switchTo, false)
    else StoreResult(s.close, true)
  }

  /** The outcome of a call that creates something: what it created, or a
      code that reports its failure. */
  datatype Made<T> = Made(value: T) | Failed(code: Failure)

  /** Owner and mode of an existing directory, as `stat` reports them. */
  datatype DirStat = DirStat(uid: nat, gid: nat, mode: bv32)

  datatype CcType = FileCache | DirCache | OtherCache

  /** The oracles a cache creation consults.  Failing calls report their
      `errno` or Kerberos code. */
  datatype CacheEnv = CacheEnv(
    ccType: CStr -> CcType,                    // sss_krb5_get_type
    residual: CStr -> Option<CStr>,            // sss_krb5_residual_check_type(.., DIR)
    becomeUser: Code,                          // become_user(uid, gid)
    mkstemp: CStr -> Made<Suffix6>,             // mkstemp, on a template ending in XXXXXX
    resolve: CStr -> Code,                     // krb5_cc_resolve
    store: CStr -> StoreSteps,                 // the steps of store_creds_in_ccache
    rename: (CStr, CStr) -> Code,              // rename
    mkdir: CStr -> Code,                       // mkdir(dirname, 0700)
    stat: CStr -> Result<DirStat>,             // stat
    setDefault: CStr -> Code,                  // krb5_cc_set_default_name
    newUnique: Made<CStr>)                     // krb5_cc_new_unique(ctx, "DIR", ..)

  datatype Effect =
    | MakeTemp(template: CStr)
    | Resolve(name: CStr)
    | Store(cache: CStr, closed: bool)
    | Reserve(path: CStr)
    | Rename(from: CStr, to: CStr)
    | Destroy(cache: CStr)
    | BecomeUser
    | MakeDir(dir: CStr)
    | SetDefault(name: CStr)
    | NewUnique(cache: CStr)

  /** The outcome of a cache creation: the code, the cache name afterwards
      (`mkstemp` fills in a name ending in `XXXXXX` in place) and the calls
      made, in order. */
  datatype Outcome = Outcome(code: Code, ccname: CStr, effects: seq<Effect>)

  /** No cache handle is destroyed after `krb5_cc_close` released it. */
  predicate NoUseAfterClose(es: seq<Effect>) {
    forall i, j | 0 <= i < j < |es| && es[i].Store? && es[i].closed ::
      es[j] != Destroy(es[i].cache)
  }

  /** The error path of a cache creation: `krb5_cc_destroy` on the
      temporary handle.  As written it is called whenever the handle was
      resolved; the corrected rule leaves alone a handle that
      `store_creds_in_ccache` already closed. */
  function Discard(cache: CStr, closed: bool, asWritten: bool): (es: seq<Effect>)
    ensures es == [] || es == [Destroy(cache)]
    ensures !asWritten ==> (es == [] <==> closed)
  {
    if asWritten || !closed then [Destroy(cache)] else []
  }

  // ---------------------------------------------------------------------
  // FILE caches

  /** `create_ccache_file` with the error path chosen by `asWritten`: the
      temporary cache is created, resolved and filled, then moved into
      place. */
  function CreateCcacheFileWith(env: CacheEnv, ccname: CStr, haveCreds: bool, asWritten: bool)
    : (o: Outcome)
    ensures var path := StripFilePrefix(ccname);
            o.effects == [] <==> |path| == 0 || path[0] != SLASH
    ensures o.effects == [] ==> o.code == EINVAL && o.ccname == ccname
    ensures o.effects != [] ==> o.effects[0] == MakeTemp(TempTemplate(StripFilePrefix(ccname)))
  {
    var path := StripFilePrefix(ccname);
    if |path| == 0 || path[0] != SLASH then Outcome(EINVAL, ccname, [])
    else
      var tmpl := TempTemplate(path);
      match env.mkstemp(tmpl)
      case Failed(e) => Outcome(e, ccname, [MakeTemp(tmpl)])
      case Made(sfx) => FillTemporary(env, tmpl, sfx, ccname, haveCreds, asWritten)
  }

  /** The temporary cache `mkstemp` created from `tmpl` is resolved and
      filled, then moved into place. */
  function FillTemporary(env: CacheEnv, tmpl: CStr, sfx: Suffix6, ccname: CStr, haveCreds: bool,
                         asWritten: bool): (o: Outcome)
    requires |tmpl| >= 6
    ensures |o.effects| > 1 && o.effects[0] == MakeTemp(tmpl)
  {
    var tmp := Fill(tmpl, sfx);
    var rc := env.resolve(tmp);
    if rc != EOK then Outcome(rc, ccname, [MakeTemp(tmpl), Resolve(tmp)])
    else
      var st := StoreCreds(env.store(tmp), haveCreds);
      var stored := [MakeTemp(tmpl), Resolve(tmp), Store(tmp, st.closed)];
      if st.code != EOK then
        var es := stored + Discard(tmp, st.closed, asWritten);
        assert es[0] == MakeTemp(tmpl);
        Outcome(st.code, ccname, es)
      else
        var o := MoveIntoPlace(env, tmp, ccname, stored, asWritten);
        assert o.effects[0] == o.effects[..|stored|][0];
        o
  }

  /** The part of `create_ccache_file` after the temporary cache was stored
      and closed: a target ending in `XXXXXX` is reserved with `mkstemp`,
      which fills in the name, and the temporary cache is renamed onto it. */
  function MoveIntoPlace(env: CacheEnv, tmp: CStr, ccname: CStr, done: seq<Effect>,
                         asWritten: bool): (o: Outcome)
    ensures |o.effects| > |done| && o.effects[..|done|] == done
    ensures !asWritten ==> forall j | |done| <= j < |o.effects| :: !o.effects[j].Destroy?
    ensures o.ccname == ccname
            || (&& Reserved(ccname) && |o.ccname| == |ccname|
                && o.ccname[..|ccname| - 6] == ccname[..|ccname| - 6])
  {
    var path := StripFilePrefix(ccname);
    if Reserved(path) then
      match env.mkstemp(path)
      case Failed(e) => ReserveFailed(tmp, ccname, path, done, e, asWritten)
      case Made(s) => MoveToReserved(env, tmp, ccname, path, s, done, asWritten)
    else
      FinishFile(env, tmp, path, ccname, done, asWritten)
  }

  /** The reservation of the target failed: the temporary handle, already
      closed, is discarded. */
  function ReserveFailed(tmp: CStr, ccname: CStr, path: CStr, done: seq<Effect>, e: Code,
                         asWritten: bool): (o: Outcome)
    ensures |o.effects| > |done| && o.effects[..|done|] == done
    ensures !asWritten ==> o.effects == done + [Reserve(path)]
    ensures o.ccname == ccname
  {
    var es := done + [Reserve(path)];
    var d := Discard(tmp, true, asWritten);
    assert (es + d)[..|done|] == done;
    Outcome(e, ccname, es + d)
  }

  /** The target was reserved under the name `mkstemp` filled in; the
      temporary cache is renamed onto that name. */
  function MoveToReserved(env: CacheEnv, tmp: CStr, ccname: CStr, path: CStr, s: Suffix6,
                          done: seq<Effect>, asWritten: bool): (o: Outcome)
    requires path == StripFilePrefix(ccname) && Reserved(path)
    ensures |o.effects| > |done| && o.effects[..|done|] == done
    ensures !asWritten ==> forall j | |done| <= j < |o.effects| :: !o.effects[j].Destroy?
    ensures Reserved(ccname) && |o.ccname| == |ccname|
            && o.ccname[..|ccname| - 6] == ccname[..|ccname| - 6]
  {
    var prefix := ccname[..|ccname| - |path|];
    var target := Fill(path, s);
    assert prefix + path == ccname;
    FillBehindPrefix(prefix, path, s);
    NulFreeJoin(prefix, target);
    var es := done + [Reserve(path)];
    var o := FinishFile(env, tmp, target, prefix + target, es, asWritten);
    assert o.effects[..|done|] == es[..|done|] == done;
    o
  }

  /** The final `rename` of the temporary cache onto the target. */
  function FinishFile(env: CacheEnv, tmp: CStr, target: CStr, name: CStr,
                      done: seq<Effect>, asWritten: bool): (o: Outcome)
    ensures |o.effects| > |done| && o.effects[..|done| + 1] == done + [Rename(tmp, target)]
    ensures o.code == EOK ==> o.effects == done + [Rename(tmp, target)]
    ensures !asWritten ==> forall j | |done| <= j < |o.effects| :: !o.effects[j].Destroy?
    ensures o.ccname == name
  {
    var rc := env.rename(tmp, target);
    var es := done + [Rename(tmp, target)];
    if rc == EOK then Outcome(EOK, name, es)
    else Outcome(rc, name, es + Discard(tmp, true, asWritten))
  }

  lemma NulFreeJoin(a: seq<bv8>, b: seq<bv8>)
    requires NulFree(a) && NulFree(b)
    ensures NulFree(a + b)
  {
    forall i | 0 <= i < |a + b|
      ensures (a + b)[i] != 0
    {
      if i >= |a| {
        assert (a + b)[i] == b[i - |a|];
      }
    }
  }

  /** `create_ccache_file` as the rest of the model uses it: a handle that
      was closed is not destroyed again. */
  function CreateCcacheFile(env: CacheEnv, ccname: CStr, haveCreds: bool): (o: Outcome)
  {
    CreateCcacheFileWith(env, ccname, haveCreds, false)
  }

  /** A name that is not an absolute path, with or without `FILE:`, is
      refused before any call. */
  lemma FileNotAbsolute(env: CacheEnv, ccname: CStr, haveCreds: bool, asWritten: bool)
    requires var p := StripFilePrefix(ccname); |p| == 0 || p[0] != SLASH
    ensures CreateCcacheFileWith(env, ccname, haveCreds, asWritten) == Outcome(EINVAL, ccname, [])
  {
  }

  /** A FILE cache is created by writing a temporary cache next to the
      target and renaming it onto the target; a target ending in `XXXXXX`
      is first reserved with `mkstemp`, and the cache name then carries the
      reserved name. */
  lemma FileSuccess(env: CacheEnv, ccname: CStr, haveCreds: bool, asWritten: bool)
    requires CreateCcacheFileWith(env, ccname, haveCreds, asWritten).code == EOK
    ensures var path := StripFilePrefix(ccname);
            && |path| > 0 && path[0] == SLASH
            && env.mkstemp(TempTemplate(path)).Made?
            && var tmp := Fill(TempTemplate(path), env.mkstemp(TempTemplate(path)).value);
               && env.resolve(tmp) == EOK
               && StoreCreds(env.store(tmp), haveCreds).code == EOK
               && MoveIntoPlace(env, tmp, ccname,
                                [MakeTemp(TempTemplate(path)), Resolve(tmp), Store(tmp, true)],
                                asWritten).code == EOK
  {
  }

  /** Moving into place succeeds by renaming onto the target, after a
      successful reservation when the target ends in `XXXXXX`. */
  lemma MoveIntoPlaceSuccess(env: CacheEnv, tmp: CStr, ccname: CStr, done: seq<Effect>,
                             asWritten: bool)
    requires MoveIntoPlace(env, tmp, ccname, done, asWritten).code == EOK
    ensures var path := StripFilePrefix(ccname);
            var o := MoveIntoPlace(env, tmp, ccname, done, asWritten);
            && (Reserved(path) ==> env.mkstemp(path).Made?)
            && var target := if Reserved(path) then Fill(path, env.mkstemp(path).value) else path;
               && o.ccname == ccname[..|ccname| - |path|] + target
               && o.effects == done + (if Reserved(path) then [Reserve(path)] else [])
                               + [Rename(tmp, target)]
  {
  }

  /** A failed reservation ends the creation before the rename. */
  lemma MoveIntoPlaceReserveFails(env: CacheEnv, tmp: CStr, ccname: CStr, done: seq<Effect>,
                                  asWritten: bool)
    requires Reserved(StripFilePrefix(ccname)) && env.mkstemp(StripFilePrefix(ccname)).Failed?
    ensures var path := StripFilePrefix(ccname);
            MoveIntoPlace(env, tmp, ccname, done, asWritten)
            == Outcome(env.mkstemp(path).code, ccname,
                       done + [Reserve(path)] + Discard(tmp, true, asWritten))
  {
  }

  /** The temporary cache and the target share a directory. */
  lemma FileRenameInPlace(env: CacheEnv, ccname: CStr, haveCreds: bool)
    requires CreateCcacheFile(env, ccname, haveCreds).code == EOK
    ensures var o := CreateCcacheFile(env, ccname, haveCreds);
            var r := o.effects[|o.effects| - 1];
            r.Rename? && SLASH in r.from && SLASH in r.to && DirOf(r.from) == DirOf(r.to)
  {
    FileSuccess(env, ccname, haveCreds, false);
    var path := StripFilePrefix(ccname);
    var tmpl := TempTemplate(path);
    var tmp := Fill(tmpl, env.mkstemp(tmpl).value);
    var done := [MakeTemp(tmpl), Resolve(tmp), Store(tmp, true)];
    var o := MoveIntoPlace(env, tmp, ccname, done, false);
    assert CreateCcacheFile(env, ccname, haveCreds) == o;
    MoveIntoPlaceSuccess(env, tmp, ccname, done, false);
    var target := if Reserved(path) then Fill(path, env.mkstemp(path).value) else path;
    assert o.effects[|o.effects| - 1] == Rename(tmp, target);
    TempTemplateSameDir(path);
    FillSameDir(tmpl, env.mkstemp(tmpl).value);
    if Reserved(path) {
      FillSameDir(path, env.mkstemp(path).value);
    }
  }

  /** The corrected error path never touches a closed handle. */
  lemma FileNoUseAfterClose(env: CacheEnv, ccname: CStr, haveCreds: bool)
    ensures NoUseAfterClose(CreateCcacheFile(env, ccname, haveCreds).effects)
  {
    var path := StripFilePrefix(ccname);
    if |path| > 0 && path[0] == SLASH {
      var tmpl := TempTemplate(path);
      if env.mkstemp(tmpl).Made? {
        FillNoUseAfterClose(env, tmpl, env.mkstemp(tmpl).value, ccname, haveCreds);
      }
    }
  }

  /** The corrected filling of the temporary cache never destroys it after
      it was closed. */
  lemma FillNoUseAfterClose(env: CacheEnv, tmpl: CStr, sfx: Suffix6, ccname: CStr, haveCreds: bool)
    requires |tmpl| >= 6
    ensures NoUseAfterClose(FillTemporary(env, tmpl, sfx, ccname, haveCreds, false).effects)
  {
    var o := FillTemporary(env, tmpl, sfx, ccname, haveCreds, false);
    var tmp := Fill(tmpl, sfx);
    var st := StoreCreds(env.store(tmp), haveCreds);
    var stored := [MakeTemp(tmpl), Resolve(tmp), Store(tmp, st.closed)];
    if env.resolve(tmp) != EOK {
      NoDestroyNoUse(o.effects);
    } else if st.code != EOK {
      if st.closed {
        assert o.effects == stored;
        NoDestroyNoUse(o.effects);
      } else {
        assert o.effects == stored + [Destroy(tmp)];
      }
    } else {
      var es := MoveIntoPlace(env, tmp, ccname, stored, false).effects;
      assert es[..3] == stored;
      forall j | 0 <= j < 3
        ensures !es[j].Destroy?
      {
        assert es[j] == es[..3][j];
      }
      NoDestroyNoUse(es);
    }
  }

  /** Effects without a destroy never use a closed handle. */
  lemma NoDestroyNoUse(es: seq<Effect>)
    requires forall j | 0 <= j < |es| :: !es[j].Destroy?
    ensures NoUseAfterClose(es)
  {
  }

  /** As written, a failure after the temporary cache was stored and closed
      (the reservation of a name ending in `XXXXXX` fails) calls
      `krb5_cc_destroy` on the released handle. */
  lemma FileDestroysClosedHandle(env: CacheEnv, ccname: CStr, haveCreds: bool)
    requires var path := StripFilePrefix(ccname);
             && |path| > 0 && path[0] == SLASH && Reserved(path)
             && env.mkstemp(TempTemplate(path)).Made?
             && var tmp := Fill(TempTemplate(path), env.mkstemp(TempTemplate(path)).value);
                && env.resolve(tmp) == EOK
                && StoreCreds(env.store(tmp), haveCreds).code == EOK
                && env.mkstemp(path).Failed?
    ensures !NoUseAfterClose(CreateCcacheFileWith(env, ccname, haveCreds, true).effects)
  {
    FileReserveFailsEffects(env, ccname, haveCreds);
    ClosedThenDestroyed(CreateCcacheFileWith(env, ccname, haveCreds, true).effects, 2, 4);
  }

  /** The calls of the as-written creation when the target's reservation
      fails: the destroy comes after the store that closed the handle. */
  lemma FileReserveFailsEffects(env: CacheEnv, ccname: CStr, haveCreds: bool)
    requires var path := StripFilePrefix(ccname);
             && |path| > 0 && path[0] == SLASH && Reserved(path)
             && env.mkstemp(TempTemplate(path)).Made?
             && var tmp := Fill(TempTemplate(path), env.mkstemp(TempTemplate(path)).value);
                && env.resolve(tmp) == EOK
                && StoreCreds(env.store(tmp), haveCreds).code == EOK
                && env.mkstemp(path).Failed?
    ensures var path := StripFilePrefix(ccname);
            var tmpl := TempTemplate(path);
            var tmp := Fill(tmpl, env.mkstemp(tmpl).value);
            CreateCcacheFileWith(env, ccname, haveCreds, true).effects
            == [MakeTemp(tmpl), Resolve(tmp), Store(tmp, true), Reserve(path), Destroy(tmp)]
  {
    var path := StripFilePrefix(ccname);
    var tmpl := TempTemplate(path);
    var tmp := Fill(tmpl, env.mkstemp(tmpl).value);
    var stored := [MakeTemp(tmpl), Resolve(tmp), Store(tmp, true)];
    calc {
      CreateCcacheFileWith(env, ccname, haveCreds, true).effects;
      == { FileReachesMove(env, ccname, haveCreds, true); }
      MoveIntoPlace(env, tmp, ccname, stored, true).effects;
      == { MoveIntoPlaceReserveFails(env, tmp, ccname, stored, true); }
      stored + [Reserve(path)] + Discard(tmp, true, true);
      ==
      [MakeTemp(tmpl), Resolve(tmp), Store(tmp, true), Reserve(path), Destroy(tmp)];
    }
  }

  /** A destroy of a handle after its close breaks `NoUseAfterClose`. */
  lemma ClosedThenDestroyed(es: seq<Effect>, i: nat, j: nat)
    requires i < j < |es| && es[i].Store? && es[i].closed && es[j] == Destroy(es[i].cache)
    ensures !NoUseAfterClose(es)
  {
  }

  /** Once the temporary cache is stored and closed, the rest of the
      creation is the move into place. */
  lemma FileReachesMove(env: CacheEnv, ccname: CStr, haveCreds: bool, asWritten: bool)
    requires var path := StripFilePrefix(ccname);
             && |path| > 0 && path[0] == SLASH
             && env.mkstemp(TempTemplate(path)).Made?
             && var tmp := Fill(TempTemplate(path), env.mkstemp(TempTemplate(path)).value);
                && env.resolve(tmp) == EOK
                && StoreCreds(env.store(tmp), haveCreds).code == EOK
    ensures var path := StripFilePrefix(ccname);
            var tmpl := TempTemplate(path);
            var tmp := Fill(tmpl, env.mkstemp(tmpl).value);
            CreateCcacheFileWith(env, ccname, haveCreds, asWritten)
            == MoveIntoPlace(env, tmp, ccname, [MakeTemp(tmpl), Resolve(tmp), Store(tmp, true)], asWritten)
  {
  }

  // ---------------------------------------------------------------------
  // DIR caches

  /** The permission check of `create_ccdir`: the mode without its file
      type bits is 0700. */
  predicate PrivateMode(mode: bv32) {
    mode & !S_IFMT == PRIVATE_DIR
  }

  /** `create_ccdir`: creating the directory succeeds, or it exists already
      and is owned by the user and group with permissions exactly 0700. */
  function CreateCcdir(mkdir: Code, st: Result<DirStat>, uid: nat, gid: nat): (r: Code)
    ensures r == EOK <==> mkdir == EOK
                          || (&& mkdir == EEXIST && st.Ok?
                              && st.value.uid == uid && st.value.gid == gid
                              && PrivateMode(st.value.mode))
    ensures mkdir != EOK && mkdir != EEXIST ==> r == mkdir
    ensures mkdir == EEXIST && st.Fail? ==> r == EIO
    ensures mkdir == EEXIST && st.Ok? && r != EOK ==> r == EACCES
  {
    if mkdir == EOK then EOK
    else if mkdir != EEXIST then mkdir
    else match st
      case Fail(_) => EIO
      case Ok(s) =>
        if s.uid != uid || s.gid != gid then EACCES
        else if !PrivateMode(s.mode) then EACCES
        else EOK
  }

  /** For a mode of the usual sixteen bits the check ignores the file type
      and accepts exactly the permission bits `rwx------`, without setuid,
      setgid or sticky bit. */
  lemma PrivateDirMode(mode: bv32)
    requires mode < 0x1_0000
    ensures PrivateMode(mode) <==> mode & 0xFFF == PRIVATE_DIR
  {
  }

  /** `create_ccache_in_dir` with the error path chosen by `asWritten`. */
  function CreateCcacheInDirWith(env: CacheEnv, uid: nat, gid: nat, ccname: CStr,
                                 haveCreds: bool, asWritten: bool): (o: Outcome)
    ensures o.ccname == ccname
    ensures env.residual(ccname).None? ==> o == Outcome(EIO, ccname, [])
    ensures env.residual(ccname).Some? ==> o.effects != [] && o.effects[0] == BecomeUser
  {
    match env.residual(ccname)
    case None => Outcome(EIO, ccname, [])
    case Some(dir) =>
      if env.becomeUser != EOK then Outcome(env.becomeUser, ccname, [BecomeUser])
      else if |dir| > 0 && dir[0] == COLON then
        var rc := env.resolve(ccname);
        if rc != EOK then Outcome(rc, ccname, [BecomeUser, Resolve(ccname)])
        else StoreInto(env, ccname, ccname, [BecomeUser, Resolve(ccname)], haveCreds, asWritten)
      else if |dir| > 0 && dir[0] == SLASH then
        var made := CreateCcdir(env.mkdir(dir), env.stat(dir), uid, gid);
        if made != EOK then Outcome(made, ccname, [BecomeUser, MakeDir(dir)])
        else if env.setDefault(ccname) != EOK then
          Outcome(env.setDefault(ccname), ccname, [BecomeUser, MakeDir(dir), SetDefault(ccname)])
        else match env.newUnique
          case Failed(e) => Outcome(e, ccname, [BecomeUser, MakeDir(dir), SetDefault(ccname)])
          case Made(h) =>
            StoreInto(env, h, ccname,
                      [BecomeUser, MakeDir(dir), SetDefault(ccname), NewUnique(h)],
                      haveCreds, asWritten)
      else Outcome(EIO, ccname, [BecomeUser])
  }

  /** Storing the credentials into an opened DIR cache. */
  function StoreInto(env: CacheEnv, h: CStr, ccname: CStr, done: seq<Effect>,
                     haveCreds: bool, asWritten: bool): (o: Outcome)
    ensures o.ccname == ccname && |o.effects| > |done| && o.effects[..|done|] == done
    ensures o.effects[|done|] == Store(h, StoreCreds(env.store(h), haveCreds).closed)
    ensures o.code == StoreCreds(env.store(h), haveCreds).code
    ensures o.code == EOK ==> |o.effects| == |done| + 1
  {
    var st := StoreCreds(env.store(h), haveCreds);
    var es := done + [Store(h, st.closed)];
    if st.code == EOK then Outcome(EOK, ccname, es)
    else Outcome(st.code, ccname, es + Discard(h, st.closed, asWritten))
  }

  function CreateCcacheInDir(env: CacheEnv, uid: nat, gid: nat, ccname: CStr,
                             haveCreds: bool): (o: Outcome)
  {
    CreateCcacheInDirWith(env, uid, gid, ccname, haveCreds, false)
  }

  /** A DIR cache is written only after the privileges were dropped, and a
      new cache only into a directory that passed `create_ccdir`. */
  lemma DirSuccess(env: CacheEnv, uid: nat, gid: nat, ccname: CStr, haveCreds: bool)
    requires CreateCcacheInDir(env, uid, gid, ccname, haveCreds).code == EOK
    ensures env.residual(ccname).Some? && env.becomeUser == EOK
    ensures var dir := env.residual(ccname).value;
            && |dir| > 0 && (dir[0] == COLON || dir[0] == SLASH)
            && (dir[0] == COLON ==> env.resolve(ccname) == EOK
                                    && StoreCreds(env.store(ccname), haveCreds).code == EOK)
            && (dir[0] == SLASH ==>
                  && CreateCcdir(env.mkdir(dir), env.stat(dir), uid, gid) == EOK
                  && env.setDefault(ccname) == EOK && env.newUnique.Made?
                  && StoreCreds(env.store(env.newUnique.value), haveCreds).code == EOK)
  {
  }

  /** The corrected DIR path never touches a closed handle either. */
  lemma DirNoUseAfterClose(env: CacheEnv, uid: nat, gid: nat, ccname: CStr, haveCreds: bool)
    ensures NoUseAfterClose(CreateCcacheInDir(env, uid, gid, ccname, haveCreds).effects)
  {
    var es := CreateCcacheInDir(env, uid, gid, ccname, haveCreds).effects;
    forall i, j | 0 <= i < j < |es| && es[i].Store? && es[i].closed
      ensures es[j] != Destroy(es[i].cache)
    {
    }
  }

  // ---------------------------------------------------------------------
  // Dispatch

  /** `create_ccache`: FILE and DIR caches have their own creation, any
      other type is refused. */
  function CreateCcache(env: CacheEnv, uid: nat, gid: nat, ccname: CStr, haveCreds: bool)
    : (o: Outcome)
    ensures env.ccType(ccname) == OtherCache ==> o == Outcome(EINVAL, ccname, [])
    ensures env.ccType(ccname) == FileCache ==> o == CreateCcacheFile(env, ccname, haveCreds)
    ensures env.ccType(ccname) == DirCache ==> o == CreateCcacheInDir(env, uid, gid, ccname, haveCreds)
  {
    match env.ccType(ccname)
    case FileCache => CreateCcacheFile(env, ccname, haveCreds)
    case DirCache => CreateCcacheInDir(env, uid, gid, ccname, haveCreds)
    case OtherCache => Outcome(EINVAL, ccname, [])
  }

  /** The cache name changes only for a FILE cache whose name ends in
      `XXXXXX`, and then only in those six bytes. */
  lemma CreateCcacheName(env: CacheEnv, uid: nat, gid: nat, ccname: CStr, haveCreds: bool)
    ensures var o := CreateCcache(env, uid, gid, ccname, haveCreds);
            o.ccname != ccname ==>
              && env.ccType(ccname) == FileCache && Reserved(ccname)
              && |o.ccname| == |ccname| && o.ccname[..|ccname| - 6] == ccname[..|ccname| - 6]
  {
  }
}

=== FILE: child.dfy ===
/** The operations of the Kerberos worker and the flow of `main`: ticket
    request (`tgt_req_child`), password change (`changepw_child`), access
    check (`kuserok_child`), renewal (`renew_tgt_child`) and the empty
    cache of an offline login (`create_empty_ccache`).

    Every operation starts from the reply's response list and returns the
    status it reports together with the list it leaves behind.  The KDC and
    every other library call are oracles collected in a `ChildEnv`.
 */
module Child {
  import opened Codes
  import opened Bytes
  import opened Wire
  import opened Responses
  import opened Callbacks
  import opened ErrorMap
  import opened Ccache
  import opened Keytab
  import opened Fast

  /** A ticket the KDC issued: its times and the client principal as
      `krb5_unparse_name_ext` writes it (`None` when that call fails). */
  datatype Ticket = Ticket(times: TicketTimes, upn: Option<seq<bv8>>)

  /** The service a password acquisition asks a ticket for: the
      ticket-granting service, or the password-change service
      (`SSSD_KRB5_CHANGEPW_PRINCIPAL`). */
  datatype Service = TicketGranting | PasswordChange

  /** One `krb5_get_init_creds_password`: its code, the callbacks the
      library made into the worker on the way, and the ticket. */
  datatype Acquisition = Acquisition(code: Code, events: seq<Event>, ticket: Ticket)

  /** `krb5_change_password`: its code, the KDC's result code and the two
      strings the KDC explains it with. */
  datatype PasswordChangeReply =
    PasswordChangeReply(code: Code, resultCode: int, codeString: seq<bv8>, resultString: seq<bv8>)

  /** The library calls, system calls and clock the operations consult. */
  datatype ChildEnv = ChildEnv(
    acquire: (Service, Option<CStr>) -> Acquisition,  // krb5_get_init_creds_password(password)
    setExpire: Code,                  // sss_krb5_get_init_creds_opt_set_expire_callback
    now: int,                         // time(NULL), for the expiry warning
    setAnswer: (nat, Split) -> Code,  // krb5_responder_otp_set_answer
    validation: ValidateEnv,          // the calls of validate_tgt
    becomeUser: Code,                 // become_user(uid, gid)
    cache: CacheEnv,                  // the calls of create_ccache
    changepwOptions: Code,            // get_changepw_options
    changePassword: CStr -> PasswordChangeReply,
    kuserok: bool,                    // krb5_kuserok
    renewResolve: CStr -> Code,       // krb5_cc_resolve of the cache to renew
    renewed: Made<Ticket>,            // krb5_get_renewed_creds
    ccInitialize: Code,               // krb5_cc_initialize of the renewed cache
    ccStore: Code,                    // krb5_cc_store_cred of the renewed ticket
    write: Code)                      // sss_atomic_write_s of the reply: EOK, also for a short write

  /** The part of the request the operations use; `fast` says whether an
      armor cache was set up, and `princRealm` is the realm of the request
      principal `k5c_setup` parsed from the UPN, which the keytab validation
      looks for whatever realm the issued ticket names. */
  datatype Ctx = Ctx(uid: nat, gid: nat, validate: bool, fast: bool, ccname: CStr,
                     princRealm: CStr)

  /** An operation's status and the response list it leaves. */
  datatype Done = Done(code: Code, msgs: seq<Message>)

  // ---------------------------------------------------------------------
  // Building blocks

  /** `k5c_attach_ccname_msg`: the cache name as a `KRB5CCNAME=` item. */
  function AttachCcname(ccname: Option<CStr>, l: seq<Message>): (r: Done)
    ensures ccname.None? <==> r.code == Sssd(ErrInternal)
    ensures ccname.None? ==> r.msgs == l
    ensures ccname.Some? ==> r.code == EOK && r.msgs == AddResponse(l, CcacheEnv(ccname.value))
  {
    if ccname.None? then Done(Sssd(ErrInternal), l)
    else Done(EOK, AddResponse(l, CcacheEnv(ccname.value)))
  }

  /** `add_ticket_times_and_upn_to_response`: the ticket times, then the
      principal when it could be written out; a failure to write it out is
      ignored. */
  function AddTimesAndUpn(l: seq<Message>, t: Ticket): (l': seq<Message>)
    ensures |l'| == |l| + (if t.upn.Some? then 2 else 1)
    ensures l'[|l'| - |l|..] == l
    ensures l'[|l'| - |l| - 1] ==
            TgtTimes(t.times.authtime, t.times.starttime, t.times.endtime, t.times.renewTill)
    ensures t.upn.Some? ==> l'[0] == Upn(t.upn.value)
  {
    var withTimes := AddResponse(l, TgtTimes(t.times.authtime, t.times.starttime,
                                             t.times.endtime, t.times.renewTill));
    if t.upn.Some? then AddResponse(withTimes, Upn(t.upn.value)) else withTimes
  }

  /** The password of a token, as `tgt_req_child` passes it on: absent for
      a token without one. */
  function PasswordOf(tok: AuthTok): (p: Option<CStr>)
    ensures p.Some? <==> tok.Password?
    ensures p.Some? ==> p.value == GetPassword(tok).value
  {
    match GetPassword(tok)
    case Ok(pw) => Some(pw)
    case Fail(_) => None
  }

  /** The result of `get_and_save_tgt`: its code, the response list and the
      cache name, which a FILE cache ending in `XXXXXX` fills in. */
  datatype Saved = Saved(code: Code, msgs: seq<Message>, ccname: CStr)

  /** The callbacks of a ticket request: all three, the expiry callback
      only when it could be set; the responder answers with `authtok`. */
  function RequestHooks(e: ChildEnv, authtok: AuthTok): Hooks {
    Hooks(true, e.setExpire == EOK, true, e.now, authtok, e.setAnswer)
  }

  /** `get_and_save_tgt`: acquire a ticket with the password, validate it
      if asked, drop privileges when the keytab or an armor cache was
      used, write the cache and report the ticket. */
  function GetAndSaveTgt(e: ChildEnv, k: Ctx, password: Option<CStr>, authtok: AuthTok,
                         l: seq<Message>): (r: Saved)
    ensures r.code != EOK ==> r.msgs == RunCallbacks(RequestHooks(e, authtok),
                                                     e.acquire(TicketGranting, password).events, l)
  {
    var a := e.acquire(TicketGranting, password);
    var l1 := RunCallbacks(RequestHooks(e, authtok), a.events, l);
    if a.code != EOK then Saved(a.code, l1, k.ccname)
    else
      var v := if k.validate then ValidateTgt(e.validation, k.princRealm).code else EOK;
      if v != EOK then Saved(v, l1, k.ccname)
      else if (k.validate || k.fast) && e.becomeUser != EOK then Saved(e.becomeUser, l1, k.ccname)
      else
        var o := CreateCcache(e.cache, k.uid, k.gid, k.ccname, true);
        if o.code != EOK then Saved(o.code, l1, o.ccname)
        else Saved(EOK, AddTimesAndUpn(l1, a.ticket), o.ccname)
  }

  /** A saved ticket was acquired, verified against the keytab when
      validation is on, written only after privileges were dropped when
      the keytab or an armor cache was used, and reported with its times. */
  lemma GetAndSaveTgtSuccess(e: ChildEnv, k: Ctx, password: Option<CStr>, authtok: AuthTok,
                             l: seq<Message>)
    requires GetAndSaveTgt(e, k, password, authtok, l).code == EOK
    ensures var a := e.acquire(TicketGranting, password);
            var r := GetAndSaveTgt(e, k, password, authtok, l);
            && a.code == EOK
            && (k.validate ==> ValidateTgt(e.validation, k.princRealm).verified)
            && (k.validate || k.fast ==> e.becomeUser == EOK)
            && CreateCcache(e.cache, k.uid, k.gid, k.ccname, true).code == EOK
            && r.ccname == CreateCcache(e.cache, k.uid, k.gid, k.ccname, true).ccname
            && r.msgs == AddTimesAndUpn(RunCallbacks(RequestHooks(e, authtok), a.events, l), a.ticket)
  {
    var a := e.acquire(TicketGranting, password);
    if k.validate {
      ValidateTgtVerifies(e.validation, k.princRealm);
    }
  }

  // ---------------------------------------------------------------------
  // tgt_req_child

  /** The callbacks of the second, password-change acquisition: the
      prompter alone. */
  function PrompterOnly(e: ChildEnv, authtok: AuthTok): Hooks {
    Hooks(true, false, false, e.now, authtok, e.setAnswer)
  }

  /** `tgt_req_child`.  As written, the `switch` on the result of
      `sss_authtok_get_password` has no case labels, so a token without a
      password is not rejected: the acquisition runs without a password.
      An expired password is told apart from a wrong one by asking for a
      password-change ticket with it. */
  function TgtReq(e: ChildEnv, k: Ctx, authtok: AuthTok, l: seq<Message>): (r: Done)
    ensures r.code == EOK || r.code.Sssd? || r.code == e.changepwOptions
  {
    var password := PasswordOf(authtok);
    var s := GetAndSaveTgt(e, k, password, authtok, l);
    if s.code != Krb5(KdcErrKeyExp) then
      var c := if s.code == EOK then AttachCcname(Some(s.ccname), s.msgs) else Done(s.code, s.msgs);
      Done(MapKrb5Error(c.code), c.msgs)
    else if e.changepwOptions != EOK then Done(e.changepwOptions, s.msgs)
    else
      var a := e.acquire(PasswordChange, password);
      var l1 := RunCallbacks(PrompterOnly(e, authtok), a.events, s.msgs);
      Done(if a.code == EOK then Sssd(ErrCredsExpired) else MapKrb5Error(a.code), l1)
  }

  /** A ticket request succeeds exactly when the ticket was saved; the
      newest message then names the cache. */
  lemma TgtReqSuccess(e: ChildEnv, k: Ctx, authtok: AuthTok, l: seq<Message>)
    ensures var s := GetAndSaveTgt(e, k, PasswordOf(authtok), authtok, l);
            var r := TgtReq(e, k, authtok, l);
            (r.code == EOK <==> s.code == EOK)
            && (r.code == EOK ==> r.msgs == AddResponse(s.msgs, CcacheEnv(s.ccname)))
  {
  }

  /** ERR_CREDS_EXPIRED is reported exactly when the KDC called the
      password expired and the same password then obtained a
      password-change ticket, or the KDC called it expired once more. */
  lemma TgtReqCredsExpired(e: ChildEnv, k: Ctx, authtok: AuthTok, l: seq<Message>)
    requires !e.changepwOptions.Sssd?
    ensures var pw := PasswordOf(authtok);
            TgtReq(e, k, authtok, l).code == Sssd(ErrCredsExpired) <==>
              && GetAndSaveTgt(e, k, pw, authtok, l).code == Krb5(KdcErrKeyExp)
              && e.changepwOptions == EOK
              && e.acquire(PasswordChange, pw).code in {EOK, Krb5(KdcErrKeyExp)}
  {
  }

  /** No credential-type check: a token without a password is handled as
      if it were empty, and the status is never ERR_INVALID_CRED_TYPE. */
  lemma TgtReqIgnoresTokenType(e: ChildEnv, k: Ctx, tok: AuthTok, l: seq<Message>)
    requires !tok.Password? && !e.changepwOptions.Sssd?
    ensures TgtReq(e, k, tok, l) == TgtReq(e, k, Empty, l)
    ensures TgtReq(e, k, tok, l).code != Sssd(ErrInvalidCredType)
  {
    GetAndSaveTgtIgnoresToken(e, k, tok, l);
    var s := GetAndSaveTgt(e, k, None, tok, l);
    RunCallbacksIgnoreToken(PrompterOnly(e, tok), Empty,
                            e.acquire(PasswordChange, None).events, s.msgs);
    assert PrompterOnly(e, tok).(authtok := Empty) == PrompterOnly(e, Empty);
  }

  /** Without a password, `get_and_save_tgt` does the same whatever the
      token. */
  lemma GetAndSaveTgtIgnoresToken(e: ChildEnv, k: Ctx, tok: AuthTok, l: seq<Message>)
    requires !tok.Password?
    ensures GetAndSaveTgt(e, k, None, tok, l) == GetAndSaveTgt(e, k, None, Empty, l)
  {
    RequestHooksIgnoreToken(e, tok, e.acquire(TicketGranting, None).events, l);
  }

  /** The responder adds nothing for a token without a password, so the
      callbacks do the same with any such token. */
  lemma {:induction false} RunCallbacksIgnoreToken(h: Hooks, other: AuthTok, events: seq<Event>,
                                                   l: seq<Message>)
    requires !h.authtok.Password? && !other.Password?
    ensures RunCallbacks(h, events, l) == RunCallbacks(h.(authtok := other), events, l)
    decreases |events|
  {
    if |events| > 0 {
      var h' := h.(authtok := other);
      assert CallbackAdds(h', events[0]) == CallbackAdds(h, events[0]);
      var l1 := AfterEvent(h, events[0], l);
      assert AfterEvent(h', events[0], l) == l1;
      RunCallbacksIgnoreToken(h, other, events[1..], l1);
      assert RunCallbacks(h, events, l) == RunCallbacks(h, events[1..], l1);
      assert RunCallbacks(h', events, l) == RunCallbacks(h', events[1..], l1);
    }
  }

  lemma RequestHooksIgnoreToken(e: ChildEnv, tok: AuthTok, events: seq<Event>, l: seq<Message>)
    requires !tok.Password?
    ensures RunCallbacks(RequestHooks(e, tok), events, l) == RunCallbacks(RequestHooks(e, Empty), events, l)
  {
    RunCallbacksIgnoreToken(RequestHooks(e, tok), Empty, events, l);
    assert RequestHooks(e, tok).(authtok := Empty) == RequestHooks(e, Empty);
  }

  // ---------------------------------------------------------------------
  // changepw_child

  /** The message a rejected password change shows the user: the KDC's
      result string, else its result-code string, each cut at a NUL. */
  function ChpassMessage(c: PasswordChangeReply): (m: Option<CStr>)
    ensures m.Some? <==> |c.resultString| > 0 || |c.codeString| > 0
    ensures |c.resultString| > 0 ==> m == Some(StrNDup(c.resultString))
    ensures |c.resultString| == 0 && |c.codeString| > 0 ==> m == Some(StrNDup(c.codeString))
  {
    if |c.resultString| > 0 then Some(StrNDup(c.resultString))
    else if |c.codeString| > 0 then Some(StrNDup(c.codeString))
    else None
  }

  /** The callbacks of the first acquisition of a password change: the
      prompter for the change itself, none for the preliminary check. */
  function ChangeHooks(e: ChildEnv, authtok: AuthTok, prelim: bool): Hooks {
    Hooks(!prelim, false, false, e.now, authtok, e.setAnswer)
  }

  /** `changepw_child`: prove the old password with a password-change
      ticket; then, unless this is the preliminary check, change it and
      log in with the new password.  The tokens are emptied as they are
      used, so the responder of the final login has no password. */
  function ChangePw(e: ChildEnv, k: Ctx, authtok: AuthTok, newAuthtok: AuthTok, prelim: bool,
                    l: seq<Message>): (r: Done)
    ensures !authtok.Password? ==> r == Done(Sssd(ErrNoCreds), l)
    ensures authtok.Password? && e.changepwOptions != EOK ==> r == Done(e.changepwOptions, l)
    ensures r.code == EOK ==> authtok.Password? && e.changepwOptions == EOK
    ensures r.code == EOK && !prelim ==> newAuthtok.Password?
  {
    match GetPassword(authtok)
    case Fail(_) => Done(Sssd(ErrNoCreds), l)
    case Ok(pw) =>
      if e.changepwOptions != EOK then Done(e.changepwOptions, l)
      else
        var a := e.acquire(PasswordChange, Some(pw));
        var l1 := RunCallbacks(ChangeHooks(e, authtok, prelim), a.events, l);
        if a.code != EOK then Done(a.code, l1)
        else if prelim then Done(EOK, l1)
        else ChangeAndLogin(e, k, newAuthtok, l1)
  }

  /** The second half of `changepw_child`: the change and the login with
      the new password. */
  function ChangeAndLogin(e: ChildEnv, k: Ctx, newAuthtok: AuthTok, l: seq<Message>): (r: Done)
    ensures r.code == EOK ==> newAuthtok.Password?
  {
    match GetPassword(newAuthtok)
    case Fail(_) => Done(Sssd(ErrNoCreds), l)
    case Ok(npw) =>
      var c := e.changePassword(npw);
      if c.code == Krb5(KdcUnreach) then Done(Sssd(ErrNetworkIo), l)
      else if c.code != EOK || c.resultCode != 0 then
        var m := ChpassMessage(c);
        Done(Sssd(ErrChpassFailed), if m.Some? then AddResponse(l, ChpassError(m.value)) else l)
      else
        var s := GetAndSaveTgt(e, k, Some(npw), Empty, l);
        var d := if s.code == EOK then AttachCcname(Some(s.ccname), s.msgs) else Done(s.code, s.msgs);
        Done(MapKrb5Error(d.code), d.msgs)
  }

  /** The preliminary check never changes the password, and it succeeds
      exactly when the old password obtains a password-change ticket. */
  lemma ChangePwPrelim(e: ChildEnv, k: Ctx, authtok: AuthTok, newAuthtok: AuthTok,
                       l: seq<Message>)
    ensures ChangePw(e, k, authtok, newAuthtok, true, l).code == EOK <==>
            authtok.Password? && e.changepwOptions == EOK
            && e.acquire(PasswordChange, Some(GetPassword(authtok).value)).code == EOK
    ensures forall cp: CStr -> PasswordChangeReply ::
              ChangePw(e.(changePassword := cp), k, authtok, newAuthtok, true, l)
              == ChangePw(e, k, authtok, newAuthtok, true, l)
  {
  }

  /** A change the KDC refuses reports ERR_CHPASS_FAILED, with the KDC's
      explanation as the newest message when it gave one. */
  lemma ChangePwRejected(e: ChildEnv, k: Ctx, newAuthtok: AuthTok, l: seq<Message>)
    requires newAuthtok.Password?
    requires var c := e.changePassword(GetPassword(newAuthtok).value);
             c.code != Krb5(KdcUnreach) && (c.code != EOK || c.resultCode != 0)
    ensures var c := e.changePassword(GetPassword(newAuthtok).value);
            var r := ChangeAndLogin(e, k, newAuthtok, l);
            && r.code == Sssd(ErrChpassFailed)
            && (ChpassMessage(c).None? ==> r.msgs == l)
            && (ChpassMessage(c).Some? ==> r.msgs == [ChpassError(ChpassMessage(c).value)] + l)
  {
  }

  /** A completed change logs in with the new password and, on success,
      names the new cache. */
  lemma ChangePwSuccess(e: ChildEnv, k: Ctx, authtok: AuthTok, newAuthtok: AuthTok,
                        l: seq<Message>)
    requires ChangePw(e, k, authtok, newAuthtok, false, l).code == EOK
    ensures authtok.Password? && newAuthtok.Password?
    ensures var npw := GetPassword(newAuthtok).value;
            var c := e.changePassword(npw);
            c.code == EOK && c.resultCode == 0
    ensures var npw := GetPassword(newAuthtok).value;
            var r := ChangePw(e, k, authtok, newAuthtok, false, l);
            var l1 := RunCallbacks(ChangeHooks(e, authtok, false),
                                   e.acquire(PasswordChange, Some(GetPassword(authtok).value)).events, l);
            var s := GetAndSaveTgt(e, k, Some(npw), Empty, l1);
            s.code == EOK && r.msgs == AddResponse(s.msgs, CcacheEnv(s.ccname))
  {
  }

  // ---------------------------------------------------------------------
  // kuserok_child, renew_tgt_child, create_empty_ccache

  /** `kuserok_child`. */
  function Kuserok(allowed: bool): (r: Code)
    ensures r == EOK <==> allowed
    ensures r != EOK ==> r == Sssd(ErrAuthDenied)
  {
    if allowed then EOK else Sssd(ErrAuthDenied)
  }

  /** The library calls of a renewal in order; the first failure stops it. */
  function RenewSteps(e: ChildEnv, k: Ctx, path: CStr): (c: Code)
    ensures c == EOK ==> e.renewed.Made?
  {
    if e.renewResolve(path) != EOK then e.renewResolve(path)
    else if e.renewed.Failed? then e.renewed.code
    else
      var v := if k.validate then ValidateTgt(e.validation, k.princRealm).code else EOK;
      if v != EOK then v
      else if (k.validate || k.fast) && e.becomeUser != EOK then e.becomeUser
      else if e.ccInitialize != EOK then e.ccInitialize
      else e.ccStore
  }

  /** `renew_tgt_child`: renew the ticket of the cache the token names and
      store it back into that cache. */
  function Renew(e: ChildEnv, k: Ctx, authtok: AuthTok, l: seq<Message>): (r: Done)
    ensures !authtok.CcFile? ==> r == Done(Sssd(ErrInvalidCredType), l)
    ensures r.code == EOK || r.code.Sssd?
    ensures r.code != EOK ==> r.msgs == l
    ensures r.code == EOK ==>
              && authtok.CcFile? && e.renewed.Made?
              && |r.msgs| > |l| + 1 && r.msgs[0] == CcacheEnv(k.ccname)
              && r.msgs[|r.msgs| - |l|..] == l
  {
    if !authtok.CcFile? then Done(Sssd(ErrInvalidCredType), l)
    else
      var c := RenewSteps(e, k, StrNDup(authtok.path));
      if c != EOK then Done(MapKrb5Error(c), l)
      else
        var d := AttachCcname(Some(k.ccname), AddTimesAndUpn(l, e.renewed.value));
        Done(MapKrb5Error(d.code), d.msgs)
  }

  /** Only a cache-file token can be renewed; a renewal either fails
      without a message or reports the ticket and the request's cache. */
  lemma RenewOutcome(e: ChildEnv, k: Ctx, authtok: AuthTok, l: seq<Message>)
    ensures Renew(e, k, authtok, l).code == Sssd(ErrInvalidCredType) <==> !authtok.CcFile?
    ensures var r := Renew(e, k, authtok, l);
            r.code == EOK <==> authtok.CcFile? && RenewSteps(e, k, StrNDup(authtok.path)) == EOK
    ensures var r := Renew(e, k, authtok, l);
            r.code == EOK ==>
              r.msgs == AddResponse(AddTimesAndUpn(l, e.renewed.value), CcacheEnv(k.ccname))
    ensures var r := Renew(e, k, authtok, l);
            r.code != EOK ==> r.msgs == l
  {
  }

  /** `create_empty_ccache`: the cache of an offline login, without
      credentials. */
  function CreateEmptyCcache(e: ChildEnv, k: Ctx, l: seq<Message>): (r: Done)
    ensures r.code == EOK || r.code.Sssd?
    ensures r.code != EOK ==> r.msgs == l
    ensures r.code == EOK ==> |r.msgs| == |l| + 1 && r.msgs[0].CcacheEnv? && r.msgs[1..] == l
  {
    var o := CreateCcache(e.cache, k.uid, k.gid, k.ccname, false);
    var d := if o.code != EOK then Done(o.code, l) else AttachCcname(Some(o.ccname), l);
    Done(MapKrb5Error(d.code), d.msgs)
  }

  /** The offline login succeeds exactly when the empty cache was created,
      and then reports its name. */
  lemma CreateEmptyCcacheOutcome(e: ChildEnv, k: Ctx, l: seq<Message>)
    ensures var o := CreateCcache(e.cache, k.uid, k.gid, k.ccname, false);
            var r := CreateEmptyCcache(e, k, l);
            && (r.code == EOK <==> o.code == EOK)
            && (r.code == EOK ==> r.msgs == AddResponse(l, CcacheEnv(o.ccname)))
            && (r.code != EOK ==> r.msgs == l)
  {
  }

  // ---------------------------------------------------------------------
  // main

  /** How the worker ends: the reply it sent, if any, as its status and
      response list, and the status it exits with (0 exactly for `EOK`). */
  datatype Exit = Exit(reply: Option<(Code, seq<Message>)>, status: Code)

  /** The commands `main` dispatches. */
  predicate Known(cmd: nat) {
    cmd in {SSS_PAM_AUTHENTICATE, SSS_PAM_CHAUTHTOK, SSS_PAM_CHAUTHTOK_PRELIM,
            SSS_PAM_ACCT_MGMT, SSS_CMD_RENEW}
  }

  /** The operation of a known command, started with an empty response
      list. */
  function Dispatch(e: ChildEnv, req: Request, k: Ctx): (d: Done)
    requires Known(req.cmd) && !(req.cmd == SSS_CMD_RENEW && req.offline != 0)
    ensures req.cmd == SSS_PAM_ACCT_MGMT ==> d.msgs == [] && (d.code == EOK <==> e.kuserok)
    ensures req.cmd in {SSS_PAM_AUTHENTICATE, SSS_CMD_RENEW} ==>
              d.code == EOK || d.code.Sssd? || d.code == e.changepwOptions
    ensures req.cmd == SSS_CMD_RENEW && d.code == EOK ==> req.authtok.CcFile?
    ensures req.cmd in {SSS_PAM_CHAUTHTOK, SSS_PAM_CHAUTHTOK_PRELIM} && d.code == EOK ==>
              req.authtok.Password?
    ensures req.cmd == SSS_PAM_CHAUTHTOK && d.code == EOK ==> req.newAuthtok.Password?
  {
    if req.cmd == SSS_PAM_AUTHENTICATE then
      (if req.offline != 0 then CreateEmptyCcache(e, k, []) else TgtReq(e, k, req.authtok, []))
    else if req.cmd == SSS_PAM_CHAUTHTOK then ChangePw(e, k, req.authtok, req.newAuthtok, false, [])
    else if req.cmd == SSS_PAM_CHAUTHTOK_PRELIM then
      ChangePw(e, k, req.authtok, req.newAuthtok, true, [])
    else if req.cmd == SSS_PAM_ACCT_MGMT then Done(Kuserok(e.kuserok), [])
    else Renew(e, k, req.authtok, [])
  }

  /** The context of a decoded request after set-up; `princRealm` is the
      realm of the principal the set-up parsed from the UPN. */
  function CtxOf(req: Request, fastCcname: Option<CStr>, princRealm: CStr): Ctx {
    Ctx(req.uid, req.gid, req.validate, fastCcname.Some?,
        if req.ccname.Some? then req.ccname.value else [], princRealm)
  }

  /** `main`: decode the request, set up the context, run the command and
      send the reply.  A request that cannot be decoded or set up, an
      unknown command and a renewal while offline end the worker without a
      reply. */
  function Main(e: ChildEnv, s: SetupEnv, buf: seq<bv8>): (x: Exit)
    ensures x.reply.Some? ==> x.status == e.write
    ensures x.reply.None? ==> x.status != EOK
  {
    match Decode(buf)
    case Fail(c) => Exit(None, c)
    case Ok(req) =>
      match Setup(s, req.keytab, req.offline != 0)
      case Fail(c) => Exit(None, c)
      case Ok(fastCcname) =>
        if !Known(req.cmd) then Exit(None, EINVAL)
        else if req.cmd == SSS_CMD_RENEW && req.offline != 0 then Exit(None, Krb5(KdcUnreach))
        else
          var d := Dispatch(e, req, CtxOf(req, fastCcname, s.princRealm));
          Exit(Some((d.code, d.msgs)), e.write)
  }

  /** A reply is sent exactly when the request decodes, the set-up
      succeeds, the command is known and it is not a renewal while
      offline; a malformed request ends the worker with EINVAL. */
  lemma MainReplies(e: ChildEnv, s: SetupEnv, buf: seq<bv8>)
    ensures Main(e, s, buf).reply.Some? <==>
            && Decode(buf).Ok?
            && var req := Decode(buf).value;
            && Setup(s, req.keytab, req.offline != 0).Ok?
            && Known(req.cmd)
            && !(req.cmd == SSS_CMD_RENEW && req.offline != 0)
    ensures Decode(buf).Fail? ==> Main(e, s, buf) == Exit(None, EINVAL)
  {
  }

  /** An unknown command and a renewal while offline are refused after the
      set-up, with EINVAL and KRB5_KDC_UNREACH. */
  lemma MainRefuses(e: ChildEnv, s: SetupEnv, buf: seq<bv8>)
    requires Decode(buf).Ok?
    requires var req := Decode(buf).value; Setup(s, req.keytab, req.offline != 0).Ok?
    ensures var req := Decode(buf).value;
            !Known(req.cmd) ==> Main(e, s, buf) == Exit(None, EINVAL)
    ensures var req := Decode(buf).value;
            req.cmd == SSS_CMD_RENEW && req.offline != 0 ==>
              Main(e, s, buf) == Exit(None, Krb5(KdcUnreach))
  {
  }

  /** An online login of a decoded request runs the ticket request with
      the request's token and cache name, and reports the armor cache to it
      when FAST was set up. */
  lemma MainAuthenticate(e: ChildEnv, s: SetupEnv, buf: seq<bv8>)
    requires Decode(buf).Ok?
    requires var req := Decode(buf).value;
             req.cmd == SSS_PAM_AUTHENTICATE && req.offline == 0
             && Setup(s, req.keytab, false).Ok?
    ensures var req := Decode(buf).value;
            var fast := Setup(s, req.keytab, false).value;
            && req.ccname.Some?
            && Main(e, s, buf).reply ==
               Some((TgtReq(e, CtxOf(req, fast, s.princRealm), req.authtok, []).code,
                     TgtReq(e, CtxOf(req, fast, s.princRealm), req.authtok, []).msgs))
            && CtxOf(req, fast, s.princRealm).ccname == req.ccname.value
  {
    var r := DecodeAt(buf);
    assert r.Ok?;
  }
}

=== FILE: codes.dfy ===
/** Error codes and the failure-compatible wrappers shared by every module.

    The C sources mix three code spaces in one integer: POSIX errno values
    (EOK is 0), codes of the Kerberos library, and SSSD's own error codes.
    Here each space is a constructor of `Code`, so codes of different spaces
    can never be confused.  errno values are those of Linux.
 */
module Codes {

  datatype Option<+T> = None | Some(value: T)

  /** Codes of the Kerberos library that the modelled code names explicitly;
      every other library code is `OtherKrb5`. */
  datatype Krb5Code =
    | LibosCantReadPwd      // KRB5_LIBOS_CANTREADPWD
    | KdcUnreach            // KRB5_KDC_UNREACH
    | KdcErrKeyExp          // KRB5KDC_ERR_KEY_EXP
    | ApErrBadIntegrity     // KRB5KRB_AP_ERR_BAD_INTEGRITY
    | PreauthFailed         // KRB5_PREAUTH_FAILED
    | KdcErrPreauthFailed   // KRB5KDC_ERR_PREAUTH_FAILED
    | KtEnd                 // KRB5_KT_END
    | OtherKrb5(n: int)

  /** SSSD's own error codes (ERR_OK is EOK). */
  datatype SssdCode =
    | ErrInternal
    | ErrInvalidCredType
    | ErrNoCreds
    | ErrCredsExpired
    | ErrAuthDenied
    | ErrAuthFailed
    | ErrChpassFailed
    | ErrNetworkIo

  datatype Code =
    | Sys(errno: int)
    | Krb5(k: Krb5Code)
    | Sssd(e: SssdCode)

  const EOK: Code := Sys(0)
  const ENOENT: Code := Sys(2)
  const EIO: Code := Sys(5)
  const ENOMEM: Code := Sys(12)
  const EACCES: Code := Sys(13)
  const EFAULT: Code := Sys(14)
  const EEXIST: Code := Sys(17)
  const EINVAL: Code := Sys(22)
  const EPROTO: Code := Sys(71)
  const EBADMSG: Code := Sys(74)
  const EMSGSIZE: Code := Sys(90)
  const ENOTSUP: Code := Sys(95)

  /** A code that reports a failure: a call that fails never reports `EOK`. */
  type Failure = c: Code | c != Sys(0) witness Sys(1)

  /** A value or the code of the failure that prevented it; usable with `:-`. */
  datatype Result<+T> = Ok(value: T) | Fail(code: Code) {
    predicate IsFailure() {
      Fail?
    }

    function PropagateFailure<U>(): Result<U>
      requires Fail?
    {
      Fail(code)
    }

    function Extract(): T
      requires Ok?
    {
      value
    }
  }
}

=== FILE: errormap.dfy ===
/** `map_krb5_error`: the reply status a Kerberos library code turns into. */
module ErrorMap {
  import opened Codes

  /** The status for a library code: five library codes have an SSSD code
      of their own, success stays success and everything else, including
      plain errno values, is an internal error. */
  function MapKrb5Error(k: Code): (r: Code)
    ensures r == EOK <==> k == EOK
    ensures r == Sssd(ErrNoCreds) <==> k == Krb5(LibosCantReadPwd)
    ensures r == Sssd(ErrNetworkIo) <==> k == Krb5(KdcUnreach)
    ensures r == Sssd(ErrCredsExpired) <==> k == Krb5(KdcErrKeyExp)
    ensures r == Sssd(ErrAuthFailed) <==>
            k in {Krb5(ApErrBadIntegrity), Krb5(PreauthFailed), Krb5(KdcErrPreauthFailed)}
    ensures r == EOK || r.Sssd?
  {
    match k
    case Sys(0) => EOK
    case Krb5(LibosCantReadPwd) => Sssd(ErrNoCreds)
    case Krb5(KdcUnreach) => Sssd(ErrNetworkIo)
    case Krb5(KdcErrKeyExp) => Sssd(ErrCredsExpired)
    case Krb5(ApErrBadIntegrity) => Sssd(ErrAuthFailed)
    case Krb5(PreauthFailed) => Sssd(ErrAuthFailed)
    case Krb5(KdcErrPreauthFailed) => Sssd(ErrAuthFailed)
    case _ => Sssd(ErrInternal)
  }

  /** The mapping is total onto six outcomes: every code not named in the
      table becomes ERR_INTERNAL. */
  lemma MapKrb5ErrorDefault(k: Code)
    requires k != EOK
    requires k !in {Krb5(LibosCantReadPwd), Krb5(KdcUnreach), Krb5(KdcErrKeyExp),
                    Krb5(ApErrBadIntegrity), Krb5(PreauthFailed), Krb5(KdcErrPreauthFailed)}
    ensures MapKrb5Error(k) == Sssd(ErrInternal)
  {
  }
}

=== FILE: fast.dfy ===
/** The armor cache of FAST (`check_fast_ccache`, `k5c_setup_fast`) and the
    set-up of the Kerberos context that precedes every command
    (`k5c_setup`).

    The armor cache is a FILE cache in the daemon's state directory, one per
    realm.  Its ticket is reused while it is valid and otherwise acquired
    anew with the host keytab.  The library calls, the environment and the
    clock are parameters.
 */
module Fast {
  import opened Codes
  import opened Bytes
  import opened Ccache

  /** `/fast_ccache_`, the file name stem of an armor cache. */
  const FAST_STEM: seq<bv8> :=
    [0x2F, 0x66, 0x61, 0x73, 0x74, 0x5F, 0x63, 0x63, 0x61, 0x63, 0x68, 0x65, 0x5F]

  /** The name of the armor cache of `realm`, `FILE:<DB_PATH>/fast_ccache_<realm>`;
      `dbPath` is the build-time state directory. */
  function FastCcacheName(dbPath: CStr, realm: CStr): (n: CStr)
  {
    NulFreeJoin(FILE_PREFIX, dbPath);
    NulFreeJoin(FILE_PREFIX + dbPath, FAST_STEM);
    NulFreeJoin(FILE_PREFIX + dbPath + FAST_STEM, realm);
    FILE_PREFIX + dbPath + FAST_STEM + realm
  }

  /** The armor cache is a FILE cache: its path is the state directory, the
      stem and the realm, and it is absolute exactly when the state
      directory is absolute or empty (the stem starts with a slash). */
  lemma FastCcacheNamePath(dbPath: CStr, realm: CStr)
    ensures StripFilePrefix(FastCcacheName(dbPath, realm)) == dbPath + FAST_STEM + realm
    ensures var p := StripFilePrefix(FastCcacheName(dbPath, realm));
            (|p| > 0 && p[0] == SLASH) <==> (|dbPath| == 0 || dbPath[0] == SLASH)
  {
    var p := dbPath + FAST_STEM + realm;
    NulFreeJoin(dbPath, FAST_STEM);
    NulFreeJoin(dbPath + FAST_STEM, realm);
    assert FastCcacheName(dbPath, realm) == FILE_PREFIX + p;
    StripFilePrefixOf(p);
    if |dbPath| == 0 {
      assert p[0] == FAST_STEM[0];
    } else {
      assert p[0] == dbPath[0];
    }
  }

  /** The times of a ticket. */
  datatype TicketTimes = TicketTimes(authtime: int, starttime: int, endtime: int, renewTill: int)

  /** The times `check_fast_ccache` clears before asking for them. */
  const NO_TIMES: TicketTimes := TicketTimes(0, 0, 0, 0)

  /** `get_tgt_times`: a cache that cannot be resolved is an error; a cache
      without the ticket is not, and leaves the times cleared. */
  function GetTgtTimes(resolve: Code, retrieved: Option<TicketTimes>): (r: Result<TicketTimes>)
    ensures r.Fail? <==> resolve != EOK
    ensures r.Fail? ==> r.code == resolve
    ensures r.Ok? && retrieved.None? ==> r.value.endtime == 0
  {
    if resolve != EOK then Fail(resolve)
    else if retrieved.Some? then Ok(retrieved.value)
    else Ok(NO_TIMES)
  }

  /** The library calls `check_fast_ccache` makes. */
  datatype FastEnv = FastEnv(
    keytabOpen: Option<CStr> -> Code,             // krb5_kt_resolve(name), or krb5_kt_default
    findPrincipal: (Option<CStr>, CStr) -> Code,  // find_principal_in_keytab(primary, realm)
    parseServer: CStr -> Code,                    // krb5_parse_name("krbtgt/<realm>@<realm>")
    ccResolve: CStr -> Code,                      // krb5_cc_resolve of the armor cache
    retrieve: CStr -> Option<TicketTimes>,        // krb5_cc_retrieve_cred of its ticket
    initCreds: Code,                              // krb5_get_init_creds_keytab
    cache: CacheEnv)                              // the calls of create_ccache_file

  /** What `check_fast_ccache` did: its code, the armor cache name it hands
      back, and whether it asked the KDC for a new armor ticket. */
  datatype FastCheck = FastCheck(code: Code, ccname: Option<CStr>, acquired: bool)

  /** The keytab, the principal in it and the ticket-granting service
      principal are all available. */
  predicate FastKeysReady(f: FastEnv, primary: Option<CStr>, realm: CStr, keytab: Option<CStr>) {
    f.keytabOpen(keytab) == EOK && f.findPrincipal(primary, realm) == EOK
    && f.parseServer(realm) == EOK
  }

  /** The armor cache holds a ticket that ends after `now`. */
  predicate ArmorValid(f: FastEnv, name: CStr, now: int) {
    var t := GetTgtTimes(f.ccResolve(name), f.retrieve(name));
    t.Ok? && t.value.endtime > now
  }

  /** `check_fast_ccache`: reuse the armor ticket while it is valid, else
      acquire one with the keytab and store it with `create_ccache_file`. */
  function CheckFastCcache(f: FastEnv, dbPath: CStr, primary: Option<CStr>, realm: CStr,
                           keytab: Option<CStr>, now: int): (r: FastCheck)
    ensures r.ccname.Some? <==> r.code == EOK
    ensures r.acquired ==> FastKeysReady(f, primary, realm, keytab)
  {
    var name := FastCcacheName(dbPath, realm);
    if f.keytabOpen(keytab) != EOK then FastCheck(f.keytabOpen(keytab), None, false)
    else if f.findPrincipal(primary, realm) != EOK then
      FastCheck(f.findPrincipal(primary, realm), None, false)
    else if f.parseServer(realm) != EOK then FastCheck(f.parseServer(realm), None, false)
    else if ArmorValid(f, name, now) then FastCheck(EOK, Some(name), false)
    else if f.initCreds != EOK then FastCheck(f.initCreds, None, true)
    else
      var o := CreateCcacheFile(f.cache, name, true);
      if o.code != EOK then FastCheck(o.code, None, true)
      else FastCheck(EOK, Some(o.ccname), true)
  }

  /** The armor ticket is reused, without asking the KDC, exactly when the
      keys are ready and the cached ticket is still valid; the name handed
      back is then the armor cache's own. */
  lemma CheckFastReuse(f: FastEnv, dbPath: CStr, primary: Option<CStr>, realm: CStr,
                       keytab: Option<CStr>, now: int)
    ensures var r := CheckFastCcache(f, dbPath, primary, realm, keytab, now);
            (r.code == EOK && !r.acquired) <==>
              (FastKeysReady(f, primary, realm, keytab)
               && ArmorValid(f, FastCcacheName(dbPath, realm), now))
    ensures var r := CheckFastCcache(f, dbPath, primary, realm, keytab, now);
            r.code == EOK && !r.acquired ==> r.ccname == Some(FastCcacheName(dbPath, realm))
  {
  }

  /** With the keys ready and no valid armor ticket, a new one is acquired
      and stored; the result is the first failure of the two. */
  lemma CheckFastRenews(f: FastEnv, dbPath: CStr, primary: Option<CStr>, realm: CStr,
                        keytab: Option<CStr>, now: int)
    requires FastKeysReady(f, primary, realm, keytab)
    requires !ArmorValid(f, FastCcacheName(dbPath, realm), now)
    ensures var r := CheckFastCcache(f, dbPath, primary, realm, keytab, now);
            var o := CreateCcacheFile(f.cache, FastCcacheName(dbPath, realm), true);
            && r.acquired
            && r.code == (if f.initCreds != EOK then f.initCreds else o.code)
            && (r.code == EOK ==> r.ccname == Some(o.ccname))
  {
  }

  /** A cache without the ticket is never reused at a time after the epoch,
      since the cleared end time is 0. */
  lemma MissingArmorTicketRenews(f: FastEnv, dbPath: CStr, primary: Option<CStr>, realm: CStr,
                                 keytab: Option<CStr>, now: int)
    requires now >= 0 && f.retrieve(FastCcacheName(dbPath, realm)).None?
    requires FastKeysReady(f, primary, realm, keytab)
    ensures CheckFastCcache(f, dbPath, primary, realm, keytab, now).acquired
  {
  }

  // ---------------------------------------------------------------------
  // k5c_setup

  /** `SSSD_KRB5_FAST_PRINCIPAL` after `krb5_parse_name` and the unparse
      without realm: the principal's name and realm, or the failing code. */
  datatype FastPrincipal = Parsed(primary: CStr, realm: CStr) | Unparsable(code: Failure)

  /** `SSSD_KRB5_USE_FAST`, compared case-insensitively. */
  datatype FastUse = Never | Try | Demand | Unsupported

  const NEVER: CStr := [0x6E, 0x65, 0x76, 0x65, 0x72]
  const TRY: CStr := [0x74, 0x72, 0x79]
  const DEMAND: CStr := [0x64, 0x65, 0x6D, 0x61, 0x6E, 0x64]

  function ParseUseFast(v: Option<CStr>): (u: FastUse)
    ensures u == Never <==> v.None? || CaseEq(v.value, NEVER)
    ensures u == Try <==> v.Some? && CaseEq(v.value, TRY)
    ensures u == Demand <==> v.Some? && CaseEq(v.value, DEMAND)
  {
    if v.None? || CaseEq(v.value, NEVER) then Never
    else if CaseEq(v.value, TRY) then Try
    else if CaseEq(v.value, DEMAND) then Demand
    else Unsupported
  }

  /** The library calls and the environment `k5c_setup` consults. */
  datatype SetupEnv = SetupEnv(
    initContext: Code,                 // krb5_init_context
    tracing: Option<Code>,             // sss_child_set_krb5_tracing, at the highest debug level
    parseName: Code,                   // sss_krb5_parse_name_flags of the UPN
    princRealm: CStr,                  // the realm of the principal it parses (kr->princ)
    unparseName: Code,                 // krb5_unparse_name
    optAlloc: Code,                    // sss_krb5_get_init_creds_opt_alloc
    setResponder: Code,                // krb5_get_init_creds_opt_set_responder
    renewableLifetime: Option<Code>,   // krb5_string_to_deltat, when SSSD_KRB5_RENEWABLE_LIFETIME is set
    lifetime: Option<Code>,            // krb5_string_to_deltat, when SSSD_KRB5_LIFETIME is set
    useFast: Option<CStr>,             // SSSD_KRB5_USE_FAST
    fastPrincipal: Option<FastPrincipal>, // SSSD_KRB5_FAST_PRINCIPAL
    realm: CStr,                       // SSSD_KRB5_REALM
    setFastCcacheName: Code,           // sss_krb5_get_init_creds_opt_set_fast_ccache_name
    setFastFlags: Code,                // sss_krb5_get_init_creds_opt_set_fast_flags(REQUIRED)
    fast: FastEnv,
    dbPath: CStr,
    now: int)                          // time(NULL)

  /** The principal name the armor ticket is acquired for: the configured
      FAST principal's, or none (the host's first keytab principal). */
  function FastPrimary(s: SetupEnv): Option<CStr> {
    match s.fastPrincipal
    case Some(Parsed(primary, _)) => Some(primary)
    case _ => None
  }

  /** The realm of the armor cache: the FAST principal's, or the user's. */
  function FastRealm(s: SetupEnv): CStr {
    match s.fastPrincipal
    case Some(Parsed(_, realm)) => realm
    case _ => s.realm
  }

  /** `k5c_setup_fast`: the armor cache name on success.  Only `demand`
      makes FAST mandatory through the flags. */
  function SetupFast(s: SetupEnv, keytab: Option<CStr>, demand: bool): (r: Result<CStr>)
    ensures r.Fail? ==> r.code != EOK
    ensures r.Ok? && demand ==> s.setFastFlags == EOK
    ensures r.Ok? ==> s.setFastCcacheName == EOK
  {
    if s.fastPrincipal.Some? && s.fastPrincipal.value.Unparsable? then
      Fail(s.fastPrincipal.value.code)
    else
      var c := CheckFastCcache(s.fast, s.dbPath, FastPrimary(s), FastRealm(s), keytab, s.now);
      if c.code != EOK then Fail(c.code)
      else if s.setFastCcacheName != EOK then Fail(s.setFastCcacheName)
      else if demand && s.setFastFlags != EOK then Fail(s.setFastFlags)
      else Ok(c.ccname.value)
  }

  /** The armor cache belongs to the realm of the FAST principal when one
      is configured and to the user's realm otherwise. */
  lemma SetupFastRealm(s: SetupEnv, keytab: Option<CStr>, demand: bool)
    requires SetupFast(s, keytab, demand).Ok?
    ensures s.fastPrincipal.None? || s.fastPrincipal.value.Parsed?
    ensures var c := CheckFastCcache(s.fast, s.dbPath, FastPrimary(s), FastRealm(s), keytab, s.now);
            c.code == EOK && SetupFast(s, keytab, demand).value == c.ccname.value
    ensures s.fastPrincipal.None? ==> FastRealm(s) == s.realm && FastPrimary(s).None?
    ensures s.fastPrincipal.Some? ==> FastRealm(s) == s.fastPrincipal.value.realm
  {
  }

  /** The steps of `k5c_setup` before FAST, in order; the first failure is
      returned, a failing tracing set-up as EIO. */
  function Prepare(s: SetupEnv): (r: Code)
    ensures r == EOK <==>
      && s.initContext == EOK && (s.tracing.None? || s.tracing.value == EOK)
      && s.parseName == EOK && s.unparseName == EOK && s.optAlloc == EOK
      && s.setResponder == EOK
      && (s.renewableLifetime.None? || s.renewableLifetime.value == EOK)
      && (s.lifetime.None? || s.lifetime.value == EOK)
    ensures s.initContext == EOK && s.tracing.Some? && s.tracing.value != EOK ==> r == EIO
  {
    if s.initContext != EOK then s.initContext
    else if s.tracing.Some? && s.tracing.value != EOK then EIO
    else if s.parseName != EOK then s.parseName
    else if s.unparseName != EOK then s.unparseName
    else if s.optAlloc != EOK then s.optAlloc
    else if s.setResponder != EOK then s.setResponder
    else if s.renewableLifetime.Some? && s.renewableLifetime.value != EOK then
      s.renewableLifetime.value
    else if s.lifetime.Some? && s.lifetime.value != EOK then s.lifetime.value
    else EOK
  }

  /** `k5c_setup`: the armor cache name when FAST is in use.  As written,
      the function returns whatever `k5c_setup_fast` returned for `try` as
      well as for `demand`. */
  function Setup(s: SetupEnv, keytab: Option<CStr>, offline: bool): (r: Result<Option<CStr>>)
    ensures r.Fail? ==> r.code != EOK
    ensures r.Ok? ==> Prepare(s) == EOK
    ensures r.Ok? && r.value.Some? ==> !offline && ParseUseFast(s.useFast) in {Try, Demand}
  {
    var p := Prepare(s);
    if p != EOK then Fail(p)
    else if offline then Ok(None)
    else
      match ParseUseFast(s.useFast)
      case Never => Ok(None)
      case Try =>
        (match SetupFast(s, keytab, false)
         case Ok(n) => Ok(Some(n))
         case Fail(k) => Fail(k))
      case Demand =>
        (match SetupFast(s, keytab, true)
         case Ok(n) => Ok(Some(n))
         case Fail(k) => Fail(k))
      case Unsupported => Fail(EINVAL)
  }

  /** Setup succeeds without FAST exactly when the preparation succeeds and
      the worker is offline or FAST is not asked for. */
  lemma SetupWithoutFast(s: SetupEnv, keytab: Option<CStr>, offline: bool)
    ensures Setup(s, keytab, offline) == Ok(None) <==>
            Prepare(s) == EOK && (offline || ParseUseFast(s.useFast) == Never)
  {
  }

  /** An unknown FAST policy fails the set-up of an online worker with
      EINVAL. */
  lemma SetupUnsupportedFast(s: SetupEnv, keytab: Option<CStr>)
    requires Prepare(s) == EOK && ParseUseFast(s.useFast) == Unsupported
    ensures Setup(s, keytab, false) == Fail(EINVAL)
  {
  }

  /** A FAST failure aborts the set-up under `try` just as under `demand`:
      `try` differs from `demand` only in not requiring the FAST flags. */
  lemma SetupFastFailureAborts(s: SetupEnv, keytab: Option<CStr>)
    requires Prepare(s) == EOK && ParseUseFast(s.useFast) in {Try, Demand}
    requires SetupFast(s, keytab, ParseUseFast(s.useFast) == Demand).Fail?
    ensures Setup(s, keytab, false) == Fail(SetupFast(s, keytab, ParseUseFast(s.useFast) == Demand).code)
  {
  }

  /** Under `try` the flags call is never made: its result does not matter. */
  lemma SetupTryIgnoresFlags(s: SetupEnv, keytab: Option<CStr>, flags: Code)
    requires ParseUseFast(s.useFast) == Try
    ensures Setup(s, keytab, false) == Setup(s.(setFastFlags := flags), keytab, false)
  {
    assert SetupFast(s, keytab, false) == SetupFast(s.(setFastFlags := flags), keytab, false);
  }
}

=== FILE: hbac.dfy ===
/** HBAC host rule assembly: the host element of an IPA access rule built
    from the rule's cached attributes, and the recogniser of IPA host group
    DNs.

    The parsed DN, the rule's attributes, the category parser and the two
    searches of the cache are oracles; an `HbacEnv` collects those the rule
    assembly uses.
 */
module Hbac {
  import opened Codes
  import opened Bytes

  // ---------------------------------------------------------------------
  // Host group DNs
  // ---------------------------------------------------------------------

  /** One component of a parsed DN, the relative DN first: the attribute
      name and the raw value (an `ldb_val`, which may hold NUL bytes). */
  datatype Rdn = Rdn(name: CStr, value: seq<bv8>)

  const CN: CStr := [0x63, 0x6E]
  const HOSTGROUPS: CStr := [0x68, 0x6F, 0x73, 0x74, 0x67, 0x72, 0x6F, 0x75, 0x70, 0x73]
  const ACCOUNTS: CStr := [0x61, 0x63, 0x63, 0x6F, 0x75, 0x6E, 0x74, 0x73]

  /** Whether a component is the container `cn=<lit>`.  As written the value
      is compared with `strncasecmp` bounded by the value's own length, so
      any case-insensitive prefix of `lit` passes, the empty value
      included; corrected, the value must have the length of `lit` too. */
  predicate Container(c: Rdn, lit: CStr, asWritten: bool) {
    && CaseEq(CN, c.name)
    && (asWritten || |c.value| == |lit|)
    && NCaseEq(lit, c.value, |c.value|)
  }

  /** `get_ipa_hostgroupname` with the container check chosen by
      `asWritten`.  `dn` is the DN as `ldb_dn_validate` leaves it, `None`
      when it is not a valid DN.  A failure carries no name, which is the
      NULL the function stores on each of its error paths. */
  function HostgroupNameWith(dn: Option<seq<Rdn>>, asWritten: bool): (r: Result<CStr>)
    ensures r == Fail(EINVAL) <==> dn.None?
    ensures r.Fail? && dn.Some? ==> r.code == ENOENT
    ensures r.Ok? ==> && dn.Some? && |dn.value| >= 4
                      && |r.value| <= |dn.value[0].value|
  {
    if dn.None? then Fail(EINVAL)
    else
      var cs := dn.value;
      if |cs| < 4 then Fail(ENOENT)
      else if !CaseEq(CN, cs[0].name) then Fail(ENOENT)
      else if !Container(cs[1], HOSTGROUPS, asWritten) then Fail(ENOENT)
      else if !Container(cs[2], ACCOUNTS, asWritten) then Fail(ENOENT)
      else Ok(StrNDup(cs[0].value))
  }

  /** `get_ipa_hostgroupname` with the container check corrected. */
  function HostgroupName(dn: Option<seq<Rdn>>): (r: Result<CStr>)
    ensures r == Fail(EINVAL) <==> dn.None?
    ensures r.Fail? && dn.Some? ==> r.code == ENOENT
    ensures r.Ok? ==> && dn.Some? && |dn.value| >= 4
                      && |dn.value[1].value| == |HOSTGROUPS| && |dn.value[2].value| == |ACCOUNTS|
  {
    HostgroupNameWith(dn, false)
  }

  /** `b` is a case-insensitive prefix of `lit`. */
  predicate CasePrefix(b: seq<bv8>, lit: CStr) {
    |b| <= |lit| && forall i | 0 <= i < |b| :: ToLower(lit[i]) == ToLower(b[i])
  }

  /** As written, for a DN whose values hold no NUL, a name is found exactly
      when the DN has at least four components, the first three are `cn`
      (in any case), and the values of the second and third are
      case-insensitive prefixes of `hostgroups` and `accounts`; the name
      is then the value of the first component. */
  lemma HostgroupNameAsWritten(cs: seq<Rdn>)
    requires forall i | 0 <= i < |cs| :: NulFree(cs[i].value)
    ensures var r := HostgroupNameWith(Some(cs), true);
            && (r.Ok? <==> && |cs| >= 4
                           && CaseEq(CN, cs[0].name)
                           && CaseEq(CN, cs[1].name) && CasePrefix(cs[1].value, HOSTGROUPS)
                           && CaseEq(CN, cs[2].name) && CasePrefix(cs[2].value, ACCOUNTS))
            && (r.Ok? ==> r.value == cs[0].value)
  {
    if |cs| >= 4 {
      NCaseEqPrefix(HOSTGROUPS, cs[1].value);
      NCaseEqPrefix(ACCOUNTS, cs[2].value);
      StrNDupNulFree(cs[0].value);
    }
  }

  /** Whatever the values hold, the name found is the value of the relative
      DN up to its first NUL. */
  lemma HostgroupNameIsRdnValue(dn: Option<seq<Rdn>>, asWritten: bool)
    requires HostgroupNameWith(dn, asWritten).Ok?
    ensures var v := dn.value[0].value;
            var n := HostgroupNameWith(dn, asWritten).value;
            n == v[..|n|] && (|n| < |v| ==> v[|n|] == 0)
  {
    StrNDupPrefix(dn.value[0].value);
  }

  /** Corrected, a name is found exactly when the second and third values
      equal `hostgroups` and `accounts` up to case. */
  lemma HostgroupNameExact(cs: seq<Rdn>)
    requires |cs| >= 4 && CaseEq(CN, cs[0].name) && CaseEq(CN, cs[1].name) && CaseEq(CN, cs[2].name)
    ensures HostgroupName(Some(cs)).Ok? <==>
              && |cs[1].value| == |HOSTGROUPS| && CasePrefix(cs[1].value, HOSTGROUPS)
              && |cs[2].value| == |ACCOUNTS| && CasePrefix(cs[2].value, ACCOUNTS)
  {
    if |cs[1].value| == |HOSTGROUPS| {
      ExactNCaseEq(cs[1].value, HOSTGROUPS);
    }
    if |cs[2].value| == |ACCOUNTS| {
      ExactNCaseEq(cs[2].value, ACCOUNTS);
    }
  }

  lemma ExactNCaseEq(b: seq<bv8>, lit: CStr)
    requires |b| == |lit|
    ensures NCaseEq(lit, b, |b|) <==> CasePrefix(b, lit)
  {
    if NCaseEq(lit, b, |b|) {
      forall i | 0 <= i < |b|
        ensures ToLower(lit[i]) == ToLower(b[i])
      {
        assert At(lit, i) == lit[i] && At(b, i) == b[i];
      }
    }
    if CasePrefix(b, lit) {
      forall i | 0 <= i < |b| && i <= |lit|
        ensures ToLower(At(lit, i)) == ToLower(At(b, i))
      {
        assert At(lit, i) == lit[i] && At(b, i) == b[i];
      }
    }
  }

  /** The DN `cn=g,cn=host,cn=accounts,dc=x` is taken for a host group as
      written, because `host` is a prefix of `hostgroups`; corrected, it is
      not. */
  lemma HostgroupPrefixAsWritten()
    ensures var host: seq<bv8> := [0x68, 0x6F, 0x73, 0x74];
            var cs := [Rdn(CN, [0x67]), Rdn(CN, host), Rdn(CN, ACCOUNTS), Rdn([0x64, 0x63], [0x78])];
            && HostgroupNameWith(Some(cs), true) == Ok([0x67])
            && HostgroupName(Some(cs)) == Fail(ENOENT)
  {
    var host: seq<bv8> := [0x68, 0x6F, 0x73, 0x74];
    var cs := [Rdn(CN, [0x67]), Rdn(CN, host), Rdn(CN, ACCOUNTS), Rdn([0x64, 0x63], [0x78])];
    assert CasePrefix(host, HOSTGROUPS);
    assert CaseEq(CN, CN);
    assert CasePrefix(ACCOUNTS, ACCOUNTS);
    HostgroupNameAsWritten(cs);
  }

  // ---------------------------------------------------------------------
  // Host rule elements
  // ---------------------------------------------------------------------

  /** The attributes of an IPA HBAC rule the host elements are built from. */
  datatype Attr = HostCategory | MemberHost | SourceHostCategory | SourceHost | ExternalHost

  /** A search of the cache for the entries whose original DN is a member
      DN: the code it returns, the number of entries and the name attribute
      of the first one (`fqdn` for a host, `name` for a host group). */
  datatype Search = Search(code: Code, count: nat, name: Option<CStr>)

  /** The oracles of the rule assembly. */
  datatype HbacEnv = HbacEnv(
    category: Attr -> Result<bool>,         // hbac_get_category: whether the category holds ALL
    values: Attr -> Result<seq<seq<bv8>>>,  // sysdb_attrs_get_el: the attribute's values
    hosts: seq<bv8> -> Search,              // the search below the hosts subtree
    hostgroups: seq<bv8> -> Search)         // the search below the host groups subtree

  /** An `hbac_rule_element` for hosts: whether its category holds ALL, the
      host names and the host group names. */
  datatype RuleElement = RuleElement(all: bool, names: seq<CStr>, groups: seq<CStr>)

  /** What one member DN contributes. */
  datatype Entry = HostName(name: CStr) | GroupName(name: CStr) | Skip

  /** The search found exactly one entry. */
  predicate Single(s: Search) {
    s.code == EOK && s.count == 1
  }

  /** The search found nothing. */
  predicate NoMatch(s: Search) {
    s.code == ENOENT || (s.code == EOK && s.count == 0)
  }

  /** The classification of one member DN in `hbac_host_attrs_to_rule`: a
      host if it matches exactly one host, else a host group if it matches
      exactly one host group, else nothing. */
  function Classify(e: HbacEnv, dn: seq<bv8>): (r: Result<Entry>)
    ensures r.Fail? ==> r.code != EOK
    ensures r.Ok? && r.value.HostName? <==> Single(e.hosts(dn)) && e.hosts(dn).name.Some?
    ensures r.Ok? && r.value.GroupName? <==>
              NoMatch(e.hosts(dn)) && Single(e.hostgroups(dn)) && e.hostgroups(dn).name.Some?
    ensures r.Ok? && r.value.HostName? ==> Some(r.value.name) == e.hosts(dn).name
    ensures r.Ok? && r.value.GroupName? ==> Some(r.value.name) == e.hostgroups(dn).name
    ensures Single(e.hosts(dn)) && e.hosts(dn).name.None? ==> r == Fail(EFAULT)
    ensures NoMatch(e.hosts(dn)) && Single(e.hostgroups(dn)) && e.hostgroups(dn).name.None?
            ==> r == Fail(EFAULT)
  {
    var h := e.hosts(dn);
    if h.code != EOK && h.code != ENOENT then Fail(h.code)
    else if h.code == EOK && h.count > 0 then
      if h.count > 1 then Ok(Skip)
      else if h.name.None? then Fail(EFAULT)
      else Ok(HostName(h.name.value))
    else
      var g := e.hostgroups(dn);
      if g.code != EOK && g.code != ENOENT then Fail(g.code)
      else if g.code == EOK && g.count > 0 then
        if g.count > 1 then Ok(Skip)
        else if g.name.None? then Fail(EFAULT)
        else Ok(GroupName(g.name.value))
      else Ok(Skip)
  }

  /** The member loop of `hbac_host_attrs_to_rule`: the member DNs in order,
      stopping at the first error. */
  function Collect(e: HbacEnv, dns: seq<seq<bv8>>): (r: Result<RuleElement>)
    ensures r.Fail? ==> r.code != EOK
    ensures r.Ok? ==> !r.value.all && |r.value.names| + |r.value.groups| <= |dns|
    decreases |dns|
  {
    if |dns| == 0 then Ok(RuleElement(false, [], []))
    else
      match Collect(e, dns[..|dns| - 1])
      case Fail(c) => Fail(c)
      case Ok(el) =>
        match Classify(e, dns[|dns| - 1])
        case Fail(c) => Fail(c)
        case Ok(HostName(n)) => Ok(el.(names := el.names + [n]))
        case Ok(GroupName(n)) => Ok(el.(groups := el.groups + [n]))
        case Ok(Skip) => Ok(el)
  }

  /** The loop as it is written, with the two counters. */
  method CollectLoop(e: HbacEnv, dns: seq<seq<bv8>>) returns (ret: Code, names: seq<CStr>, groups: seq<CStr>)
    ensures ret == EOK ==> Collect(e, dns) == Ok(RuleElement(false, names, groups))
    ensures ret != EOK ==> Collect(e, dns) == Fail(ret)
  {
    names, groups := [], [];
    var i := 0;
    while i < |dns|
      invariant 0 <= i <= |dns|
      invariant Collect(e, dns[..i]) == Ok(RuleElement(false, names, groups))
    {
      assert dns[..i + 1][..i] == dns[..i];
      var entry := Classify(e, dns[i]);
      if entry.Fail? {
        PrefixFails(e, dns, i + 1);
        return entry.code, names, groups;
      }
      match entry.value {
        case HostName(n) => names := names + [n];
        case GroupName(n) => groups := groups + [n];
        case Skip =>
      }
      i := i + 1;
    }
    assert dns[..i] == dns;
    ret := EOK;
  }

  /** Once a prefix of the members fails, the whole loop fails the same
      way. */
  lemma {:induction false} PrefixFails(e: HbacEnv, dns: seq<seq<bv8>>, k: nat)
    requires k <= |dns| && Collect(e, dns[..k]).Fail?
    ensures Collect(e, dns) == Collect(e, dns[..k])
    decreases |dns| - k
  {
    if k < |dns| {
      assert dns[..k + 1][..k] == dns[..k];
      PrefixFails(e, dns, k + 1);
    } else {
      assert dns[..k] == dns;
    }
  }

  /** Reference definition of the member loop, member by member from the
      front: the first error, the host names and the host group names. */
  function FirstError(e: HbacEnv, dns: seq<seq<bv8>>): Option<Code>
    decreases |dns|
  {
    if |dns| == 0 then None
    else if Classify(e, dns[0]).Fail? then Some(Classify(e, dns[0]).code)
    else FirstError(e, dns[1..])
  }

  function Contribution(e: HbacEnv, dn: seq<bv8>): RuleElement {
    match Classify(e, dn)
    case Ok(HostName(n)) => RuleElement(false, [n], [])
    case Ok(GroupName(n)) => RuleElement(false, [], [n])
    case _ => RuleElement(false, [], [])
  }

  function Contributions(e: HbacEnv, dns: seq<seq<bv8>>): RuleElement
    decreases |dns|
  {
    if |dns| == 0 then RuleElement(false, [], [])
    else
      var first := Contribution(e, dns[0]);
      var rest := Contributions(e, dns[1..]);
      RuleElement(false, first.names + rest.names, first.groups + rest.groups)
  }

  /** The loop fails with the first member's error; otherwise the host
      names and host group names are those the members contribute, in the
      order of the members. */
  lemma {:induction false} CollectIsReference(e: HbacEnv, dns: seq<seq<bv8>>)
    ensures Collect(e, dns) ==
              if FirstError(e, dns).Some? then Fail(FirstError(e, dns).value)
              else Ok(Contributions(e, dns))
    decreases |dns|
  {
    if |dns| > 0 {
      var init := dns[..|dns| - 1];
      var last := dns[|dns| - 1];
      CollectIsReference(e, init);
      assert dns == init + [last];
      ReferenceSnoc(e, init, last);
      var a := Contributions(e, init);
      assert a.names + [] == a.names && a.groups + [] == a.groups;
    }
  }

  lemma {:induction false} ReferenceSnoc(e: HbacEnv, init: seq<seq<bv8>>, last: seq<bv8>)
    ensures FirstError(e, init + [last]) ==
              if FirstError(e, init).Some? then FirstError(e, init)
              else if Classify(e, last).Fail? then Some(Classify(e, last).code)
              else None
    ensures var whole := Contributions(e, init + [last]);
            var a := Contributions(e, init);
            var b := Contribution(e, last);
            whole == RuleElement(false, a.names + b.names, a.groups + b.groups)
    decreases |init|
  {
    if |init| == 0 {
      assert init + [last] == [last];
      assert [last][1..] == [];
    } else {
      assert (init + [last])[0] == init[0];
      assert (init + [last])[1..] == init[1..] + [last];
      ReferenceSnoc(e, init[1..], last);
    }
  }

  /** `hbac_host_attrs_to_rule` with the category and member attributes
      given: the element and the number of host names (`host_count`). */
  function HostAttrsToRule(e: HbacEnv, categoryAttr: Attr, memberAttr: Attr): (r: Result<(RuleElement, nat)>)
    ensures r.Fail? ==> r.code != EOK || e.category(categoryAttr).Fail?
                        || e.values(memberAttr).Fail?
    ensures r.Ok? ==> r.value.1 == |r.value.0.names|
    ensures e.category(categoryAttr) == Ok(true) ==> r == Ok((RuleElement(true, [], []), 0))
    ensures r.Ok? && !r.value.0.all && e.values(memberAttr).Ok? ==>
              |r.value.0.names| + |r.value.0.groups| <= |e.values(memberAttr).value|
    ensures r.Ok? && !r.value.0.all && e.values(memberAttr).Fail? ==>
              r.value.0 == RuleElement(false, [], [])
  {
    match e.category(categoryAttr)
    case Fail(c) => Fail(c)
    case Ok(all) =>
      if all then Ok((RuleElement(true, [], []), 0))
      else
        var vs := e.values(memberAttr);
        if vs.Fail? && vs.code != ENOENT then Fail(vs.code)
        else
          match Collect(e, if vs.Ok? then vs.value else [])
          case Fail(c) => Fail(c)
          case Ok(el) => Ok((el, |el.names|))
  }

  /** A category holding ALL decides the element without reading the
      members: any two rules with that category give the same element. */
  lemma HostRuleAllSkipsMembers(e1: HbacEnv, e2: HbacEnv, categoryAttr: Attr, memberAttr: Attr)
    requires e1.category(categoryAttr) == e2.category(categoryAttr) == Ok(true)
    ensures HostAttrsToRule(e1, categoryAttr, memberAttr) == HostAttrsToRule(e2, categoryAttr, memberAttr)
    ensures HostAttrsToRule(e1, categoryAttr, memberAttr).value.0.all
  {
  }

  /** Without ALL, the element lists what the member DNs contribute, in
      order, or fails with the first member's error. */
  lemma HostRuleMembers(e: HbacEnv, categoryAttr: Attr, memberAttr: Attr, dns: seq<seq<bv8>>)
    requires e.category(categoryAttr) == Ok(false) && e.values(memberAttr) == Ok(dns)
    ensures var r := HostAttrsToRule(e, categoryAttr, memberAttr);
            && (FirstError(e, dns).Some? ==> r == Fail(FirstError(e, dns).value))
            && (FirstError(e, dns).None? ==>
                  r == Ok((Contributions(e, dns), |Contributions(e, dns).names|)))
  {
    CollectIsReference(e, dns);
  }

  /** `hbac_thost_attrs_to_rule`: the target hosts, from the host category
      and the `memberHost` attribute. */
  function TargetHosts(e: HbacEnv): (r: Result<RuleElement>)
    ensures r.Ok? && r.value.all ==> r.value.names == [] && r.value.groups == []
    ensures e.category(HostCategory) == Ok(true) ==> r == Ok(RuleElement(true, [], []))
  {
    match HostAttrsToRule(e, HostCategory, MemberHost)
    case Fail(c) => Fail(c)
    case Ok((el, _)) => Ok(el)
  }

  /** The external host names as `talloc_strdup` copies them. */
  function StrDups(vs: seq<seq<bv8>>): (r: seq<CStr>)
    ensures |r| == |vs|
  {
    seq(|vs|, i requires 0 <= i < |vs| => StrNDup(vs[i]))
  }

  /** `hbac_shost_attrs_to_rule`: the source hosts.  With source hosts not
      supported, the element is ALL; otherwise it is built from the source
      host category and the `sourceHost` attribute, and unless it is ALL
      the external hosts follow the first `host_count` names. */
  function SourceHosts(e: HbacEnv, supportSrchost: bool): (r: Result<RuleElement>)
    ensures !supportSrchost ==> r == Ok(RuleElement(true, [], []))
    ensures r.Ok? && r.value.all ==> r.value.names == [] && r.value.groups == []
  {
    if !supportSrchost then Ok(RuleElement(true, [], []))
    else
      match HostAttrsToRule(e, SourceHostCategory, SourceHost)
      case Fail(c) => Fail(c)
      case Ok((el, hostCount)) =>
        if el.all then Ok(el)
        else
          var ext := e.values(ExternalHost);
          if ext.Fail? && ext.code != ENOENT then Fail(ext.code)
          else if ext.Fail? || |ext.value| == 0 then Ok(el)
          else Ok(el.(names := el.names[..hostCount] + StrDups(ext.value)))
  }

  /** With source hosts supported and a category without ALL, the source
      hosts are the IPA host names, then the external hosts in attribute
      order, and the host groups are unchanged. */
  lemma SourceHostsAppendExternal(e: HbacEnv, xs: seq<seq<bv8>>)
    requires HostAttrsToRule(e, SourceHostCategory, SourceHost).Ok?
    requires !HostAttrsToRule(e, SourceHostCategory, SourceHost).value.0.all
    requires e.values(ExternalHost) == Ok(xs)
    ensures var el := HostAttrsToRule(e, SourceHostCategory, SourceHost).value.0;
            SourceHosts(e, true) == Ok(RuleElement(false, el.names + StrDups(xs), el.groups))
  {
    var el := HostAttrsToRule(e, SourceHostCategory, SourceHost).value.0;
    assert el.names[..|el.names|] == el.names;
    if |xs| == 0 {
      assert el.names + StrDups(xs) == el.names;
    }
  }

  /** Without source host support nothing is looked up: the result is the
      same for every rule. */
  lemma SourceHostsDisabled(e1: HbacEnv, e2: HbacEnv)
    ensures SourceHosts(e1, false) == SourceHosts(e2, false)
  {
  }
}

=== FILE: idmap.dfy ===
/** The SID-to-ID helpers of the LDAP provider: taking the domain SID out
    of an object SID, validating the configured ID ranges, adding a domain
    to the ID map and converting a SID to a UNIX ID.

    The ID-mapping library (`sss_idmap_*`) and the cache (`sysdb_idmap_*`)
    are oracles collected in an `IdmapEnv`; `DOM_SID_PREFIX` is a
    parameter.  SIDs are text.
 */
module Idmap {
  import opened Codes

  // ---------------------------------------------------------------------
  // Decimal digit runs.

  predicate IsDigit(c: char) {
    '0' <= c <= '9'
  }

  predicate AllDigits(d: string) {
    forall i | 0 <= i < |d| :: IsDigit(d[i])
  }

  function DigitValue(c: char): nat
    requires IsDigit(c)
  {
    (c - '0') as nat
  }

  function DigitChar(n: nat): (c: char)
    requires n < 10
    ensures IsDigit(c) && DigitValue(c) == n
  {
    ('0' as int + n) as char
  }

  /** The number a run of decimal digits spells, most significant first. */
  function DecimalValue(d: string): nat
    requires AllDigits(d)
  {
    if |d| == 0 then 0 else DecimalValue(d[..|d| - 1]) * 10 + DigitValue(d[|d| - 1])
  }

  /** The shortest decimal rendering of `n`. */
  function Decimal(n: nat): (d: string)
    ensures |d| > 0 && AllDigits(d)
  {
    if n < 10 then [DigitChar(n)] else Decimal(n / 10) + [DigitChar(n % 10)]
  }

  /** Reading a rendered number gives the number back. */
  lemma {:induction false} DecimalRoundTrip(n: nat)
    ensures DecimalValue(Decimal(n)) == n
  {
    if n >= 10 {
      DecimalRoundTrip(n / 10);
      var d := Decimal(n);
      assert d[..|d| - 1] == Decimal(n / 10);
    }
  }

  /** Where the run of digits that starts at `i` ends. */
  function DigitEnd(s: string, i: nat): (j: nat)
    requires i <= |s|
    ensures i <= j <= |s| && AllDigits(s[i..j])
    ensures j < |s| ==> !IsDigit(s[j])
    decreases |s| - i
  {
    if i < |s| && IsDigit(s[i]) then
      var j := DigitEnd(s, i + 1);
      assert s[i..j] == [s[i]] + s[i + 1..j];
      j
    else i
  }

  // ---------------------------------------------------------------------
  // sdap_idmap_get_dom_sid_from_object

  const UINT32_MAX: nat := 0xFFFF_FFFF
  const TWO63: nat := 0x8000_0000_0000_0000
  const TWO64: nat := 0x1_0000_0000_0000_0000

  /** A component value `strtoull` returns, stored in a `long long`: values
      of 2^63 and above become negative. */
  function AsLongLong(v: nat): int
    requires v < TWO64
  {
    if v >= TWO63 then v - TWO64 else v
  }

  /** Whether a component value is refused.  As written, `strtoull` refuses
      values that do not fit 64 bits (ERANGE) and the `long long` result is
      compared with UINT32_MAX; corrected, every value above UINT32_MAX is
      refused. */
  predicate Refused(v: nat, asWritten: bool) {
    if asWritten then v >= TWO64 || AsLongLong(v) > UINT32_MAX
    else v > UINT32_MAX
  }

  /** The three components after the prefix, from `p` on: each a digit run
      followed by `-`.  The result is the position of the third `-`. */
  function ReadComponents(s: string, p: nat, c: nat, asWritten: bool): (r: Result<nat>)
    requires p <= |s| && c < 3
    ensures r.Fail? ==> r.code == EINVAL
    ensures r.Ok? ==> p <= r.value < |s| && s[r.value] == '-'
    decreases 3 - c
  {
    var e := DigitEnd(s, p);
    if Refused(DecimalValue(s[p..e]), asWritten) then Fail(EINVAL)
    else if e == |s| || s[e] != '-' then Fail(EINVAL)
    else if c < 2 then ReadComponents(s, e + 1, c + 1, asWritten)
    else Ok(e)
  }

  /** `sdap_idmap_get_dom_sid_from_object` with the component check chosen
      by `asWritten`: the object SID up to, not including, the third `-`
      after the prefix. */
  function DomSidFromObjectWith(prefix: string, objectSid: Option<string>, asWritten: bool)
    : (r: Result<string>)
    ensures r.Fail? ==> r.code == EINVAL
    ensures objectSid.None? || !(prefix <= objectSid.value) ==> r.Fail?
    ensures r.Ok? ==> && objectSid.Some?
                      && prefix <= r.value
                      && |r.value| < |objectSid.value|
                      && r.value == objectSid.value[..|r.value|]
                      && objectSid.value[|r.value|] == '-'
  {
    if objectSid.None? || !(prefix <= objectSid.value) then Fail(EINVAL)
    else
      var s := objectSid.value;
      match ReadComponents(s, |prefix|, 0, asWritten)
      case Fail(c) => Fail(c)
      case Ok(e) => Ok(s[..e])
  }

  /** The domain SID of an object SID, as the rest of the model uses it. */
  function DomSidFromObject(prefix: string, objectSid: Option<string>): (r: Result<string>)
    ensures r.Fail? ==> r.code == EINVAL
    ensures objectSid.None? || !(prefix <= objectSid.value) ==> r.Fail?
    ensures r.Ok? ==> && objectSid.Some?
                      && prefix <= r.value
                      && |r.value| < |objectSid.value|
                      && r.value == objectSid.value[..|r.value|]
                      && objectSid.value[|r.value|] == '-'
  {
    DomSidFromObjectWith(prefix, objectSid, false)
  }

  /** A domain SID: the prefix and three components joined by `-`. */
  function ComposeSid(prefix: string, d1: string, d2: string, d3: string): string {
    prefix + d1 + "-" + d2 + "-" + d3
  }

  /** A component accepted by the check chosen by `asWritten`. */
  predicate Component(d: string, asWritten: bool) {
    AllDigits(d) && !Refused(DecimalValue(d), asWritten)
  }

  /** One accepted component followed by `-` is read up to that `-`. */
  lemma ReadOne(s: string, p: nat, d: string, asWritten: bool)
    requires Component(d, asWritten)
    requires p + |d| < |s| && s[p..p + |d|] == d && s[p + |d|] == '-'
    ensures DigitEnd(s, p) == p + |d|
  {
    DigitRunEnds(s, p, p + |d|);
  }

  /** A run of digits that ends in a non-digit is where `DigitEnd` stops. */
  lemma {:induction false} DigitRunEnds(s: string, i: nat, j: nat)
    requires i <= j < |s| && AllDigits(s[i..j]) && !IsDigit(s[j])
    ensures DigitEnd(s, i) == j
    decreases j - i
  {
    if i < j {
      assert IsDigit(s[i..j][0]);
      assert s[i + 1..j] == s[i..j][1..];
      DigitRunEnds(s, i + 1, j);
    }
  }

  /** Three accepted components, each followed by `-`, are read: the
      domain SID is the prefix and the components, whatever follows. */
  lemma DomSidOfComposed(prefix: string, d1: string, d2: string, d3: string, rest: string,
                         asWritten: bool)
    requires Component(d1, asWritten) && Component(d2, asWritten) && Component(d3, asWritten)
    ensures DomSidFromObjectWith(prefix, Some(ComposeSid(prefix, d1, d2, d3) + "-" + rest), asWritten)
            == Ok(ComposeSid(prefix, d1, d2, d3))
  {
    SplitsAt(prefix, d1, d2, d3, rest);
    ReadsThree(prefix, d1, d2, d3, rest, asWritten);
  }

  lemma ReadsThree(prefix: string, d1: string, d2: string, d3: string, rest: string, asWritten: bool)
    requires Component(d1, asWritten) && Component(d2, asWritten) && Component(d3, asWritten)
    ensures var s := ComposeSid(prefix, d1, d2, d3) + "-" + rest;
            ReadComponents(s, |prefix|, 0, asWritten) == Ok(|ComposeSid(prefix, d1, d2, d3)|)
  {
    ComposedSlices(prefix, d1, d2, d3, rest, asWritten);
    ReadsAtPositions(ComposeSid(prefix, d1, d2, d3) + "-" + rest, |prefix|, d1, d2, d3, asWritten);
  }

  /** `d` is an accepted component of `s` at `p`, followed by `-`. */
  predicate ComponentAt(s: string, p: nat, d: string, asWritten: bool) {
    Component(d, asWritten) && p + |d| < |s| && s[p..p + |d|] == d && s[p + |d|] == '-'
  }

  lemma ReadsAtPositions(s: string, p1: nat, d1: string, d2: string, d3: string, asWritten: bool)
    requires ComponentAt(s, p1, d1, asWritten)
    requires ComponentAt(s, p1 + |d1| + 1, d2, asWritten)
    requires ComponentAt(s, p1 + |d1| + 1 + |d2| + 1, d3, asWritten)
    ensures ReadComponents(s, p1, 0, asWritten) == Ok(p1 + |d1| + 1 + |d2| + 1 + |d3|)
  {
    ReadsTwo(s, p1 + |d1| + 1, d2, d3, asWritten);
    ReadStep(s, p1, d1, 0, asWritten);
  }

  lemma ReadsTwo(s: string, p2: nat, d2: string, d3: string, asWritten: bool)
    requires ComponentAt(s, p2, d2, asWritten)
    requires ComponentAt(s, p2 + |d2| + 1, d3, asWritten)
    ensures ReadComponents(s, p2, 1, asWritten) == Ok(p2 + |d2| + 1 + |d3|)
  {
    ReadStep(s, p2 + |d2| + 1, d3, 2, asWritten);
    ReadStep(s, p2, d2, 1, asWritten);
  }

  /** Where the components and their `-` sit in a composed object SID. */
  lemma ComposedSlices(prefix: string, d1: string, d2: string, d3: string, rest: string,
                       asWritten: bool)
    requires Component(d1, asWritten) && Component(d2, asWritten) && Component(d3, asWritten)
    ensures var s := ComposeSid(prefix, d1, d2, d3) + "-" + rest;
            var p1 := |prefix|;
            var p2 := p1 + |d1| + 1;
            var p3 := p2 + |d2| + 1;
            && |ComposeSid(prefix, d1, d2, d3)| == p3 + |d3|
            && ComponentAt(s, p1, d1, asWritten)
            && ComponentAt(s, p2, d2, asWritten)
            && ComponentAt(s, p3, d3, asWritten)
  {
    SplitsAt(prefix, d1, d2, d3, rest);
    SliceOfJoin(prefix, d1, d2 + "-" + d3 + "-" + rest);
    SliceOfJoin(prefix + d1 + "-", d2, d3 + "-" + rest);
    SliceOfJoin(prefix + d1 + "-" + d2 + "-", d3, rest);
  }

  lemma SliceOfJoin(a: string, d: string, b: string)
    ensures var s := a + d + "-" + b;
            s[|a|..|a| + |d|] == d && s[|a| + |d|] == '-'
  {
    var s := a + d + "-" + b;
    assert s[|a|..|a| + |d|] == d;
  }

  /** One accepted component followed by `-` is read and the reading goes
      on after the `-`, or stops there after the third. */
  lemma ReadStep(s: string, p: nat, d: string, c: nat, asWritten: bool)
    requires ComponentAt(s, p, d, asWritten) && c < 3
    ensures ReadComponents(s, p, c, asWritten) ==
              if c < 2 then ReadComponents(s, p + |d| + 1, c + 1, asWritten) else Ok(p + |d|)
  {
    ReadOne(s, p, d, asWritten);
  }

  /** The three ways of cutting a composed object SID around one of its
      components. */
  lemma SplitsAt(prefix: string, d1: string, d2: string, d3: string, rest: string)
    ensures var s := ComposeSid(prefix, d1, d2, d3) + "-" + rest;
            var a2 := prefix + d1 + "-";
            var a3 := a2 + d2 + "-";
            && s == prefix + d1 + "-" + (d2 + "-" + d3 + "-" + rest)
            && s == a2 + d2 + "-" + (d3 + "-" + rest)
            && s == a3 + d3 + "-" + rest
            && |a2| == |prefix| + |d1| + 1
            && |a3| == |a2| + |d2| + 1
            && |ComposeSid(prefix, d1, d2, d3)| == |a3| + |d3|
            && prefix <= s
            && s[..|a3| + |d3|] == ComposeSid(prefix, d1, d2, d3)
  {
  }

  /** Every domain SID that is found is the prefix and three accepted
      components joined by `-`, and the object SID continues with `-`. */
  lemma DomSidDecomposes(prefix: string, objectSid: string, asWritten: bool)
    requires DomSidFromObjectWith(prefix, Some(objectSid), asWritten).Ok?
    ensures var r := DomSidFromObjectWith(prefix, Some(objectSid), asWritten).value;
            exists d1, d2, d3 ::
              && Component(d1, asWritten) && Component(d2, asWritten) && Component(d3, asWritten)
              && ComposeSid(prefix, d1, d2, d3) == r
              && objectSid == r + "-" + objectSid[|r| + 1..]
  {
    var s := objectSid;
    var p1 := |prefix|;
    assert prefix <= s;
    var e1, e2, e3 := ThreeComponents(s, p1, asWritten);
    DomSidIs(prefix, s, asWritten, e3);
    var r := s[..e3];
    var d1, d2, d3 := s[p1..e1], s[e1 + 1..e2], s[e2 + 1..e3];
    JoinAt(s, p1, e1, e2, e3);
    assert s[..p1] == prefix;
    assert ComposeSid(prefix, d1, d2, d3) == r;
    CutAt(s, e3);
  }

  /** Where the three components of a successful reading from `p` end. */
  lemma ThreeComponents(s: string, p: nat, asWritten: bool) returns (e1: nat, e2: nat, e3: nat)
    requires p <= |s| && ReadComponents(s, p, 0, asWritten).Ok?
    ensures p <= e1 < e2 < e3 < |s| && s[e1] == '-' && s[e2] == '-' && s[e3] == '-'
    ensures Component(s[p..e1], asWritten)
    ensures Component(s[e1 + 1..e2], asWritten)
    ensures Component(s[e2 + 1..e3], asWritten)
    ensures ReadComponents(s, p, 0, asWritten) == Ok(e3)
  {
    var v := ReadComponents(s, p, 0, asWritten).value;
    e1 := ComponentRead(s, p, 0, asWritten, v);
    e2, e3 := TwoComponents(s, e1 + 1, asWritten, v);
  }

  /** Where the second and third components of a reading from `p` end. */
  lemma TwoComponents(s: string, p: nat, asWritten: bool, v: nat) returns (e2: nat, e3: nat)
    requires p <= |s| && ReadComponents(s, p, 1, asWritten) == Ok(v)
    ensures p <= e2 < e3 < |s| && s[e2] == '-' && s[e3] == '-' && e3 == v
    ensures Component(s[p..e2], asWritten)
    ensures Component(s[e2 + 1..e3], asWritten)
  {
    e2 := ComponentRead(s, p, 1, asWritten, v);
    e3 := ComponentRead(s, e2 + 1, 2, asWritten, v);
  }

  /** A successful reading of the components gives the object SID up to
      where the reading ended. */
  lemma DomSidIs(prefix: string, s: string, asWritten: bool, e: nat)
    requires prefix <= s && ReadComponents(s, |prefix|, 0, asWritten) == Ok(e)
    ensures DomSidFromObjectWith(prefix, Some(s), asWritten) == Ok(s[..e])
  {
  }

  lemma CutAt(s: string, i: nat)
    requires i < |s| && s[i] == '-'
    ensures s == s[..i] + "-" + s[i + 1..]
  {
    assert s == s[..i] + [s[i]] + s[i + 1..];
  }

  /** What an accepted reading of one component says: the digit run from
      `p` is an accepted component, ends at `e` on a `-`, and the reading
      goes on behind it or ends there. */
  lemma ComponentRead(s: string, p: nat, c: nat, asWritten: bool, v: nat) returns (e: nat)
    requires p <= |s| && c < 3 && ReadComponents(s, p, c, asWritten) == Ok(v)
    ensures p <= e < |s| && s[e] == '-' && Component(s[p..e], asWritten)
    ensures c < 2 ==> ReadComponents(s, e + 1, c + 1, asWritten) == Ok(v)
    ensures c == 2 ==> e == v
  {
    e := DigitEnd(s, p);
  }

  /** A prefix of `s` cut at two `-` into three pieces. */
  lemma JoinAt(s: string, p1: nat, e1: nat, e2: nat, e3: nat)
    requires p1 <= e1 < e2 < e3 <= |s| && s[e1] == '-' && s[e2] == '-'
    ensures s[..e3] == s[..p1] + s[p1..e1] + "-" + s[e1 + 1..e2] + "-" + s[e2 + 1..e3]
  {
    assert s[..e3] == s[..p1] + s[p1..e1] + [s[e1]] + s[e1 + 1..e2] + [s[e2]] + s[e2 + 1..e3];
  }

  /** As written, a component between 2^63 and 2^64 - 1 passes the range
      check: it is negative as a `long long`.  Corrected, it is refused. */
  lemma DomSidHugeComponentAsWritten(prefix: string, n: nat, rest: string)
    requires TWO63 <= n < TWO64
    ensures var s := ComposeSid(prefix, Decimal(n), "0", "0") + "-" + rest;
            && DomSidFromObjectWith(prefix, Some(s), true) == Ok(ComposeSid(prefix, Decimal(n), "0", "0"))
            && DomSidFromObject(prefix, Some(s)) == Fail(EINVAL)
  {
    var d := Decimal(n);
    DecimalRoundTrip(n);
    ZeroDigit();
    DomSidOfComposed(prefix, d, "0", "0", rest, true);
    var s := ComposeSid(prefix, d, "0", "0") + "-" + rest;
    SplitsAt(prefix, d, "0", "0", rest);
    ComposedSlices(prefix, d, "0", "0", rest, true);
    FirstRefused(s, |prefix|, d);
  }

  /** A first component above UINT32_MAX stops the corrected reading. */
  lemma FirstRefused(s: string, p: nat, d: string)
    requires ComponentAt(s, p, d, true) && DecimalValue(d) > UINT32_MAX
    ensures ReadComponents(s, p, 0, false) == Fail(EINVAL)
  {
    ReadOne(s, p, d, true);
  }

  lemma ZeroDigit()
    ensures AllDigits("0") && DecimalValue("0") == 0
  {
    assert "0"[..0] == [];
  }

  /** Corrected, the domain SID is found exactly for the object SIDs built
      from three components of at most UINT32_MAX each. */
  lemma DomSidComponentsBounded(prefix: string, objectSid: string)
    requires DomSidFromObject(prefix, Some(objectSid)).Ok?
    ensures var r := DomSidFromObject(prefix, Some(objectSid)).value;
            exists d1, d2, d3 ::
              && AllDigits(d1) && DecimalValue(d1) <= UINT32_MAX
              && AllDigits(d2) && DecimalValue(d2) <= UINT32_MAX
              && AllDigits(d3) && DecimalValue(d3) <= UINT32_MAX
              && ComposeSid(prefix, d1, d2, d3) == r
  {
    DomSidDecomposes(prefix, objectSid, false);
  }

  // ---------------------------------------------------------------------
  // Range settings of sdap_idmap_init

  const TWO32: nat := 0x1_0000_0000

  /** An integer option stored in an `id_t` (a 32-bit unsigned integer). */
  function IdT(v: int): (r: nat)
    ensures r < TWO32
  {
    v % TWO32
  }

  /** The check of the configured lower bound, upper bound and range size,
      taken as `id_t` values; `rangesize <= 0` holds for an unsigned value
      only when it is 0. */
  function CheckRangeSettings(lower: int, upper: int, rangesize: int): (r: Code)
    ensures r == EOK || r == EINVAL
  {
    var lo, up, rs := IdT(lower), IdT(upper), IdT(rangesize);
    if rs == 0 || up <= lo || up - lo < rs then EINVAL else EOK
  }

  /** The number of whole slices between the bounds. */
  function SliceCount(lo: nat, up: nat, rs: nat): nat
    requires rs > 0 && lo <= up
  {
    (up - lo) / rs
  }

  /** The IDs of slice `i`: from `lo + i * rs` up to, not including,
      `lo + (i + 1) * rs`. */
  function SliceEnd(lo: nat, rs: nat, i: nat): nat {
    lo + (i + 1) * rs
  }

  /** Accepted settings leave room for at least one whole slice, and every
      whole slice lies within the bounds; what is left over at the top is
      not used. */
  lemma RangeSettingsSlices(lower: int, upper: int, rangesize: int)
    ensures var lo, up, rs := IdT(lower), IdT(upper), IdT(rangesize);
            CheckRangeSettings(lower, upper, rangesize) == EOK <==>
              (rs > 0 && lo < up && SliceCount(lo, up, rs) >= 1)
    ensures var lo, up, rs := IdT(lower), IdT(upper), IdT(rangesize);
            CheckRangeSettings(lower, upper, rangesize) == EOK ==>
              forall i: nat | i < SliceCount(lo, up, rs) :: SliceEnd(lo, rs, i) <= up
  {
    var lo, up, rs := IdT(lower), IdT(upper), IdT(rangesize);
    if rs > 0 && lo < up {
      CountAtLeastOne(up - lo, rs);
    }
    if CheckRangeSettings(lower, upper, rangesize) == EOK {
      forall i: nat | i < SliceCount(lo, up, rs)
        ensures SliceEnd(lo, rs, i) <= up
      {
        SliceFits(up - lo, rs, i);
      }
    }
  }

  lemma CountAtLeastOne(width: nat, rs: nat)
    requires rs > 0
    ensures width / rs >= 1 <==> width >= rs
  {
    var q := width / rs;
    assert width == q * rs + width % rs;
    if q >= 1 {
      MulMono(1, q, rs);
    }
  }

  lemma SliceFits(width: nat, rs: nat, i: nat)
    requires rs > 0 && i < width / rs
    ensures (i + 1) * rs <= width
  {
    assert i + 1 <= width / rs;
    MulMono(i + 1, width / rs, rs);
    assert (width / rs) * rs <= width;
  }

  lemma MulMono(a: nat, b: nat, c: nat)
    requires a <= b
    ensures a * c <= b * c
  {
  }

  /** A negative option wraps to a large `id_t`: a range size of -1 is
      accepted only for the whole 32-bit space. */
  lemma NegativeRangeSizeWraps(lower: int, upper: int)
    ensures CheckRangeSettings(lower, upper, -1) == EOK <==> IdT(lower) == 0 && IdT(upper) == UINT32_MAX
  {
  }

  // ---------------------------------------------------------------------
  // The ID map and sdap_idmap_add_domain

  datatype IdRange = IdRange(min: nat, max: nat)

  /** A domain of the ID map. */
  datatype Domain = Domain(name: string, sid: string, range: IdRange)

  /** A mapping kept in the cache so that it survives a restart. */
  datatype Mapping = Mapping(name: string, sid: string, slice: nat)

  /** The ID map: its upper bound, its domains and the mappings cached so
      far. */
  datatype IdmapState = IdmapState(upper: nat, domains: seq<Domain>, stored: seq<Mapping>)

  /** The outcome of `sss_idmap_sid_to_unix`. */
  datatype Conversion = Converted(id: nat) | NoDomain | BuiltinSid | ConversionError

  /** The results of the library and cache calls.  `calculate` is
      `sss_idmap_calculate_range`: the slice it settled on and the range,
      or `None` on failure. */
  datatype IdmapEnv = IdmapEnv(
    getUpper: bool,                                           // sss_idmap_ctx_get_upper succeeds
    calculate: (seq<Domain>, string, nat) -> Option<(nat, IdRange)>,
    add: (seq<Domain>, string, string, IdRange) -> bool,      // sss_idmap_add_domain succeeds
    store: (string, string, nat) -> Code,                     // sysdb_idmap_store_mapping
    convert: (seq<Domain>, string) -> Conversion)             // sss_idmap_sid_to_unix

  /** Every domain of the map ends at or below the map's upper bound. */
  predicate WithinUpper(st: IdmapState) {
    forall i | 0 <= i < |st.domains| :: st.domains[i].range.max <= st.upper
  }

  datatype Added = Added(code: Code, state: IdmapState)

  /** `sdap_idmap_add_domain`: compute the domain's range, refuse a range
      that ends above the upper bound, add the domain to the map and cache
      the mapping; the cache's code is the result. */
  function AddDomain(env: IdmapEnv, st: IdmapState, name: string, sid: string, slice: nat)
    : (r: Added)
    ensures r.state == st || |r.state.domains| == |st.domains| + 1
    ensures r.state.upper == st.upper && r.state.domains[..|st.domains|] == st.domains
    ensures r.code == EOK ==> |r.state.domains| == |st.domains| + 1
  {
    if !env.getUpper then Added(EIO, st)
    else match env.calculate(st.domains, sid, slice)
      case None => Added(EIO, st)
      case Some((slice', range)) =>
        if range.max > st.upper then Added(EINVAL, st)
        else if !env.add(st.domains, name, sid, range) then Added(EIO, st)
        else
          var c := env.store(name, sid, slice');
          var stored := if c == EOK then st.stored + [Mapping(name, sid, slice')] else st.stored;
          Added(c, IdmapState(st.upper, st.domains + [Domain(name, sid, range)], stored))
  }

  /** A range that ends above the upper bound is refused with EINVAL, and
      the domain is neither added nor cached. */
  lemma AddDomainGuard(env: IdmapEnv, st: IdmapState, name: string, sid: string, slice: nat)
    requires env.getUpper
    requires var c := env.calculate(st.domains, sid, slice); c.Some? && c.value.1.max > st.upper
    ensures AddDomain(env, st, name, sid, slice) == Added(EINVAL, st)
  {
  }

  /** Adding a domain keeps every domain of the map within the upper bound;
      a domain is added only with its name and SID, and the mapping is
      cached exactly when the result is success. */
  lemma AddDomainKeepsBound(env: IdmapEnv, st: IdmapState, name: string, sid: string, slice: nat)
    requires WithinUpper(st)
    ensures var r := AddDomain(env, st, name, sid, slice);
            && WithinUpper(r.state)
            && (|r.state.domains| > |st.domains| ==>
                  r.state.domains[|st.domains|].name == name && r.state.domains[|st.domains|].sid == sid)
            && (r.code == EOK <==> |r.state.stored| > |st.stored|)
            && (r.code == EOK ==> |r.state.domains| == |st.domains| + 1)
  {
  }

  // ---------------------------------------------------------------------
  // sdap_idmap_sid_to_unix

  /** The library calls `sdap_idmap_sid_to_unix` makes, in order. */
  datatype Call = Convert(sid: string) | AddNew(domSid: string)

  datatype Lookup = Lookup(code: Code, id: Option<nat>, state: IdmapState, calls: seq<Call>)

  /** The slice a new domain is added with: -1 as an `id_t`, which asks the
      library to choose one. */
  const NEW_SLICE: nat := UINT32_MAX

  /** `sdap_idmap_sid_to_unix`: convert; for a SID of an unknown domain add
      that domain, named by its domain SID, and convert once more. */
  function SidToUnix(env: IdmapEnv, st: IdmapState, prefix: string, sid: string): (r: Lookup)
    ensures r.code == EOK <==> r.id.Some?
  {
    match env.convert(st.domains, sid)
    case Converted(id) => Lookup(EOK, Some(id), st, [Convert(sid)])
    case NoDomain =>
      (match DomSidFromObject(prefix, Some(sid))
       case Fail(c) => Lookup(c, None, st, [Convert(sid)])
       case Ok(d) =>
         var a := AddDomain(env, st, d, d, NEW_SLICE);
         if a.code != EOK then Lookup(a.code, None, a.state, [Convert(sid), AddNew(d)])
         else
           var calls := [Convert(sid), AddNew(d), Convert(sid)];
           match env.convert(a.state.domains, sid)
           case Converted(id) => Lookup(EOK, Some(id), a.state, calls)
           case _ => Lookup(EIO, None, a.state, calls))
    case BuiltinSid => Lookup(ENOTSUP, None, st, [Convert(sid)])
    case ConversionError => Lookup(EIO, None, st, [Convert(sid)])
  }

  /** The conversion is tried at most twice, and the second time only right
      after the domain of the SID was added successfully; a domain is
      added at most once. */
  lemma SidToUnixRetriesOnce(env: IdmapEnv, st: IdmapState, prefix: string, sid: string)
    ensures var r := SidToUnix(env, st, prefix, sid);
            && 1 <= |r.calls| <= 3
            && r.calls[0] == Convert(sid)
            && (|r.calls| >= 2 ==>
                  && env.convert(st.domains, sid) == NoDomain
                  && DomSidFromObject(prefix, Some(sid)).Ok?
                  && r.calls[1] == AddNew(DomSidFromObject(prefix, Some(sid)).value))
            && (|r.calls| == 3 ==>
                  && r.calls[2] == Convert(sid)
                  && AddDomain(env, st, r.calls[1].domSid, r.calls[1].domSid, NEW_SLICE).code == EOK)
  {
  }

  /** The outcomes: a built-in SID gives ENOTSUP and any other conversion
      error EIO, both with the map unchanged; a SID of an unknown domain
      whose second conversion fails gives EIO. */
  lemma SidToUnixOutcomes(env: IdmapEnv, st: IdmapState, prefix: string, sid: string)
    ensures var r := SidToUnix(env, st, prefix, sid);
            var first := env.convert(st.domains, sid);
            && (first.Converted? ==> r == Lookup(EOK, Some(first.id), st, [Convert(sid)]))
            && (first.BuiltinSid? ==> r.code == ENOTSUP && r.state == st)
            && (first.ConversionError? ==> r.code == EIO && r.state == st)
            && (first.NoDomain? && |r.calls| == 3 ==>
                  (r.code == EOK <==> env.convert(r.state.domains, sid).Converted?)
                  && (r.code != EOK ==> r.code == EIO))
  {
  }

  /** The map grows by at most the one domain named by the SID's domain
      SID, and stays within its upper bound. */
  lemma SidToUnixGrowsByDomSid(env: IdmapEnv, st: IdmapState, prefix: string, sid: string)
    requires WithinUpper(st)
    ensures var r := SidToUnix(env, st, prefix, sid);
            && WithinUpper(r.state)
            && r.state.upper == st.upper
            && (r.state.domains == st.domains
                || (&& |r.state.domains| == |st.domains| + 1
                    && r.state.domains[..|st.domains|] == st.domains
                    && DomSidFromObject(prefix, Some(sid)).Ok?
                    && r.state.domains[|st.domains|].name == DomSidFromObject(prefix, Some(sid)).value
                    && r.state.domains[|st.domains|].sid == DomSidFromObject(prefix, Some(sid)).value))
  {
    if env.convert(st.domains, sid).NoDomain? && DomSidFromObject(prefix, Some(sid)).Ok? {
      var d := DomSidFromObject(prefix, Some(sid)).value;
      AddDomainKeepsBound(env, st, d, d, NEW_SLICE);
    }
  }

  // ---------------------------------------------------------------------
  // sdap_idmap_init

  /** A mapping read from the cache; a missing attribute is `None`. */
  datatype CachedMapping = CachedMapping(name: Option<string>, sid: Option<string>, slice: Option<int>)

  /** `sss_idmap_init`'s outcome. */
  datatype InitResult = InitOk | InitOutOfMemory | InitError

  /** The configuration and the results of the calls `sdap_idmap_init`
      makes besides adding domains. */
  datatype InitEnv = InitEnv(
    lower: int, upper: int, rangesize: int,     // the ldap_idmap_range_* options
    init: InitResult,                           // sss_idmap_init
    settersOk: bool,                            // the four sss_idmap_ctx_set_* calls
    cacheCode: Code,                            // sysdb_idmap_get_mappings
    cached: seq<CachedMapping>,                 // its result
    defaultDomain: Option<string>,              // ldap_idmap_default_domain
    domainName: string,                         // the SSSD domain's name
    setDefaultDomain: Code,                     // dp_opt_set_string
    defaultSid: Option<string>)                 // ldap_idmap_default_domain_sid

  /** The slice of a cached mapping: a missing attribute reads as -1, and
      -1 as an `id_t` marks the mapping as broken. */
  function CachedSlice(m: CachedMapping): (r: Option<nat>)
    ensures r.Some? ==> r.value < UINT32_MAX
  {
    var v := if m.slice.Some? then m.slice.value else -1;
    if IdT(v) == UINT32_MAX then None else Some(IdT(v))
  }

  /** Adding the cached mappings `ms` one after the other; the first broken
      mapping or failing addition ends the loop with its code. */
  function AddCached(env: IdmapEnv, st: IdmapState, ms: seq<CachedMapping>): (r: Added)
    ensures r.state.upper == st.upper
    ensures |st.domains| <= |r.state.domains| && r.state.domains[..|st.domains|] == st.domains
    ensures r.code == EOK ==> |r.state.domains| == |st.domains| + |ms|
    decreases |ms|
  {
    if |ms| == 0 then Added(EOK, st)
    else
      var m := ms[0];
      if m.name.None? || m.sid.None? || CachedSlice(m).None? then Added(EINVAL, st)
      else
        var a := AddDomain(env, st, m.name.value, m.sid.value, CachedSlice(m).value);
        if a.code != EOK then a else AddCached(env, a.state, ms[1..])
  }

  /** `sdap_idmap_init` after the configuration is read: validate the
      ranges, create the map, and fill it from the cache or, the first
      time, with the default domain at slice 0. */
  function Init(e: InitEnv, env: IdmapEnv): (r: Added)
    ensures r.state.upper == IdT(e.upper)
  {
    var st := IdmapState(IdT(e.upper), [], []);
    if CheckRangeSettings(e.lower, e.upper, e.rangesize) != EOK then Added(EINVAL, st)
    else if e.init != InitOk then Added(if e.init == InitOutOfMemory then ENOMEM else EINVAL, st)
    else if !e.settersOk then Added(EIO, st)
    else if e.cacheCode != EOK && e.cacheCode != ENOENT then Added(e.cacheCode, st)
    else if e.cacheCode == EOK && |e.cached| > 0 then AddCached(env, st, e.cached)
    else if e.defaultDomain.None? && e.setDefaultDomain != EOK then Added(e.setDefaultDomain, st)
    else
      var name := if e.defaultDomain.Some? then e.defaultDomain.value else e.domainName;
      if e.defaultSid.None? then Added(EOK, st)
      else AddDomain(env, st, name, e.defaultSid.value, 0)
  }

  /** Loading the cache adds the mappings in order, each under its cached
      name and SID, and keeps every domain within the upper bound. */
  lemma {:induction false} AddCachedInOrder(env: IdmapEnv, st: IdmapState, ms: seq<CachedMapping>)
    requires WithinUpper(st)
    ensures var r := AddCached(env, st, ms);
            && WithinUpper(r.state)
            && r.state.domains[..|st.domains|] == st.domains
            && (r.code == EOK ==>
                  && |r.state.domains| == |st.domains| + |ms|
                  && forall i | 0 <= i < |ms| ::
                       && Some(r.state.domains[|st.domains| + i].name) == ms[i].name
                       && Some(r.state.domains[|st.domains| + i].sid) == ms[i].sid)
    decreases |ms|
  {
    if |ms| > 0 {
      var m := ms[0];
      if m.name.Some? && m.sid.Some? && CachedSlice(m).Some? {
        var a := AddDomain(env, st, m.name.value, m.sid.value, CachedSlice(m).value);
        AddDomainKeepsBound(env, st, m.name.value, m.sid.value, CachedSlice(m).value);
        if a.code == EOK {
          AddCachedInOrder(env, a.state, ms[1..]);
          var r := AddCached(env, a.state, ms[1..]);
          assert r.state.domains[..|a.state.domains|] == a.state.domains;
          assert r.state.domains[..|st.domains|] == st.domains by {
            assert a.state.domains[..|st.domains|] == st.domains;
          }
          forall i | 0 <= i < |ms| && r.code == EOK
            ensures Some(r.state.domains[|st.domains| + i].name) == ms[i].name
            ensures Some(r.state.domains[|st.domains| + i].sid) == ms[i].sid
          {
            if i > 0 {
              assert ms[1..][i - 1] == ms[i];
              assert |st.domains| + i == |a.state.domains| + (i - 1);
            } else {
              assert r.state.domains[|st.domains|] == a.state.domains[|st.domains|];
            }
          }
        }
      }
    }
  }

  /** Settings that fail the range check stop `sdap_idmap_init` with
      EINVAL before anything is added or cached. */
  lemma InitRejectsBadRanges(e: InitEnv, env: IdmapEnv)
    ensures CheckRangeSettings(e.lower, e.upper, e.rangesize) != EOK ==>
              Init(e, env) == Added(EINVAL, IdmapState(IdT(e.upper), [], []))
  {
  }

  /** The first time, with no cached mappings, a configured default domain
      SID is added at slice 0, under the configured default domain or the
      SSSD domain's name; without a default SID the map stays empty. */
  lemma InitDefaultAtSliceZero(e: InitEnv, env: IdmapEnv)
    requires CheckRangeSettings(e.lower, e.upper, e.rangesize) == EOK
    requires e.init == InitOk && e.settersOk
    requires e.cacheCode == ENOENT || (e.cacheCode == EOK && |e.cached| == 0)
    requires e.defaultDomain.Some? || e.setDefaultDomain == EOK
    ensures var st := IdmapState(IdT(e.upper), [], []);
            var name := if e.defaultDomain.Some? then e.defaultDomain.value else e.domainName;
            && (e.defaultSid.Some? ==> Init(e, env) == AddDomain(env, st, name, e.defaultSid.value, 0))
            && (e.defaultSid.None? ==> Init(e, env) == Added(EOK, st))
  {
  }

  /** Whatever happens, the map `sdap_idmap_init` builds keeps every domain
      within the configured upper bound. */
  lemma InitWithinUpper(e: InitEnv, env: IdmapEnv)
    ensures WithinUpper(Init(e, env).state)
  {
    var st := IdmapState(IdT(e.upper), [], []);
    AddCachedInOrder(env, st, e.cached);
    var name := if e.defaultDomain.Some? then e.defaultDomain.value else e.domainName;
    if e.defaultSid.Some? {
      AddDomainKeepsBound(env, st, name, e.defaultSid.value, 0);
    }
  }
}

=== FILE: keytab.dfy ===
/** `validate_tgt`: checking a freshly acquired ticket against a key of the
    host keytab.  The key is the first keytab entry in the realm of the
    request principal (`kr->princ`, parsed from the UPN) or, when there is
    none, the last entry.

    The keytab and the library calls are oracles collected in a
    `ValidateEnv`.
 */
module Keytab {
  import opened Codes
  import opened Bytes

  /** A keytab entry, reduced to its principal's name and realm. */
  datatype Entry = Entry(name: CStr, realm: CStr)

  /** How the scan of the keytab ended: `kerr` is the code the loop leaves
      behind (a failing `krb5_copy_principal`), `ktErr` the last
      `krb5_kt_next_entry` code, `chosen` the entry whose principal was
      copied last and `found` whether it is of the realm looked for. */
  datatype Scan = Scan(kerr: Code, ktErr: Code, chosen: Option<Entry>, found: bool)

  /** The scan, one entry at a time: `copy` is `krb5_copy_principal` and
      `endCode` what `krb5_kt_next_entry` returns after the last entry
      (`KRB5_KT_END`, or a read error). */
  function ScanFrom(es: seq<Entry>, realm: CStr, copy: Entry -> Code, endCode: Code,
                    i: nat, prev: Option<Entry>): (s: Scan)
    requires i <= |es|
    ensures s.found ==> s.kerr == EOK && s.ktErr == EOK && s.chosen.Some?
                        && s.chosen.value.realm == realm
    decreases |es| - i
  {
    if i == |es| then Scan(EOK, endCode, prev, false)
    else if copy(es[i]) != EOK then Scan(copy(es[i]), EOK, None, false)
    else if es[i].realm == realm then Scan(EOK, EOK, Some(es[i]), true)
    else ScanFrom(es, realm, copy, endCode, i + 1, Some(es[i]))
  }

  function ScanKeytab(es: seq<Entry>, realm: CStr, copy: Entry -> Code, endCode: Code): (s: Scan)
  {
    ScanFrom(es, realm, copy, endCode, 0, None)
  }

  /** The index of the first entry of `realm` at or after `i`, or `|es|`. */
  function FirstInRealm(es: seq<Entry>, realm: CStr, i: nat): (k: nat)
    requires i <= |es|
    ensures i <= k <= |es|
    ensures k < |es| ==> es[k].realm == realm
    ensures forall j | i <= j < k :: es[j].realm != realm
    decreases |es| - i
  {
    if i == |es| || es[i].realm == realm then i else FirstInRealm(es, realm, i + 1)
  }

  /** When every copy succeeds, the scan picks the first entry of the user's
      realm, or else the last entry, and reports how the keytab read ended
      only in the second case. */
  lemma {:induction false} ScanChoosesFirstInRealm(es: seq<Entry>, realm: CStr,
                                                   copy: Entry -> Code, endCode: Code,
                                                   i: nat, prev: Option<Entry>)
    requires i <= |es|
    requires forall j | i <= j < |es| :: copy(es[j]) == EOK
    ensures var s := ScanFrom(es, realm, copy, endCode, i, prev);
            var k := FirstInRealm(es, realm, i);
            && s.kerr == EOK
            && (k < |es| ==> s == Scan(EOK, EOK, Some(es[k]), true))
            && (k == |es| ==> s == Scan(EOK, endCode, if i < |es| then Some(es[|es| - 1]) else prev, false))
    decreases |es| - i
  {
    if i < |es| && es[i].realm != realm {
      ScanChoosesFirstInRealm(es, realm, copy, endCode, i + 1, Some(es[i]));
    }
  }

  /** The loop of `validate_tgt` over the keytab, as it is written: it
      computes the same scan as `ScanKeytab`. */
  method ScanLoop(es: seq<Entry>, realm: CStr, copy: Entry -> Code, endCode: Code)
    returns (s: Scan)
    ensures s == ScanKeytab(es, realm, copy, endCode)
  {
    var i := 0;
    var chosen: Option<Entry> := None;
    while i < |es|
      invariant 0 <= i <= |es|
      invariant ScanFrom(es, realm, copy, endCode, i, chosen) == ScanKeytab(es, realm, copy, endCode)
    {
      chosen := None;
      var kerr := copy(es[i]);
      if kerr != EOK {
        return Scan(kerr, EOK, None, false);
      }
      chosen := Some(es[i]);
      if es[i].realm == realm {
        return Scan(EOK, EOK, chosen, true);
      }
      i := i + 1;
    }
    return Scan(EOK, endCode, chosen, false);
  }

  /** The results of the library calls `validate_tgt` makes. */
  datatype ValidateEnv = ValidateEnv(
    resolve: Code,                    // krb5_kt_resolve
    startSeq: Code,                   // krb5_kt_start_seq_get
    entries: seq<Entry>,              // the entries krb5_kt_next_entry returns
    endCode: Code,                    // krb5_kt_next_entry after the last entry
    copy: Entry -> Code,              // krb5_copy_principal
    endSeq: Code,                     // krb5_kt_end_seq_get
    unparse: Option<Entry> -> Code,   // krb5_unparse_name of the chosen principal
    verify: Option<Entry> -> Code)    // krb5_verify_init_creds with the chosen key

  /** KRB5_KT_END, the code that ends a complete keytab read. */
  const KT_END: Code := Krb5(KtEnd)

  /** What `validate_tgt` returns and whether the ticket was verified
      against a key. */
  datatype Validation = Validation(code: Code, verified: bool)

  /** `validate_tgt` with the handling of a keytab read error chosen by
      `asWritten`.  As written, a read error other than `KRB5_KT_END` jumps
      to the exit with the code of the last successful call, so the ticket
      counts as valid without a verification; corrected, the read error is
      returned.  The PAC step that follows a verification for a principal
      of another realm is not critical and does not change the result. */
  function ValidateTgtWith(v: ValidateEnv, realm: CStr, asWritten: bool): (r: Validation)
    ensures r.verified ==> r.code == EOK
  {
    if v.resolve != EOK then Validation(v.resolve, false)
    else if v.startSeq != EOK then Validation(v.startSeq, false)
    else
      var s := ScanKeytab(v.entries, realm, v.copy, v.endCode);
      if s.kerr != EOK then Validation(s.kerr, false)
      else if v.endSeq != EOK then Validation(v.endSeq, false)
      else if s.ktErr != EOK && s.ktErr != KT_END then
        Validation(if asWritten then EOK else s.ktErr, false)
      else if v.unparse(s.chosen) != EOK then Validation(v.unparse(s.chosen), false)
      else
        var c := v.verify(s.chosen);
        Validation(c, c == EOK)
  }

  /** `validate_tgt` as the rest of the model uses it. */
  function ValidateTgt(v: ValidateEnv, realm: CStr): (r: Validation)
    ensures r.code == EOK <==> r.verified
  {
    ValidateTgtWith(v, realm, false)
  }

  /** Corrected, a validation succeeds only when the ticket was verified
      against a key of the keytab. */
  lemma ValidateTgtVerifies(v: ValidateEnv, realm: CStr)
    requires ValidateTgt(v, realm).code == EOK
    ensures ValidateTgt(v, realm).verified
    ensures var s := ScanKeytab(v.entries, realm, v.copy, v.endCode);
            v.verify(s.chosen) == EOK && (s.ktErr == EOK || s.ktErr == KT_END)
  {
  }

  /** As written, a keytab that cannot be read to its end validates any
      ticket: the result is success and no key was tried. */
  lemma ValidateTgtReadErrorAsWritten(v: ValidateEnv, realm: CStr)
    requires v.resolve == EOK && v.startSeq == EOK && v.endSeq == EOK
    requires forall e | e in v.entries :: v.copy(e) == EOK && e.realm != realm
    requires v.endCode != EOK && v.endCode != KT_END
    ensures ValidateTgtWith(v, realm, true) == Validation(EOK, false)
    ensures ValidateTgtWith(v, realm, false) == Validation(v.endCode, false)
  {
    forall j | 0 <= j < |v.entries|
      ensures v.copy(v.entries[j]) == EOK
    {
      assert v.entries[j] in v.entries;
    }
    ScanChoosesFirstInRealm(v.entries, realm, v.copy, v.endCode, 0, None);
  }
}

=== FILE: responses.dfy ===
/** The messages the worker attaches to its reply (`pam_add_response`) and
    their payloads on the pipe.

    The numeric message types, the sub-tags of the user-info messages and
    the status word of each code are defined in headers that are not part of
    this model; they are collected in a `WireTags` value that every encoding
    function takes as a parameter.
 */
module Responses {
  import opened Codes
  import opened Bytes
  import opened Wire

  /** A message of the reply.  `ExpireWarn` is a user-info message with the
      EXPIRE_WARN sub-tag, `ChpassError` one with the CHPASS_ERROR sub-tag. */
  datatype Message =
    | TextMsg(text: CStr)
    | ExpireWarn(seconds: nat)
    | OtpNoCache
    | CcacheEnv(ccname: CStr)
    | TgtTimes(authtime: int, starttime: int, endtime: int, renewTill: int)
    | Upn(name: seq<bv8>)
    | ChpassError(text: CStr)

  datatype WireTags = WireTags(
    textMsg: int,          // SSS_PAM_TEXT_MSG
    userInfo: int,         // SSS_PAM_USER_INFO
    envItem: int,          // SSS_PAM_ENV_ITEM
    otp: int,              // SSS_OTP
    tgtLifetime: int,      // SSS_KRB5_INFO_TGT_LIFETIME
    upn: int,              // SSS_KRB5_INFO_UPN
    expireWarnTag: nat,    // SSS_PAM_USER_INFO_EXPIRE_WARN
    chpassErrorTag: nat,   // SSS_PAM_USER_INFO_CHPASS_ERROR
    statusWord: Code -> int)

  ghost predicate TagsOk(t: WireTags) {
    && IsI32(t.textMsg) && IsI32(t.userInfo) && IsI32(t.envItem) && IsI32(t.otp)
    && IsI32(t.tgtLifetime) && IsI32(t.upn)
    && t.expireWarnTag < TWO32 && t.chpassErrorTag < TWO32
    && forall c :: IsI32(t.statusWord(c))
  }

  /** `KRB5CCNAME`, the environment variable that carries the cache name. */
  const CCACHE_ENV_NAME: seq<bv8> := [0x4B, 0x52, 0x42, 0x35, 0x43, 0x43, 0x4E, 0x41, 0x4D, 0x45]
  const EQUALS: bv8 := 0x3D

  /** A message whose payload length fits the `int32_t` length word and
      whose user-info words fit their `uint32_t`. */
  predicate Fits(m: Message) {
    match m
    case TextMsg(t) => |t| + 1 < 0x8000_0000
    case ExpireWarn(s) => s < TWO32
    case OtpNoCache => true
    case CcacheEnv(c) => |c| + 12 < 0x8000_0000
    case TgtTimes(_, _, _, _) => true
    case Upn(n) => |n| < 0x8000_0000
    case ChpassError(t) => |t| + 8 < 0x8000_0000
  }

  predicate AllFit(l: seq<Message>) {
    forall i | 0 <= i < |l| :: Fits(l[i])
  }

  function MessageType(t: WireTags, m: Message): int {
    match m
    case TextMsg(_) => t.textMsg
    case ExpireWarn(_) => t.userInfo
    case OtpNoCache => t.otp
    case CcacheEnv(_) => t.envItem
    case TgtTimes(_, _, _, _) => t.tgtLifetime
    case Upn(_) => t.upn
    case ChpassError(_) => t.userInfo
  }

  /** The payload bytes of a message: a C string with its terminator
      (`strlen + 1` bytes) for texts and the environment item, two words for
      the expiry warning, four `int64_t` for the ticket times, the unparsed
      name without terminator for the UPN, and the sub-tag, the length and
      the text for a password-change error. */
  function Payload(t: WireTags, m: Message): (b: seq<bv8>)
    requires TagsOk(t) && Fits(m)
  {
    match m
    case TextMsg(s) => s + [0]
    case ExpireWarn(sec) => U32Bytes(t.expireWarnTag) + U32Bytes(sec)
    case OtpNoCache => []
    case CcacheEnv(c) => CCACHE_ENV_NAME + [EQUALS] + c + [0]
    case TgtTimes(a, s, e, r) => I64Bytes(a) + I64Bytes(s) + I64Bytes(e) + I64Bytes(r)
    case Upn(n) => n
    case ChpassError(s) => U32Bytes(t.chpassErrorTag) + U32Bytes(|s|) + s
  }

  /** The payload length each message declares. */
  lemma PayloadLength(t: WireTags, m: Message)
    requires TagsOk(t) && Fits(m)
    ensures m.TextMsg? ==> |Payload(t, m)| == |m.text| + 1
    ensures m.ExpireWarn? ==> |Payload(t, m)| == 8
    ensures m.OtpNoCache? ==> |Payload(t, m)| == 0
    ensures m.CcacheEnv? ==> |Payload(t, m)| == |m.ccname| + 12
    ensures m.TgtTimes? ==> |Payload(t, m)| == 32
    ensures m.Upn? ==> |Payload(t, m)| == |m.name|
    ensures m.ChpassError? ==> |Payload(t, m)| == |m.text| + 8
  {
  }

  /** A text payload read as a C string gives the text back: the message
      is exactly one NUL-terminated string. */
  lemma TextPayloadIsCString(t: WireTags, m: Message)
    requires TagsOk(t) && Fits(m) && m.TextMsg?
    ensures |Payload(t, m)| == |m.text| + 1 && Payload(t, m)[|m.text|] == 0
    ensures StrNDup(Payload(t, m)) == m.text
  {
    StrNDupStopsAtNul(m.text, [0]);
  }

  /** The environment item is `KRB5CCNAME=<cache name>` as one
      NUL-terminated string. */
  lemma EnvPayloadIsCString(t: WireTags, m: Message)
    requires TagsOk(t) && Fits(m) && m.CcacheEnv?
    ensures Payload(t, m)[|Payload(t, m)| - 1] == 0
    ensures StrNDup(Payload(t, m)) == CCACHE_ENV_NAME + [EQUALS] + m.ccname
  {
    var s := CCACHE_ENV_NAME + [EQUALS] + m.ccname;
    assert Payload(t, m) == s + [0];
    assert NulFree(CCACHE_ENV_NAME);
    NulFreeConcat(CCACHE_ENV_NAME, [EQUALS]);
    NulFreeConcat(CCACHE_ENV_NAME + [EQUALS], m.ccname);
    StrNDupStopsAtNul(s, [0]);
  }

  lemma NulFreeConcat(a: seq<bv8>, b: seq<bv8>)
    requires NulFree(a) && NulFree(b)
    ensures NulFree(a + b)
  {
    forall i | 0 <= i < |a + b|
      ensures (a + b)[i] != 0
    {
      if i >= |a| {
        assert (a + b)[i] == b[i - |a|];
      }
    }
  }

  lemma {:induction false} StrNDupStopsAtNul(s: seq<bv8>, rest: seq<bv8>)
    requires NulFree(s) && |rest| > 0 && rest[0] == 0
    ensures StrNDup(s + rest) == s
    decreases |s|
  {
    if |s| == 0 {
      assert (s + rest)[0] == 0;
    } else {
      assert (s + rest)[1..] == s[1..] + rest;
      StrNDupStopsAtNul(s[1..], rest);
      assert [s[0]] + s[1..] == s;
    }
  }

  /** The expiry warning carries its sub-tag and the number of seconds. */
  lemma ExpireWarnWords(t: WireTags, sec: nat)
    requires TagsOk(t) && sec < TWO32
    ensures U32Value(Payload(t, ExpireWarn(sec))[..4]) == t.expireWarnTag
    ensures U32Value(Payload(t, ExpireWarn(sec))[4..]) == sec
  {
    var p := Payload(t, ExpireWarn(sec));
    assert p[..4] == U32Bytes(t.expireWarnTag);
    assert p[4..] == U32Bytes(sec);
    U32RoundTrip(t.expireWarnTag);
    U32RoundTrip(sec);
  }

  function ToFrame(t: WireTags, m: Message): (f: Frame)
    requires TagsOk(t) && Fits(m)
    ensures FrameOk(f)
  {
    PayloadLength(t, m);
    Frame(MessageType(t, m), Payload(t, m))
  }

  function ToFrames(t: WireTags, l: seq<Message>): (fs: seq<Frame>)
    requires TagsOk(t) && AllFit(l)
    ensures |fs| == |l|
    ensures forall i | 0 <= i < |l| :: fs[i] == ToFrame(t, l[i])
  {
    if |l| == 0 then [] else [ToFrame(t, l[0])] + ToFrames(t, l[1..])
  }

  /** `pam_add_response` links the new entry in front of the list, so the
      list holds the messages newest first. */
  function AddResponse(l: seq<Message>, m: Message): (l': seq<Message>)
    ensures |l'| == |l| + 1 && l'[0] == m && l'[1..] == l
  {
    [m] + l
  }

  /** `k5c_send_data`: the reply packet for a final status and the response
      list. */
  function Reply(t: WireTags, status: Code, l: seq<Message>): (b: seq<bv8>)
    requires TagsOk(t) && AllFit(l)
    ensures |b| >= 4 && I32Value(b[..4]) == t.statusWord(status)
  {
    PackResponse(t.statusWord(status), ToFrames(t, l))
  }

  function Sizes(t: WireTags, l: seq<Message>): nat
    requires TagsOk(t) && AllFit(l)
  {
    if |l| == 0 then 0 else 8 + |Payload(t, l[0])| + Sizes(t, l[1..])
  }

  /** The reply is four bytes of status plus, for every message, eight bytes
      of header and its payload; its first word is the status. */
  lemma {:induction false} ReplySize(t: WireTags, status: Code, l: seq<Message>)
    requires TagsOk(t) && AllFit(l)
    ensures |Reply(t, status, l)| == 4 + Sizes(t, l)
    ensures I32Value(Reply(t, status, l)[..4]) == t.statusWord(status)
  {
    FramesSize(t, l);
  }

  lemma {:induction false} FramesSize(t: WireTags, l: seq<Message>)
    requires TagsOk(t) && AllFit(l)
    ensures PayloadSize(ToFrames(t, l)) == Sizes(t, l)
    decreases |l|
  {
    if |l| > 0 {
      assert ToFrames(t, l)[1..] == ToFrames(t, l[1..]);
      FramesSize(t, l[1..]);
    }
  }

  /** Adding a message puts its frame right after the status word, ahead of
      every message added before it. */
  lemma AddResponseReply(t: WireTags, status: Code, l: seq<Message>, m: Message)
    requires TagsOk(t) && AllFit(l) && Fits(m)
    ensures AllFit(AddResponse(l, m))
    ensures Reply(t, status, AddResponse(l, m))
            == I32Bytes(t.statusWord(status)) + FrameBytes(ToFrame(t, m))
               + Reply(t, status, l)[4..]
  {
    var l' := AddResponse(l, m);
    assert AllFit(l') by {
      forall i | 0 <= i < |l'|
        ensures Fits(l'[i])
      {
        if i > 0 {
          assert l'[i] == l[i - 1];
        }
      }
    }
    var fs := ToFrames(t, l');
    assert fs == [ToFrame(t, m)] + ToFrames(t, l);
  }

  /** The parent reads back the status and every message, newest first. */
  lemma ReplyReadBack(t: WireTags, status: Code, l: seq<Message>)
    requires TagsOk(t) && AllFit(l)
    ensures UnpackResponse(Reply(t, status, l)) == Some((t.statusWord(status), ToFrames(t, l)))
  {
    UnpackPack(t.statusWord(status), ToFrames(t, l));
  }
}

=== FILE: wire.dfy ===
/** The pipe protocol between the Kerberos back end and its worker process:
    the request the worker reads from its standard input (`unpack_buffer`,
    `unpack_authtok`) and the response packet it writes back
    (`pack_response_packet`).

    A request is a `uint32_t` command word followed by a sequence of fields
    whose layout depends on the command.  Every field is one of three kinds:
    a plain `uint32_t` word, a counted string (a length word and that many
    bytes) or an authentication token (a type word, a length word and that
    many bytes).
 */
module Wire {
  import opened Codes
  import opened Bytes

  /* Command words of the PAM protocol. */
  const SSS_PAM_AUTHENTICATE: nat := 0xF1
  const SSS_PAM_ACCT_MGMT: nat := 0xF3
  const SSS_PAM_CHAUTHTOK: nat := 0xF6
  const SSS_PAM_CHAUTHTOK_PRELIM: nat := 0xF7
  const SSS_CMD_RENEW: nat := 0xF8

  /* Type words of an authentication token. */
  const SSS_AUTHTOK_TYPE_EMPTY: nat := 0
  const SSS_AUTHTOK_TYPE_PASSWORD: nat := 1
  const SSS_AUTHTOK_TYPE_CCFILE: nat := 2

  /** An authentication token; the payload of a typed token is kept as the
      bytes the request declared for it. */
  datatype AuthTok = Empty | Password(secret: seq<bv8>) | CcFile(path: seq<bv8>)

  /** The decoded request.  `ccname` and `keytab` are `None` and both tokens
      are `Empty` when the command does not carry them (the NULL pointers and
      empty tokens of the C structure). */
  datatype Request = Request(
    cmd: nat,
    uid: nat,
    gid: nat,
    validate: bool,
    offline: nat,
    differentRealm: bool,
    enterprise: bool,
    upn: CStr,
    ccname: Option<CStr>,
    keytab: Option<CStr>,
    authtok: AuthTok,
    newAuthtok: AuthTok,
    user: Option<CStr>)

  /** Commands whose request carries a cache name, a keytab and the current
      token. */
  predicate CarriesCreds(cmd: nat) {
    cmd == SSS_PAM_AUTHENTICATE || cmd == SSS_CMD_RENEW
    || cmd == SSS_PAM_CHAUTHTOK_PRELIM || cmd == SSS_PAM_CHAUTHTOK
  }

  datatype Kind = Word | Str | Tok

  datatype Field = WordF(w: nat) | StrF(s: CStr) | TokF(t: AuthTok)

  predicate FieldOfKind(f: Field, k: Kind) {
    match k
    case Word => f.WordF?
    case Str => f.StrF?
    case Tok => f.TokF?
  }

  predicate FieldsOfKinds(fs: seq<Field>, ks: seq<Kind>) {
    |fs| == |ks| && forall i | 0 <= i < |fs| :: FieldOfKind(fs[i], ks[i])
  }

  /** The fields that follow the command word, in the order they are read:
      uid, gid, validate, offline, different-realm, enterprise, the
      principal, then the command-dependent fields. */
  function Layout(cmd: nat): (ks: seq<Kind>)
    ensures |ks| >= 7 && ks[6] == Str
    ensures forall i | 0 <= i < 6 :: ks[i] == Word
  {
    [Word, Word, Word, Word, Word, Word, Str]
    + (if CarriesCreds(cmd) then [Str, Str, Tok] else [])
    + (if cmd == SSS_PAM_CHAUTHTOK then [Tok] else [])
    + (if cmd == SSS_PAM_ACCT_MGMT then [Str] else [])
  }

  /** `SAFEALIGN_COPY_UINT32_CHECK`: a word at `p`, or EINVAL when fewer than
      four bytes remain. */
  function ReadU32(buf: seq<bv8>, p: nat): (r: Result<(nat, nat)>)
    ensures r.Ok? <==> p + 4 <= |buf|
    ensures r.Fail? ==> r.code == EINVAL
    ensures r.Ok? ==> r.value.1 == p + 4 && r.value.0 < TWO32
  {
    if p + 4 <= |buf| then Ok((U32Value(buf[p..p + 4]), p + 4)) else Fail(EINVAL)
  }

  /** One field at `p`: its value and the position after it.  A counted
      string is copied with `talloc_strndup`, so it ends at its first NUL; a
      token keeps its declared payload. */
  function ReadField(buf: seq<bv8>, p: nat, k: Kind): (r: Result<(Field, nat)>)
    ensures r.Fail? ==> r.code == EINVAL
    ensures r.Ok? ==> FieldOfKind(r.value.0, k) && p < r.value.1 <= |buf|
  {
    match k
    case Word =>
      if p + 4 > |buf| then Fail(EINVAL)
      else Ok((WordF(U32Value(buf[p..p + 4])), p + 4))
    case Str =>
      if p + 4 > |buf| then Fail(EINVAL)
      else
        var len := U32Value(buf[p..p + 4]);
        if p + 4 + len > |buf| then Fail(EINVAL)
        else Ok((StrF(StrNDup(buf[p + 4..p + 4 + len])), p + 4 + len))
    case Tok =>
      if p + 8 > |buf| then Fail(EINVAL)
      else
        var ty, len := U32Value(buf[p..p + 4]), U32Value(buf[p + 4..p + 8]);
        if p + 8 + len > |buf| then Fail(EINVAL)
        else if ty == SSS_AUTHTOK_TYPE_EMPTY then Ok((TokF(Empty), p + 8 + len))
        else if ty == SSS_AUTHTOK_TYPE_PASSWORD then Ok((TokF(Password(buf[p + 8..p + 8 + len])), p + 8 + len))
        else if ty == SSS_AUTHTOK_TYPE_CCFILE then Ok((TokF(CcFile(buf[p + 8..p + 8 + len])), p + 8 + len))
        else Fail(EINVAL)
  }

  /** When a field reads: a word needs four bytes, a string its length word
      and that many bytes, a token its type and length words, that many
      bytes and one of the three known types. */
  lemma ReadFieldSpec(buf: seq<bv8>, p: nat, k: Kind)
    ensures k == Word ==> (ReadField(buf, p, k).Ok? <==> p + 4 <= |buf|)
    ensures k == Str ==>
      (ReadField(buf, p, k).Ok? <==>
         p + 4 <= |buf| && p + 4 + U32Value(buf[p..p + 4]) <= |buf|)
    ensures k == Tok ==>
      (ReadField(buf, p, k).Ok? <==>
         (&& p + 8 <= |buf|
          && p + 8 + U32Value(buf[p + 4..p + 8]) <= |buf|
          && U32Value(buf[p..p + 4]) in {SSS_AUTHTOK_TYPE_EMPTY,
                                         SSS_AUTHTOK_TYPE_PASSWORD,
                                         SSS_AUTHTOK_TYPE_CCFILE}))
    ensures k == Str && ReadField(buf, p, k).Ok? ==>
      var (f, q) := ReadField(buf, p, k).value;
      var len := U32Value(buf[p..p + 4]);
      q == p + 4 + len && f.s == StrNDup(buf[p + 4..q])
  {
  }

  /** The fields of the kinds `ks`, read one after the other from `p`; the
      first failure ends the read. */
  function ReadFields(buf: seq<bv8>, p: nat, ks: seq<Kind>): (r: Result<(seq<Field>, nat)>)
    ensures r.Fail? ==> r.code == EINVAL
    ensures r.Ok? ==> FieldsOfKinds(r.value.0, ks) && p <= r.value.1
    ensures r.Ok? && |ks| > 0 ==> r.value.1 <= |buf|
    decreases |ks|
  {
    if |ks| == 0 then Ok(([], p))
    else
      match ReadField(buf, p, ks[0])
      case Fail(c) => Fail(c)
      case Ok((f, q)) =>
        match ReadFields(buf, q, ks[1..])
        case Fail(c) => Fail(c)
        case Ok((fs, e)) => Ok(([f] + fs, e))
  }

  function TokOf(f: Field): AuthTok {
    if f.TokF? then f.t else Empty
  }

  function StrOf(f: Field): CStr {
    if f.StrF? then f.s else []
  }

  function WordOf(f: Field): nat {
    if f.WordF? then f.w else 0
  }

  /** The request whose command is `cmd` and whose remaining fields are `fs`,
      laid out as `Layout(cmd)` says. */
  function Assemble(cmd: nat, fs: seq<Field>): (r: Request)
    requires FieldsOfKinds(fs, Layout(cmd))
  {
    var creds := CarriesCreds(cmd);
    var n := if creds then 10 else 7;
    Request(
      cmd, WordOf(fs[0]), WordOf(fs[1]), WordOf(fs[2]) != 0, WordOf(fs[3]),
      WordOf(fs[4]) != 0, WordOf(fs[5]) != 0, StrOf(fs[6]),
      if creds then Some(StrOf(fs[7])) else None,
      if creds then Some(StrOf(fs[8])) else None,
      if creds then TokOf(fs[9]) else Empty,
      if cmd == SSS_PAM_CHAUTHTOK then TokOf(fs[n]) else Empty,
      if cmd == SSS_PAM_ACCT_MGMT then Some(StrOf(fs[n])) else None)
  }

  /** `unpack_buffer`: the request at the start of `buf` and the position
      just after it.  Bytes after the request are ignored. */
  function DecodeAt(buf: seq<bv8>): (r: Result<(Request, nat)>)
    ensures r.Fail? ==> r.code == EINVAL
    ensures r.Ok? ==> r.value.1 <= |buf|
    ensures r.Ok? ==>
      var req := r.value.0;
      && (req.ccname.Some? <==> CarriesCreds(req.cmd))
      && (req.keytab.Some? <==> CarriesCreds(req.cmd))
      && (!CarriesCreds(req.cmd) ==> req.authtok == Empty)
      && (req.cmd != SSS_PAM_CHAUTHTOK ==> req.newAuthtok == Empty)
      && (req.user.Some? <==> req.cmd == SSS_PAM_ACCT_MGMT)
  {
    var (cmd, p) :- ReadU32(buf, 0);
    var (fs, e) :- ReadFields(buf, p, Layout(cmd));
    Ok((Assemble(cmd, fs), e))
  }

  /** The request a buffer starts with; what it carries follows from its
      command. */
  function Decode(buf: seq<bv8>): (r: Result<Request>)
    ensures r.Fail? ==> r.code == EINVAL
    ensures |buf| < 4 ==> r.Fail?
    ensures r.Ok? ==>
      var req := r.value;
      && (req.ccname.Some? <==> CarriesCreds(req.cmd))
      && (req.keytab.Some? <==> CarriesCreds(req.cmd))
      && (!CarriesCreds(req.cmd) ==> req.authtok == Empty)
      && (req.cmd != SSS_PAM_CHAUTHTOK ==> req.newAuthtok == Empty)
      && (req.user.Some? <==> req.cmd == SSS_PAM_ACCT_MGMT)
  {
    var (req, _) :- DecodeAt(buf);
    Ok(req)
  }

  // ---------------------------------------------------------------------
  // Encoding: what the back end writes, as the inverse of the decoder.

  function TokType(t: AuthTok): nat {
    match t
    case Empty => SSS_AUTHTOK_TYPE_EMPTY
    case Password(_) => SSS_AUTHTOK_TYPE_PASSWORD
    case CcFile(_) => SSS_AUTHTOK_TYPE_CCFILE
  }

  function TokPayload(t: AuthTok): seq<bv8> {
    match t
    case Empty => []
    case Password(s) => s
    case CcFile(s) => s
  }

  predicate Encodable(f: Field) {
    match f
    case WordF(w) => w < TWO32
    case StrF(s) => |s| < TWO32
    case TokF(t) => |TokPayload(t)| < TWO32
  }

  function EncodeField(f: Field): (b: seq<bv8>)
    requires Encodable(f)
  {
    match f
    case WordF(w) => U32Bytes(w)
    case StrF(s) => U32Bytes(|s|) + s
    case TokF(t) => U32Bytes(TokType(t)) + U32Bytes(|TokPayload(t)|) + TokPayload(t)
  }

  predicate AllEncodable(fs: seq<Field>) {
    forall i | 0 <= i < |fs| :: Encodable(fs[i])
  }

  function EncodeFields(fs: seq<Field>): (b: seq<bv8>)
    requires AllEncodable(fs)
  {
    if |fs| == 0 then [] else EncodeField(fs[0]) + EncodeFields(fs[1..])
  }

  function BoolWord(b: bool): nat {
    if b then 1 else 0
  }

  /** The fields after the command word of a request, in layout order. */
  function Disassemble(r: Request): (fs: seq<Field>) {
    [WordF(r.uid), WordF(r.gid), WordF(BoolWord(r.validate)), WordF(r.offline),
     WordF(BoolWord(r.differentRealm)), WordF(BoolWord(r.enterprise)), StrF(r.upn)]
    + (if CarriesCreds(r.cmd)
       then [StrF(if r.ccname.Some? then r.ccname.value else []),
             StrF(if r.keytab.Some? then r.keytab.value else []),
             TokF(r.authtok)]
       else [])
    + (if r.cmd == SSS_PAM_CHAUTHTOK then [TokF(r.newAuthtok)] else [])
    + (if r.cmd == SSS_PAM_ACCT_MGMT then [StrF(if r.user.Some? then r.user.value else [])] else [])
  }

  /** A request the back end can send: every word fits in 32 bits and the
      optional fields are present exactly for the commands that carry them. */
  predicate WellFormed(r: Request) {
    && r.cmd < TWO32 && r.uid < TWO32 && r.gid < TWO32 && r.offline < TWO32
    && |r.upn| < TWO32
    && (r.ccname.Some? <==> CarriesCreds(r.cmd))
    && (r.keytab.Some? <==> CarriesCreds(r.cmd))
    && (r.ccname.Some? ==> |r.ccname.value| < TWO32)
    && (r.keytab.Some? ==> |r.keytab.value| < TWO32)
    && (!CarriesCreds(r.cmd) ==> r.authtok == Empty)
    && |TokPayload(r.authtok)| < TWO32
    && (r.cmd != SSS_PAM_CHAUTHTOK ==> r.newAuthtok == Empty)
    && |TokPayload(r.newAuthtok)| < TWO32
    && (r.user.Some? <==> r.cmd == SSS_PAM_ACCT_MGMT)
    && (r.user.Some? ==> |r.user.value| < TWO32)
  }

  lemma DisassembleShape(r: Request)
    requires WellFormed(r)
    ensures FieldsOfKinds(Disassemble(r), Layout(r.cmd))
    ensures AllEncodable(Disassemble(r))
    ensures Assemble(r.cmd, Disassemble(r)) == r
  {
    DisassembleKinds(r);
    DisassembleEncodable(r);
    AssembleDisassemble(r);
  }

  /** The fields of a request have the kinds its command's layout reads. */
  lemma DisassembleKinds(r: Request)
    ensures FieldsOfKinds(Disassemble(r), Layout(r.cmd))
  {
    var creds := CarriesCreds(r.cmd);
    var chauthtok, acct := r.cmd == SSS_PAM_CHAUTHTOK, r.cmd == SSS_PAM_ACCT_MGMT;
    var h := [WordF(r.uid), WordF(r.gid), WordF(BoolWord(r.validate)), WordF(r.offline),
              WordF(BoolWord(r.differentRealm)), WordF(BoolWord(r.enterprise)), StrF(r.upn)];
    var c := if creds
             then [StrF(if r.ccname.Some? then r.ccname.value else []),
                   StrF(if r.keytab.Some? then r.keytab.value else []),
                   TokF(r.authtok)]
             else [];
    var t := if chauthtok then [TokF(r.newAuthtok)] else [];
    var u := if acct then [StrF(if r.user.Some? then r.user.value else [])] else [];
    var hk := [Word, Word, Word, Word, Word, Word, Str];
    var ck := if creds then [Str, Str, Tok] else [];
    var tk := if chauthtok then [Tok] else [];
    var uk := if acct then [Str] else [];
    assert FieldsOfKinds(h, hk) && FieldsOfKinds(c, ck);
    assert FieldsOfKinds(t, tk) && FieldsOfKinds(u, uk);
    KindsJoin(h, hk, c, ck);
    KindsJoin(h + c, hk + ck, t, tk);
    KindsJoin(h + c + t, hk + ck + tk, u, uk);
  }

  /** Kinds carry over to the concatenation of two field lists. */
  lemma KindsJoin(a: seq<Field>, ka: seq<Kind>, b: seq<Field>, kb: seq<Kind>)
    requires FieldsOfKinds(a, ka) && FieldsOfKinds(b, kb)
    ensures FieldsOfKinds(a + b, ka + kb)
  {
    forall i | 0 <= i < |a + b|
      ensures FieldOfKind((a + b)[i], (ka + kb)[i])
    {
      if i >= |a| {
        assert (a + b)[i] == b[i - |a|] && (ka + kb)[i] == kb[i - |a|];
      }
    }
  }

  lemma DisassembleEncodable(r: Request)
    requires WellFormed(r)
    ensures AllEncodable(Disassemble(r))
  {
    var fs, ks := Disassemble(r), Layout(r.cmd);
    var head := [WordF(r.uid), WordF(r.gid), WordF(BoolWord(r.validate)), WordF(r.offline),
                 WordF(BoolWord(r.differentRealm)), WordF(BoolWord(r.enterprise)), StrF(r.upn)];
    var hk := [Word, Word, Word, Word, Word, Word, Str];
    if r.cmd == SSS_PAM_CHAUTHTOK {
      assert fs == head + [StrF(r.ccname.value), StrF(r.keytab.value), TokF(r.authtok), TokF(r.newAuthtok)];
      assert ks == hk + [Str, Str, Tok, Tok];
    } else if CarriesCreds(r.cmd) {
      assert fs == head + [StrF(r.ccname.value), StrF(r.keytab.value), TokF(r.authtok)];
      assert ks == hk + [Str, Str, Tok];
    } else if r.cmd == SSS_PAM_ACCT_MGMT {
      assert fs == head + [StrF(r.user.value)];
      assert ks == hk + [Str];
    } else {
      assert fs == head;
      assert ks == hk;
    }
  }

  lemma AssembleDisassemble(r: Request)
    requires WellFormed(r)
    ensures FieldsOfKinds(Disassemble(r), Layout(r.cmd))
    ensures Assemble(r.cmd, Disassemble(r)) == r
  {
    DisassembleKinds(r);
    var fs, ks := Disassemble(r), Layout(r.cmd);
    var head := [WordF(r.uid), WordF(r.gid), WordF(BoolWord(r.validate)), WordF(r.offline),
                 WordF(BoolWord(r.differentRealm)), WordF(BoolWord(r.enterprise)), StrF(r.upn)];
    var hk := [Word, Word, Word, Word, Word, Word, Str];
    if r.cmd == SSS_PAM_CHAUTHTOK {
      assert fs == head + [StrF(r.ccname.value), StrF(r.keytab.value), TokF(r.authtok), TokF(r.newAuthtok)];
      assert ks == hk + [Str, Str, Tok, Tok];
    } else if CarriesCreds(r.cmd) {
      assert fs == head + [StrF(r.ccname.value), StrF(r.keytab.value), TokF(r.authtok)];
      assert ks == hk + [Str, Str, Tok];
    } else if r.cmd == SSS_PAM_ACCT_MGMT {
      assert fs == head + [StrF(r.user.value)];
      assert ks == hk + [Str];
    } else {
      assert fs == head;
      assert ks == hk;
    }
  }

  function Encode(r: Request): (b: seq<bv8>)
    requires WellFormed(r)
  {
    DisassembleShape(r);
    U32Bytes(r.cmd) + EncodeFields(Disassemble(r))
  }

  // ---------------------------------------------------------------------
  // Reading an encoding back.

  lemma U32At(buf: seq<bv8>, p: nat, w: nat)
    requires w < TWO32 && p + 4 <= |buf| && buf[p..p + 4] == U32Bytes(w)
    ensures U32Value(buf[p..p + 4]) == w
  {
    U32RoundTrip(w);
  }

  lemma ReadWordEncoded(buf: seq<bv8>, p: nat, w: nat)
    requires w < TWO32 && p + 4 <= |buf| && buf[p..p + 4] == U32Bytes(w)
    ensures ReadField(buf, p, Word) == Ok((WordF(w), p + 4))
  {
    U32At(buf, p, w);
  }

  lemma ReadStrEncoded(buf: seq<bv8>, p: nat, s: CStr)
    requires |s| < TWO32
    requires p + 4 + |s| <= |buf|
    requires buf[p..p + 4 + |s|] == U32Bytes(|s|) + s
    ensures ReadField(buf, p, Str) == Ok((StrF(s), p + 4 + |s|))
  {
    SliceSplit(buf, p, U32Bytes(|s|), s);
    U32At(buf, p, |s|);
    ReadStrAt(buf, p, s);
  }

  /** A string field read from its decoded length word and bytes. */
  lemma ReadStrAt(buf: seq<bv8>, p: nat, s: CStr)
    requires p + 4 + |s| <= |buf| && U32Value(buf[p..p + 4]) == |s|
    requires buf[p + 4..p + 4 + |s|] == s
    ensures ReadField(buf, p, Str) == Ok((StrF(s), p + 4 + |s|))
  {
    StrNDupNulFree(s);
  }

  lemma ReadTokEncoded(buf: seq<bv8>, p: nat, t: AuthTok)
    requires |TokPayload(t)| < TWO32
    requires p + 8 + |TokPayload(t)| <= |buf|
    requires buf[p..p + 8 + |TokPayload(t)|]
             == U32Bytes(TokType(t)) + U32Bytes(|TokPayload(t)|) + TokPayload(t)
    ensures ReadField(buf, p, Tok) == Ok((TokF(t), p + 8 + |TokPayload(t)|))
  {
    var ty, len, pl := U32Bytes(TokType(t)), U32Bytes(|TokPayload(t)|), TokPayload(t);
    SliceSplit(buf, p, ty + len, pl);
    SliceSplit(buf, p, ty, len);
    U32At(buf, p, TokType(t));
    U32At(buf, p + 4, |pl|);
    ReadTokAt(buf, p, t);
  }

  /** A token field read from its decoded type and length words and its
      payload. */
  lemma ReadTokAt(buf: seq<bv8>, p: nat, t: AuthTok)
    requires p + 8 + |TokPayload(t)| <= |buf|
    requires U32Value(buf[p..p + 4]) == TokType(t)
    requires U32Value(buf[p + 4..p + 8]) == |TokPayload(t)|
    requires buf[p + 8..p + 8 + |TokPayload(t)|] == TokPayload(t)
    ensures ReadField(buf, p, Tok) == Ok((TokF(t), p + 8 + |TokPayload(t)|))
  {
  }

  lemma ReadFieldEncoded(buf: seq<bv8>, p: nat, f: Field, k: Kind)
    requires Encodable(f) && FieldOfKind(f, k)
    requires p + |EncodeField(f)| <= |buf|
    requires buf[p..p + |EncodeField(f)|] == EncodeField(f)
    ensures ReadField(buf, p, k) == Ok((f, p + |EncodeField(f)|))
  {
    match f
    case WordF(w) =>
      assert k == Word;
      ReadWordEncoded(buf, p, w);
    case StrF(s) =>
      assert k == Str;
      ReadStrEncoded(buf, p, s);
    case TokF(t) =>
      assert k == Tok;
      ReadTokEncoded(buf, p, t);
  }

  /** The first field and the rest of a non-empty field list. */
  lemma FieldsTail(fs: seq<Field>, ks: seq<Kind>)
    requires FieldsOfKinds(fs, ks) && AllEncodable(fs) && |fs| > 0
    ensures |ks| > 0 && FieldOfKind(fs[0], ks[0]) && Encodable(fs[0])
    ensures FieldsOfKinds(fs[1..], ks[1..]) && AllEncodable(fs[1..])
    ensures EncodeFields(fs) == EncodeField(fs[0]) + EncodeFields(fs[1..])
  {
    assert FieldsOfKinds(fs[1..], ks[1..]) by {
      forall i | 0 <= i < |fs| - 1
        ensures FieldOfKind(fs[1..][i], ks[1..][i])
      {
        assert FieldOfKind(fs[i + 1], ks[i + 1]);
      }
    }
    assert AllEncodable(fs[1..]) by {
      forall i | 0 <= i < |fs| - 1
        ensures Encodable(fs[1..][i])
      {
        assert Encodable(fs[i + 1]);
      }
    }
  }

  /** Each field of `fs` reads back at its place behind the one before,
      starting at `p`; the last one ends at `e`. */
  predicate ReadsAt(buf: seq<bv8>, p: nat, fs: seq<Field>, ks: seq<Kind>, e: nat)
    decreases |fs|
  {
    if |fs| == 0 then e == p
    else
      && |ks| > 0
      && ReadField(buf, p, ks[0]).Ok?
      && ReadField(buf, p, ks[0]).value.0 == fs[0]
      && ReadsAt(buf, ReadField(buf, p, ks[0]).value.1, fs[1..], ks[1..], e)
  }

  /** The fields of an encoded list read back one behind the other, up to
      the end `e` of the encoding. */
  lemma {:induction false} SliceReadsAt(buf: seq<bv8>, p: nat, fs: seq<Field>, ks: seq<Kind>, e: nat)
    requires FieldsOfKinds(fs, ks) && AllEncodable(fs)
    requires e == p + |EncodeFields(fs)| <= |buf|
    requires buf[p..e] == EncodeFields(fs)
    ensures ReadsAt(buf, p, fs, ks, e)
    decreases |fs|
  {
    if |fs| > 0 {
      var q := SliceHead(buf, p, fs, ks);
      SliceReadsAt(buf, q, fs[1..], ks[1..], e);
      ReadsAtCons(buf, p, fs, ks, q, e);
    } else {
      assert EncodeFields(fs) == [];
    }
  }

  /** An encoded list splits into its first field's encoding at `p` and the
      rest's encoding behind it. */
  lemma SliceHead(buf: seq<bv8>, p: nat, fs: seq<Field>, ks: seq<Kind>) returns (q: nat)
    requires FieldsOfKinds(fs, ks) && AllEncodable(fs) && |fs| > 0
    requires p + |EncodeFields(fs)| <= |buf|
    requires buf[p..p + |EncodeFields(fs)|] == EncodeFields(fs)
    ensures |ks| > 0 && FieldOfKind(fs[0], ks[0]) && Encodable(fs[0])
    ensures FieldsOfKinds(fs[1..], ks[1..]) && AllEncodable(fs[1..])
    ensures q == p + |EncodeField(fs[0])| && buf[p..q] == EncodeField(fs[0])
    ensures q + |EncodeFields(fs[1..])| == p + |EncodeFields(fs)|
    ensures buf[q..q + |EncodeFields(fs[1..])|] == EncodeFields(fs[1..])
  {
    FieldsTail(fs, ks);
    q := p + |EncodeField(fs[0])|;
    SliceSplitAt(buf, p, EncodeFields(fs), EncodeField(fs[0]), EncodeFields(fs[1..]), q);
  }

  /** A first field encoded at `p` in front of a list that reads back up to
      `e` makes the whole list read back up to `e`. */
  lemma ReadsAtCons(buf: seq<bv8>, p: nat, fs: seq<Field>, ks: seq<Kind>, q: nat, e: nat)
    requires |fs| > 0 && |ks| > 0 && FieldOfKind(fs[0], ks[0]) && Encodable(fs[0])
    requires q == p + |EncodeField(fs[0])| <= |buf| && buf[p..q] == EncodeField(fs[0])
    requires ReadsAt(buf, q, fs[1..], ks[1..], e)
    ensures ReadsAt(buf, p, fs, ks, e)
  {
    ReadFieldEncoded(buf, p, fs[0], ks[0]);
  }

  lemma {:induction false} ReadFieldsEncoded(buf: seq<bv8>, p: nat, fs: seq<Field>, ks: seq<Kind>, e: nat)
    requires |fs| == |ks|
    requires ReadsAt(buf, p, fs, ks, e)
    ensures ReadFields(buf, p, ks) == Ok((fs, e))
    decreases |fs|
  {
    if |fs| > 0 {
      var q := ReadField(buf, p, ks[0]).value.1;
      ReadFieldsEncoded(buf, q, fs[1..], ks[1..], e);
      ReadFieldsStep(buf, p, ks, fs, q, e, e);
    }
  }

  /** One step of `ReadFieldsEncoded`: the first field read at `p`, the
      rest read behind it. */
  lemma ReadFieldsStep(buf: seq<bv8>, p: nat, ks: seq<Kind>, fs: seq<Field>, q: nat, e: nat, e': nat)
    requires |ks| > 0 && |fs| > 0 && e == e'
    requires ReadField(buf, p, ks[0]) == Ok((fs[0], q))
    requires ReadFields(buf, q, ks[1..]) == Ok((fs[1..], e))
    ensures ReadFields(buf, p, ks) == Ok((fs, e'))
  {
    assert [fs[0]] + fs[1..] == fs;
  }

  /** Decoding an encoded request gives the request back, whatever follows
      it, provided its strings are NUL-free (they are C strings). */
  lemma DecodeEncode(r: Request, rest: seq<bv8>)
    requires WellFormed(r)
    ensures DecodeAt(Encode(r) + rest) == Ok((r, |Encode(r)|))
    ensures Decode(Encode(r) + rest) == Ok(r)
  {
    DisassembleShape(r);
    var buf := Encode(r) + rest;
    var fs := Disassemble(r);
    SliceSplit(buf, 0, U32Bytes(r.cmd), EncodeFields(fs));
    U32At(buf, 0, r.cmd);
    SliceReadsAt(buf, 4, fs, Layout(r.cmd), 4 + |EncodeFields(fs)|);
    ReadFieldsEncoded(buf, 4, fs, Layout(r.cmd), 4 + |EncodeFields(fs)|);
  }

  // ---------------------------------------------------------------------
  // Truncation: a reader looks only at the bytes it consumes.

  lemma ReadFieldPrefix(buf: seq<bv8>, p: nat, k: Kind, n: nat)
    requires n <= |buf|
    requires ReadField(buf, p, k).Ok?
    ensures ReadField(buf[..n], p, k) ==
            if n >= ReadField(buf, p, k).value.1 then ReadField(buf, p, k) else Fail(EINVAL)
  {
    var e := ReadField(buf, p, k).value.1;
    var pre := buf[..n];
    if n >= e {
      assert pre[p..e] == buf[p..e];
      if p + 8 <= e {
        assert pre[p..p + 4] == buf[p..p + 4];
        assert pre[p + 4..p + 8] == buf[p + 4..p + 8];
      }
      assert pre[p..p + 4] == buf[p..p + 4];
      match k
      case Word =>
      case Str =>
        var len := U32Value(buf[p..p + 4]);
        assert pre[p + 4..p + 4 + len] == buf[p + 4..p + 4 + len];
      case Tok =>
        var len := U32Value(buf[p + 4..p + 8]);
        assert pre[p + 8..p + 8 + len] == buf[p + 8..p + 8 + len];
    } else {
      if p + 4 <= n {
        assert pre[p..p + 4] == buf[p..p + 4];
      }
      if p + 8 <= n {
        assert pre[p + 4..p + 8] == buf[p + 4..p + 8];
      }
    }
  }

  lemma {:induction false} ReadFieldsPrefix(buf: seq<bv8>, p: nat, ks: seq<Kind>, n: nat)
    requires p <= n <= |buf|
    requires ReadFields(buf, p, ks).Ok?
    ensures ReadFields(buf[..n], p, ks) ==
            if n >= ReadFields(buf, p, ks).value.1 then ReadFields(buf, p, ks) else Fail(EINVAL)
    decreases |ks|
  {
    if |ks| > 0 {
      var q := ReadField(buf, p, ks[0]).value.1;
      ReadFieldPrefix(buf, p, ks[0], n);
      if n >= q {
        ReadFieldsPrefix(buf, q, ks[1..], n);
      } else {
        assert ReadField(buf[..n], p, ks[0]).Fail?;
      }
    }
  }

  /** Every proper prefix of an encoded request is rejected with EINVAL:
      a declared length that runs past the end of the buffer, or a word that
      is cut short, is never read. */
  lemma DecodeTruncated(r: Request, n: nat)
    requires WellFormed(r)
    requires n < |Encode(r)|
    ensures DecodeAt(Encode(r)[..n]) == Fail(EINVAL)
  {
    var buf := Encode(r);
    DecodeEncode(r, []);
    assert buf + [] == buf;
    if n >= 4 {
      assert buf[..n][..4] == buf[..4];
      ReadFieldsPrefix(buf, 4, Layout(r.cmd), n);
    }
  }

  /** A token whose type word is not EMPTY, PASSWORD or CCFILE is rejected
      with EINVAL even when its declared length fits. */
  lemma UnknownTokenType(buf: seq<bv8>, p: nat, ty: nat, pl: seq<bv8>)
    requires ty < TWO32 && |pl| < TWO32
    requires ty !in {SSS_AUTHTOK_TYPE_EMPTY, SSS_AUTHTOK_TYPE_PASSWORD, SSS_AUTHTOK_TYPE_CCFILE}
    requires p + 8 + |pl| <= |buf|
    requires buf[p..p + 8 + |pl|] == U32Bytes(ty) + U32Bytes(|pl|) + pl
    ensures ReadField(buf, p, Tok) == Fail(EINVAL)
  {
    SliceSplit(buf, p, U32Bytes(ty) + U32Bytes(|pl|), pl);
    SliceSplit(buf, p, U32Bytes(ty), U32Bytes(|pl|));
    U32At(buf, p, ty);
  }

  // ---------------------------------------------------------------------
  // The response packet.

  /** One entry of the response list: a message type and its payload. */
  datatype Frame = Frame(msgType: int, data: seq<bv8>)

  predicate FrameOk(f: Frame) {
    IsI32(f.msgType) && |f.data| < 0x8000_0000
  }

  function FrameBytes(f: Frame): (b: seq<bv8>)
    requires FrameOk(f)
    ensures |b| == 8 + |f.data|
  {
    I32Bytes(f.msgType) + I32Bytes(|f.data|) + f.data
  }

  /** The packet size computed by the first loop: 8 bytes of header per
      message plus its payload. */
  function PayloadSize(fs: seq<Frame>): nat {
    if |fs| == 0 then 0 else 8 + |fs[0].data| + PayloadSize(fs[1..])
  }

  function PackFrames(fs: seq<Frame>): (b: seq<bv8>)
    requires forall i | 0 <= i < |fs| :: FrameOk(fs[i])
    ensures |b| == PayloadSize(fs)
  {
    if |fs| == 0 then [] else FrameBytes(fs[0]) + PackFrames(fs[1..])
  }

  /** `pack_response_packet`: the status word, then every message of the list
      in list order. */
  function PackResponse(status: int, fs: seq<Frame>): (b: seq<bv8>)
    requires IsI32(status)
    requires forall i | 0 <= i < |fs| :: FrameOk(fs[i])
    ensures |b| == 4 + PayloadSize(fs)
    ensures I32Value(b[..4]) == status
  {
    var b := I32Bytes(status) + PackFrames(fs);
    assert b[..4] == I32Bytes(status);
    I32RoundTrip(status);
    b
  }

  /** Reading a response packet back: the parent's view of it. */
  function UnpackFrames(b: seq<bv8>): (r: Option<seq<Frame>>)
    decreases |b|
  {
    if |b| == 0 then Some([])
    else if |b| < 8 then None
    else
      var len := I32Value(b[4..8]);
      if len < 0 || 8 + len > |b| then None
      else
        var rest := UnpackFrames(b[8 + len..]);
        if rest.None? then None
        else Some([Frame(I32Value(b[..4]), b[8..8 + len])] + rest.value)
  }

  function UnpackResponse(b: seq<bv8>): Option<(int, seq<Frame>)> {
    if |b| < 4 then None
    else
      var fs := UnpackFrames(b[4..]);
      if fs.None? then None else Some((I32Value(b[..4]), fs.value))
  }

  lemma {:induction false} UnpackPackFrames(fs: seq<Frame>)
    requires forall i | 0 <= i < |fs| :: FrameOk(fs[i])
    ensures UnpackFrames(PackFrames(fs)) == Some(fs)
  {
    if |fs| > 0 {
      var f := fs[0];
      var b := PackFrames(fs);
      var head, tail := FrameBytes(f), PackFrames(fs[1..]);
      assert b == head + tail;
      assert b[..4] == I32Bytes(f.msgType);
      assert b[4..8] == I32Bytes(|f.data|);
      assert b[8..8 + |f.data|] == f.data;
      assert b[8 + |f.data|..] == tail;
      I32RoundTrip(f.msgType);
      I32RoundTrip(|f.data|);
      UnpackPackFrames(fs[1..]);
      assert [f] + fs[1..] == fs;
    }
  }

  /** The response packet carries exactly the status and the message list:
      the parent reads back both, messages in list order. */
  lemma UnpackPack(status: int, fs: seq<Frame>)
    requires IsI32(status)
    requires forall i | 0 <= i < |fs| :: FrameOk(fs[i])
    ensures UnpackResponse(PackResponse(status, fs)) == Some((status, fs))
  {
    var b := PackResponse(status, fs);
    assert b[4..] == PackFrames(fs);
    UnpackPackFrames(fs);
  }

  /** Appending a message to the end of the list appends its bytes to the
      end of the packet. */
  lemma {:induction false} PackAppend(status: int, fs: seq<Frame>, f: Frame)
    requires IsI32(status) && FrameOk(f)
    requires forall i | 0 <= i < |fs| :: FrameOk(fs[i])
    ensures PackResponse(status, fs + [f]) == PackResponse(status, fs) + FrameBytes(f)
  {
    PackFramesAppend(fs, f);
  }

  lemma {:induction false} PackFramesAppend(fs: seq<Frame>, f: Frame)
    requires FrameOk(f)
    requires forall i | 0 <= i < |fs| :: FrameOk(fs[i])
    ensures PackFrames(fs + [f]) == PackFrames(fs) + FrameBytes(f)
  {
    if |fs| == 0 {
      assert fs + [f] == [f];
    } else {
      assert (fs + [f])[1..] == fs[1..] + [f];
      PackFramesAppend(fs[1..], f);
    }
  }
}
